=== FILE: README.md ===
# Cricket player rating and scoring core, modelled in Dafny

This project models the core of a small cricket tool. The tool has two halves.

- **The rating half.** Season statistics are loaded from a CSV file and grouped by player. Each player gets batting, bowling and fielding skill scores. These are blended over seasons into one role-dependent rating, and a team is selected by role quotas.
- **The scoring half.** A match is scored ball by ball. Each delivery is appended to a per-innings event log, and the innings totals, innings and match statuses and per-player batting and bowling rows are rebuilt from that log after every change. A few pure helpers of the scoring console sit on top: the overs display, the toss-based batting order, strike rotation, live-state defaulting, the player index and the per-role padding of the team table.

The model is purely functional.

- A match is an immutable `Match` value. It holds:
  - its innings, in id order, each with its `seq` of ball events;
  - its squads, as a set of (team, player) pairs;
  - the derived batting and bowling rows.
- `RecordBallEvent`, `UndoLastBall` and `GetOrCreateInnings` map a match to a new match or to an error. Each one stands for one committed transaction of the store.
- The recompute step is a pure fold over the logs.
- All rating arithmetic is exact `real`.
- Strings are `seq<char>`. `Strip` follows Python's `str.strip()` with the whitespace set of `str.isspace()`, U+001C–U+001F and the Unicode spaces included. `Lower` follows `str.lower()` on ASCII letters.

Modules and files:

| file | module | models |
|---|---|---|
| common.dfy | Common | `Option`, `Result`, a stable descending sort, key sets, filtering |
| text.dfy | Text | strip/lower, blank test, decimal rendering of integers |
| models.dfy | Models | the season record and the rated profile |
| classifier.dfy | Classifier | role classification and the skill formulas |
| loader.dfy | Loader | header check, blank-to-zero conversion, grouping by player |
| rating.dfy | Rating | season blending, per-player rating, ranking |
| selector.dfy | Selector | role-quota team selection with shortages and backfill |
| events.dfy | Events | extra and dismissal types, ball events, innings, match |
| recompute.dfy | Recompute | innings totals, statuses and per-player rows from the logs |
| stats.dfy | PlayerStats | what the per-player rows mean in terms of the log |
| ledger.dfy | Ledger | recording a ball, undoing the last ball, opening an innings |
| ledger_facts.dfy | LedgerFacts | invariants of the ledger and record/undo round trips |
| console.dfy | Console | the scoring-console helpers and the team-table padding |

Behaviours of the code that the model keeps as written:

- **Undo after a wide.** Undo deletes only the last event, so a wide's extra run stays when a later ball is undone. Recording a single, a wide and a six and then undoing once leaves 2 runs from 1 legal ball (`LedgerFacts.SingleWideSixThenUndo`).
- **Innings numbers.** `get_or_create_innings` accepts any positive innings number, not only 1 and 2.
- **Completed matches.** A match is completed once it has at least two innings and at least two of them are completed.
- **Opening an innings.** `get_or_create_innings` marks the match live without recomputing. If a ball is then recorded and undone, the recompute resets the status to scheduled.

## Model

| member | source | states |
|---|---|---|
| Events.NormalizeExtraType | player_rating_tool/db.py:205-210 | a missing or empty extra type means "none"; otherwise the stripped, lower-cased token is accepted exactly when it names one of the five extra types |
| Events.NormalizeExtraTypeRoundTrip | player_rating_tool/db.py:205-210 | every extra type's own name normalises back to that type |
| Events.ExtraNameRoundTrip | player_rating_tool/db.py:207 | the five allowed tokens and the extra types correspond one to one |
| Events.NormalizeDismissalTypeMeaning | player_rating_tool/db.py:213-219 | None stays None; a blank string becomes None; anything else becomes its non-empty stripped, lower-cased form |
| Events.NormalizeDismissalTypeIdempotent | player_rating_tool/db.py:213-219 | normalising a dismissal type twice gives the same result as once |
| Ledger.ValidateDelivery | player_rating_tool/db.py:517-534 | a delivery is accepted exactly when the batters differ, bat runs and extras are non-negative, the extra type is allowed, extras are zero for "none" and bat runs are zero for wides, byes and leg byes; same batters is the first error reported |
| Ledger.IsLegal | player_rating_tool/db.py:534 | a delivery counts as a legal ball exactly when it is neither a wide nor a no-ball |
| Ledger.MaxSeq | player_rating_tool/db.py:594-598 | the largest sequence number in the log, or 0 for an empty log |
| Ledger.StampBothBranches | player_rating_tool/db.py:600-606 | both numbering branches give the same over and ball stamp; the ball number lies in 1..6 and the stamp counts the legal balls already bowled |
| Ledger.CleanNotes | player_rating_tool/db.py:645 | notes are kept, stripped, exactly when they are present and not blank |
| Ledger.FindInnings | player_rating_tool/db.py:538-556 | finds the position of the innings with the given id, and is None exactly when no innings has that id |
| Ledger.CheckInnings | player_rating_tool/db.py:555-592 | the innings check passes exactly when the innings is not completed, has fewer than ten wickets and fewer than overs×6 legal balls, the striker, non-striker and any dismissed player are in the batting squad and the bowler is in the bowling squad; a completed innings is rejected as such |
| Ledger.MakeEvent | player_rating_tool/db.py:594-647 | the new event takes the next sequence number, the legal flag of its extra type, the stamp from the legal balls before it, the delivery's players, runs and wicket flag, and the normalised dismissal type; the dismissed player is kept as given exactly when one is given and non-zero; the notes are kept, stripped, exactly when present and not blank |
| Ledger.RecordBallEvent | player_rating_tool/db.py:502-651 | a validation error comes first; an unknown innings is rejected; otherwise recording succeeds exactly when the innings check passes, and then the match is the recompute of the old match with the new event appended to that innings' log |
| Ledger.TopIndex | player_rating_tool/db.py:657-666 | picks an event whose sequence number is the largest in the log |
| Ledger.RemoveAt | player_rating_tool/db.py:670 | deleting the k-th event shortens the log by one and keeps every other event, in order: those before k in place, those after k shifted down by one |
| Ledger.UndoLastBall | player_rating_tool/db.py:654-673 | nothing is removed and the match is unchanged exactly when the innings is unknown or its log is empty; otherwise the match is the recompute after deleting the highest-sequence event |
| Ledger.GetOrCreateInnings | player_rating_tool/db.py:410-444 | fails exactly when the innings number is not positive or the teams are equal; an existing innings of that number is returned with the match unchanged; otherwise a new empty in-progress innings is appended and the match becomes live |
| Ledger.FindNumber | player_rating_tool/db.py:425-430 | finds the innings with the given number, and is None exactly when there is none |
| Recompute.LegalCount | player_rating_tool/db.py:895 | the legal-ball count never exceeds the number of events |
| Recompute.WicketCount | player_rating_tool/db.py:896 | the wicket count never exceeds the number of events |
| Recompute.InningsStatusOf | player_rating_tool/db.py:907-909 | an innings is completed exactly when it has ten or more wickets or at least overs×6 legal balls |
| Recompute.Refresh | player_rating_tool/db.py:889-918 | refreshing keeps the innings' identity, teams and log, and sets the status to completed exactly when the new totals reach the wicket or ball limit |
| Recompute.RefreshSettles | player_rating_tool/db.py:889-918 | a refreshed innings agrees with its own log |
| Recompute.TotalsAppend | player_rating_tool/db.py:894-896 | appending an event adds its bat runs and extras to the total, one legal ball if it is legal, and one wicket if it is a wicket |
| Recompute.EventCount | player_rating_tool/db.py:930-937 | the event count is zero exactly when every innings log is empty |
| Recompute.MatchStatusOf | player_rating_tool/db.py:920-944 | a match is completed exactly when it has at least two innings and at least two completed; otherwise live exactly when some event exists; otherwise scheduled |
| Recompute.Entries | player_rating_tool/db.py:970-989 | the fold sees each event of an innings once, in log order, tagged with its innings and teams |
| Recompute.StreamSameLogs | player_rating_tool/db.py:970-989 | the fold's input depends only on the innings' ids, teams and logs |
| Recompute.AddOnce | player_rating_tool/db.py:1042 | adding an innings id to a player's innings set keeps the old ids and adds only that one |
| Recompute.EnsureBatter | player_rating_tool/db.py:995-1006 | a batter entry exists afterwards and existing entries are untouched |
| Recompute.EnsureBowler | player_rating_tool/db.py:1008-1019 | a bowler entry exists afterwards and existing entries are untouched |
| Recompute.BatStep | player_rating_tool/db.py:1041-1060 | one event adds the striker, the non-striker and any dismissed player to the batting tally, and leaves every other player's entry unchanged |
| Recompute.BowlStep | player_rating_tool/db.py:1062-1081 | one event touches only its bowler in the bowling tally |
| Recompute.Highest | player_rating_tool/db.py:1094-1096 | the highest score is non-negative, at least every per-innings total of the player, and equal to one of them unless it is 0 |
| Recompute.RecomputeMatch | player_rating_tool/db.py:878-950 | recompute keeps the match's identity and logs, refreshes every innings, sets the match status from the refreshed innings and rebuilds the batting and bowling rows from the whole log |
| Recompute.RecomputeSameLogs | player_rating_tool/db.py:878-950 | two matches with the same logs and innings recompute to the same match, so stored totals never matter |
| Recompute.RecomputeIdempotent | player_rating_tool/db.py:878-950 | recomputing twice gives the same match as recomputing once |
| PlayerStats.BowledInit | player_rating_tool/db.py:1062-1063 | a player has bowled in a log exactly when they bowled before its last event or bowled that event |
| PlayerStats.BattedInit | player_rating_tool/db.py:1041-1060 | a player has batted in a log exactly when they did so before its last event or appear in that event as striker, non-striker or dismissed player |
| PlayerStats.PassBowling | player_rating_tool/db.py:1062-1081 | a bowler has a row exactly when they bowled an event; their balls count only legal events, runs conceded add bat runs plus extras except on byes and leg byes, wides and no-balls tally their own extras, and wickets count wicket events not dismissed run out |
| PlayerStats.BatStepFigures | player_rating_tool/db.py:1041-1060 | one event adds its bat runs and one ball if legal to the striker only, and one dismissal to the dismissed player only |
| PlayerStats.PassBatting | player_rating_tool/db.py:1041-1060 | a player has a batting row exactly when they appear as striker, non-striker or dismissed player; their runs, balls faced and dismissals are the log's counts for them |
| PlayerStats.PassBounded | player_rating_tool/db.py:1050-1052 | with non-negative bat runs, each per-innings run total of a batter lies between 0 and their total runs |
| PlayerStats.StepBounded | player_rating_tool/db.py:1041-1060 | one step of the fold keeps every per-innings total within the batter's total runs |
| PlayerStats.HighestWithinRuns | player_rating_tool/db.py:1094-1096 | a batter's highest score lies between 0 and their runs, and their runs are those of the log |
| PlayerStats.BattedInInit | player_rating_tool/db.py:1041-1060 | a player has batted in a given innings exactly when they did so before the log's last event, or that event belongs to the innings and names them as striker, non-striker or dismissed player |
| PlayerStats.PassRunsByInnings | player_rating_tool/db.py:1050-1052 | the pass's bat total for a (player, innings) pair is the direct sum of the bat runs that player scored as striker in that innings (`PlayerStats.RunsInInnings`), 0 when there are none |
| PlayerStats.StrikerInnings | player_rating_tool/db.py:1041-1042 | the striker step adds the event's innings to the striker's innings and to no one else's |
| PlayerStats.JoinInnings | player_rating_tool/db.py:1054-1059 | the non-striker and dismissed-player steps add the event's innings to that player's innings and to no one else's |
| PlayerStats.BatStepInnings | player_rating_tool/db.py:1041-1060 | one event adds its innings to the innings of each batter it names, and to no one else's |
| PlayerStats.BatPassInnings | player_rating_tool/db.py:1041-1060 | a batter's accumulated innings are exactly the innings in which the log names them as striker, non-striker or dismissed player |
| PlayerStats.HighestOfLog | player_rating_tool/db.py:1094-1096 | a batter's highest score is at least 0 and at least their bat total in every innings they took part in, and unless it is 0 it equals one of those totals: the maximum over their innings, floored at 0 |
| PlayerStats.BowlingRowRatios | player_rating_tool/db.py:1133-1141 | a bowling row's overs are balls/6, its economy times overs gives runs conceded, and strike rate and average are balls and runs per wicket, all 0 without wickets or balls |
| PlayerStats.BattingRowRatios | player_rating_tool/db.py:1086-1096 | a batting row's not-outs are max(innings − dismissals, 0), its strike rate times balls gives runs×100, and its average is runs per dismissal, or runs when never out |
| PlayerStats.BowlingRowFromLog | player_rating_tool/db.py:1062-1081 | the stored bowling row of anyone who bowled carries the log's balls, runs conceded and wickets, with the ratios above |
| PlayerStats.BattingRowFromLog | player_rating_tool/db.py:1041-1096 | the stored batting row of anyone who batted carries the log's runs, balls faced and dismissals, with the ratios above, and its highest score is the largest of their per-innings bat totals, or 0 |
| LedgerFacts.NewMatch | player_rating_tool/db.py:878-950 | a match with no innings is well formed and scheduled |
| LedgerFacts.NumberedMaxSeq | player_rating_tool/db.py:594-598 | in a log numbered 1..N the largest sequence number is N and the top event is the last one |
| LedgerFacts.NumberedAppendRemove | player_rating_tool/db.py:594-673 | appending the event numbered max+1 keeps the log numbered 1..N+1, and removing its top event gives the old log back |
| LedgerFacts.MadeEventValid | player_rating_tool/db.py:517-647 | every event built from a validated delivery has non-negative runs, a ball number in 1..6 and the legal flag of its extra type |
| LedgerFacts.RecomputeWellFormed | player_rating_tool/db.py:878-950 | recomputing a match whose logs fit the limits yields a well-formed match |
| LedgerFacts.AppendWithinLimits | player_rating_tool/db.py:563-566 | an innings below ten wickets and below the ball limit stays within both limits after one more event |
| LedgerFacts.AppendLogOk | player_rating_tool/db.py:555-598 | an open innings' log plus one valid event numbered next stays numbered 1..N and within the wicket and ball limits |
| LedgerFacts.RecordPreservesWellFormed | player_rating_tool/db.py:502-651 | recording a ball keeps a well-formed match well formed: logs numbered 1..N, totals agreeing with the logs, wickets at most ten and legal balls at most overs×6 |
| LedgerFacts.RecordShape | player_rating_tool/db.py:502-651 | after a record the innings is found at the same position, its log is the old one plus the new event, and ids, teams, numbers and other logs are kept |
| LedgerFacts.ReplacedFound | player_rating_tool/db.py:878-950 | recomputing after replacing one innings' log keeps it findable at the same position with the new log, and leaves every other log alone |
| LedgerFacts.RecordNumbersNext | player_rating_tool/db.py:594-598 | a recorded event is numbered one past the innings' current length, is appended at the end, and no other innings' log changes |
| LedgerFacts.FinishedInningsRejects | player_rating_tool/db.py:557-566 | an innings that is completed, all out or at the ball limit rejects every further delivery as completed |
| LedgerFacts.RemoveTopOfLog | player_rating_tool/db.py:657-670 | in a well-formed log the highest-sequence event is the last one, and the log without it still fits the limits |
| LedgerFacts.UndoDropsLast | player_rating_tool/db.py:654-673 | undo removes the last event of the innings' log and recomputes |
| LedgerFacts.UndoRemovedWellFormed | player_rating_tool/db.py:657-673 | when undo removes an event, the recomputed match is still well formed |
| LedgerFacts.UndoPreservesWellFormed | player_rating_tool/db.py:654-673 | undo keeps a well-formed match well formed |
| LedgerFacts.UndoAfterRecord | player_rating_tool/db.py:502-673 | undoing right after a successful record removes exactly the recorded event, giving the recompute of the original match |
| LedgerFacts.UndoAfterRecordRestores | player_rating_tool/db.py:502-673 | on a match that is already up to date, record followed by undo gives back the very same match |
| LedgerFacts.AppendFreshWellFormed | player_rating_tool/db.py:424-444 | adding an empty in-progress innings with a larger id, an unused positive number and two different teams keeps a match well formed, its player rows unchanged |
| LedgerFacts.OpenPreservesWellFormed | player_rating_tool/db.py:410-444 | opening an innings under a fresh id keeps a well-formed match well formed |
| LedgerFacts.RecordAccepted | player_rating_tool/db.py:555-592 | for a valid delivery with no dismissed player, recording succeeds exactly when the innings is below ten wickets and below the ball limit and the three players are in their squads |
| LedgerFacts.RecordAddsDelivery | player_rating_tool/db.py:889-918 | recording adds exactly the delivery's runs, legal ball and wicket to the innings totals and keeps the match well formed |
| LedgerFacts.RecomputeKeepsSettled | player_rating_tool/db.py:889-918 | recompute leaves an innings whose totals already agree with its log unchanged |
| LedgerFacts.PlainDeliveryValid | player_rating_tool/db.py:517-534 | non-negative bat runs with no extra type and two different batters pass validation as an ordinary delivery |
| LedgerFacts.WideDeliveryValid | player_rating_tool/db.py:517-534 | a one-run wide with no bat runs passes validation as a wide |
| LedgerFacts.SingleWideSixThenUndo | player_rating_tool/db.py:502-673 | in a two-over innings, a single and a wide give one legal ball and 2 runs, a six then gives two legal balls and 8 runs, and undo removes the six, leaving one legal ball and 2 runs |
| Classifier.ClassifyRole | player_rating_tool/classifier.py:6-11 | allrounder exactly when the scores are within the margin; outside it, batter exactly when batting is higher, bowler otherwise |
| Classifier.ClassifyRoleMirror | player_rating_tool/classifier.py:6-11 | swapping the two scores swaps batter and bowler and keeps allrounder |
| Classifier.ClassifyRoleBatterMonotone | player_rating_tool/classifier.py:6-11 | raising the batting score of a batter keeps them a batter |
| Classifier.PerMatch | player_rating_tool/classifier.py:15 | a per-match rate is non-negative for non-negative counts, and is the count itself when matches is 0 or 1 |
| Classifier.PerMatchMonotone | player_rating_tool/classifier.py:15 | a per-match rate grows with the count |
| Classifier.BattingSkill | player_rating_tool/classifier.py:14-16 | with at most one match, batting skill is 0.45·average + 0.25·strike rate + 0.30·runs |
| Classifier.BattingSkillMonotone | player_rating_tool/classifier.py:14-16 | batting skill does not fall when runs, average or strike rate rise |
| Classifier.AverageComponent | player_rating_tool/classifier.py:21 | the average component is max(0, 60 − average): it is 0 or 60 − average and at least both, and at most 60 for a non-negative average |
| Classifier.EconomyComponent | player_rating_tool/classifier.py:22 | the economy component is max(0, 12 − economy)×5: it is 0 or (12 − economy)×5 and at least both, and at most 60 for a non-negative economy |
| Classifier.BowlingSkill | player_rating_tool/classifier.py:19-23 | bowling skill is at least 35 × wickets per match, and non-negative when wickets are |
| Classifier.BowlingSkillAntitone | player_rating_tool/classifier.py:19-23 | bowling skill does not rise when bowling average or economy rise |
| Classifier.FieldingSkill | player_rating_tool/classifier.py:26-28 | fielding skill is non-negative for non-negative catches, and 40 × catches with at most one match |
| Models.RoleNameInjective | player_rating_tool/classifier.py:6-11 | the three role strings are distinct |
| Loader.CheckHeader | player_rating_tool/loader.py:41-46 | a missing header is an error; otherwise the check passes exactly when every required column is present, and a failure names the missing columns |
| Loader.TruncateTowardZero | player_rating_tool/loader.py:28 | int() of a float truncates toward zero, for both signs |
| Loader.ToFloat | player_rating_tool/loader.py:31-34 | a blank or whitespace-only value reads as 0.0; anything else is the float parse of the value |
| Loader.ToInt | player_rating_tool/loader.py:25-28 | a blank value reads as 0; anything else succeeds exactly when it parses as a float, and is then `int()` of that float, truncation toward zero (`Loader.TruncateTowardZero`), for either sign |
| Loader.Field | player_rating_tool/loader.py:52-62 | a row lookup succeeds exactly when the column is present |
| Loader.TextColumn | player_rating_tool/loader.py:52-53 | a text cell is the stripped cell, and an error naming the column exactly when it is missing |
| Loader.IntColumn | player_rating_tool/loader.py:54-62 | an integer cell is a missing-column error when the column is absent, and otherwise exactly the blank-aware integer reading of the cell, success or error |
| Loader.FloatColumn | player_rating_tool/loader.py:57-61 | a decimal cell is a missing-column error when the column is absent, and otherwise exactly the blank-aware float reading of the cell, success or error |
| Loader.ParseRecord | player_rating_tool/loader.py:50-63 | a row parses exactly when all eleven columns are present and every numeric cell is blank or a number; a parsed record holds the stripped player id and name, season, matches, runs, wickets and catches each read by `_to_int`, and batting average, strike rate, bowling average and economy each read by `_to_float`, all from their own columns; a row without a player id column fails on that column |
| Loader.ParseRecordFirstBadCell | player_rating_tool/loader.py:50-63 | a row that does not parse fails with the error of its first unreadable cell in field order (player id, player name, season, matches, runs, batting average, strike rate, wickets, bowling average, economy, catches): every earlier cell reads |
| Loader.BattingFirstBadCell | player_rating_tool/loader.py:52-58 | the identity and batting half of a row fails with the error of its first unreadable cell among the first seven |
| Loader.BattingCellsRead | player_rating_tool/loader.py:52-58 | when the identity and batting half parses, each of the first seven cells reads |
| Loader.BowlingFirstBadCell | player_rating_tool/loader.py:59-62 | after a good batting half, the bowling and fielding half fails with the error of its first unreadable cell among the last four |
| Loader.ParsedRowHasColumns | player_rating_tool/loader.py:50-63 | a row that parses has every required column |
| Loader.ParseRows | player_rating_tool/loader.py:48-66 | with any row reader, the pass succeeds exactly when every row reads; a success holds one record per row, each the reader's result for that row in order; a failure is the error of the first row that does not read |
| Loader.FirstFailureShift | player_rating_tool/loader.py:49-64 | when the first row reads, the first failure among the remaining rows is the first failure of the whole file |
| Loader.LoadPlayerHistory | player_rating_tool/loader.py:37-66 | a header error is reported before any row is read; the load succeeds exactly when the header names every required column and every row is readable in the sense of `Loader.ParseRecord`; a success holds one parsed record per row, in order; a failure after a good header is the error of the first row that does not parse |
| Loader.RecordsOf | player_rating_tool/loader.py:69-73 | the records of one player are input records carrying that player's id |
| Loader.AddRecord | player_rating_tool/loader.py:72 | a record joins the existing group of its player, keeping the order of groups, or opens a new group at the end exactly when its player has none |
| Loader.AddRecordKeys | player_rating_tool/loader.py:72 | adding a record adds its id to the group keys and keeps them distinct |
| Loader.GroupByPlayer | player_rating_tool/loader.py:69-73 | the groups have distinct ids, exactly the ids of the input, and each group holds that player's records in input order; no group is empty; groups follow the first appearance of their ids, so an earlier group's id occurs in the input before any record of a later group's id |
| Loader.SeenBeforeExtend | player_rating_tool/loader.py:71-72 | an id that first appeared before another in a prefix of the input still does so in the whole input |
| Loader.SeenBeforeNew | player_rating_tool/loader.py:71-72 | an id already seen comes before the id of a record that appears for the first time |
| Loader.GroupOrderStep | player_rating_tool/loader.py:71-72 | one loop step keeps groups non-empty and in first-appearance order |
| Loader.GroupStep | player_rating_tool/loader.py:71-72 | one loop step keeps the grouping invariant for the longer prefix |
| Loader.NoRecordsOfAbsent | player_rating_tool/loader.py:69-73 | an id absent from the input has no records |
| Loader.AddRecordSize | player_rating_tool/loader.py:72 | adding a record grows the total group size by one |
| Loader.GroupSizesSum | player_rating_tool/loader.py:69-73 | the group sizes sum to the number of input records |
| Loader.EveryRecordGrouped | player_rating_tool/loader.py:69-73 | every input record lies in the group keyed by its own player id |
| Loader.RecordsOfContains | player_rating_tool/loader.py:72 | every record is among the records of its own player |
| Rating.SumBounds | player_rating_tool/rating.py:36 | a sum of values between lo and hi lies between n·lo and n·hi |
| Rating.BlendScores | player_rating_tool/rating.py:31-36 | an empty series blends to 0 and a one-element series to its element |
| Rating.MeanBounds | player_rating_tool/rating.py:36 | the mean of the earlier seasons lies within their bounds |
| Rating.ConvexBounds | player_rating_tool/rating.py:36 | a weighted mix with weights summing to 1 stays within the bounds of its parts |
| Rating.BlendWithinRange | player_rating_tool/rating.py:31-36 | with non-negative weights summing to 1, the blend stays within the range of the series |
| Rating.BlendConstant | player_rating_tool/rating.py:31-36 | with weights summing to 1, a constant series blends to that constant |
| Rating.SortSeasons | player_rating_tool/rating.py:44 | seasons are reordered by season, ascending, as a permutation, and stably: the records of any one season keep their input order |
| Rating.BattingSeries | player_rating_tool/rating.py:48 | the batting series holds the batting skill of each sorted season |
| Rating.BowlingSeries | player_rating_tool/rating.py:49 | the bowling series holds the bowling skill of each sorted season |
| Rating.FieldingSeries | player_rating_tool/rating.py:50 | the fielding series holds the fielding skill of each sorted season |
| Rating.RoleRatingNonNegative | player_rating_tool/rating.py:54-63 | with non-negative scores and weights, the rating of every role is non-negative |
| Rating.Latest | player_rating_tool/rating.py:65 | the latest season is one of the seasons and has the greatest season number; of several records of that season it is the last in input order, every later record having an earlier season |
| Rating.LastOfLatestSeason | player_rating_tool/rating.py:65 | the last record of a stable ascending sort is the input's last record of the greatest season |
| Rating.RateSeasons | player_rating_tool/rating.py:43-76 | a profile's role is the classification of its blended scores and its rating is the role's weighted formula; its id and name come from the latest season; one season gives that season's skills; two or more give, for batting, bowling and fielding alike, the latest season's skill at the recent weight plus the mean skill of all other seasons at the past weight (`Rating.ReferenceBlend`, stated over the input order without sorting) |
| Rating.SeriesSum | player_rating_tool/rating.py:36 | a series of one skill per season sums to the skill total of those seasons |
| Rating.SkillSumAppend | player_rating_tool/rating.py:36 | the skill total of two runs of seasons is the sum of their totals |
| Rating.SkillSumPermutation | player_rating_tool/rating.py:44-50 | the skill total of a player's seasons does not depend on their order, so sorting leaves it unchanged |
| Rating.BlendOfSorted | player_rating_tool/rating.py:44-52 | blending a skill series read off the sorted seasons equals the reference blend over the input order |
| Rating.SortedBlends | player_rating_tool/rating.py:44-52 | the batting, bowling and fielding blends of the sorted seasons equal their reference blends |
| Rating.ProfilesOf | player_rating_tool/rating.py:43-76 | one profile per group, each rating that group's seasons |
| Rating.GroupsNonEmpty | player_rating_tool/rating.py:40-43 | every group holds at least one season |
| Rating.ProfileIdsMatchGroups | player_rating_tool/rating.py:43-69 | each profile carries its group's player id |
| Rating.RatePlayers | player_rating_tool/rating.py:39-78 | profiles are sorted by rating, descending; there is exactly one per distinct input id; each rates that player's own records, so each carries the reference blends of `Rating.RateSeasons`; the sort is stable, so equally rated players keep the order of their groups, that is of the first appearance of their ids |
| Rating.RatePlayer | player_rating_tool/rating.py:81-84 | an error exactly for empty input; otherwise a profile of the input with the highest rating, and of all players with that rating the one whose group comes first, every earlier group rating strictly lower |
| Rating.FirstTopGroup | player_rating_tool/rating.py:78 | the head of the ranked profiles is the profile of some group all of whose predecessors rate strictly lower |
| Rating.TopOfSortedIsMax | player_rating_tool/rating.py:84 | the head of a list sorted by rating has the highest rating |
| Selector.Lookup | player_rating_tool/selector.py:14 | a missing role counts as 0; a present one gives its structure value |
| Selector.RolePick | player_rating_tool/selector.py:14-20 | a role's picks number max(0, min(quota, players of the role)), all have the role, and are exactly the players of that role within some leading part of the input, in input order, so no player of the role who comes earlier is passed over |
| Selector.ByRole | player_rating_tool/selector.py:13-20 | the role picks are drawn from the input players and number the sum over batter, bowler and allrounder of max(0, min(quota, players of the role)) |
| Selector.Backfill | player_rating_tool/selector.py:22-27 | backfilled players come from the input and carry no picked id; they number max(0, min(target − picked, unpicked players)), none once the target is met, and are exactly the unpicked players within some leading part of the input, in input order |
| Selector.Shortages | player_rating_tool/selector.py:13-19 | a role is short exactly when it is requested and has fewer players than requested, and the shortage is the difference; only the three roles appear |
| Selector.SelectTeam | player_rating_tool/selector.py:8-29 | the team is sorted by rating, descending, holds exactly the role picks and the backfill (as `Selector.RolePick` and `Selector.Backfill` characterise them) counted with multiplicity, keeps players of equal rating in picks-then-backfill order, draws only input players, and reports the role shortages |
| Selector.RolePicksDisjoint | player_rating_tool/selector.py:17-20 | with distinct ids, the picks for two different roles share no player |
| Selector.ByRoleKeys | player_rating_tool/selector.py:13-22 | with distinct ids, the role picks have distinct ids, all from the input |
| Selector.BackfillKeys | player_rating_tool/selector.py:22-27 | backfill never repeats a picked id and never invents one |
| Selector.SelectTeamDistinct | player_rating_tool/selector.py:8-29 | with distinct input ids, no player appears twice in the team |
| Selector.QuotasWithinTotal | player_rating_tool/selector.py:24 | with non-negative counts, the three role quotas add up to at most the target size |
| Selector.ByRoleSize | player_rating_tool/selector.py:13-20 | with non-negative counts, the role picks never exceed the target size |
| Selector.SelectTeamSize | player_rating_tool/selector.py:8-29 | with distinct ids and non-negative counts, the team has min(target size, number of players) members |
| Selector.SelectTeamKeepsRolePicks | player_rating_tool/selector.py:17-29 | every player picked for a role is in the final team |
| Selector.ShortRoleUsesEveryone | player_rating_tool/selector.py:17-20 | when a role is short, every player of that role is in the team |
| Common.SortDesc | player_rating_tool/selector.py:29 | the descending sort yields a sorted permutation of its input, and is stable: the elements sharing any one key appear in the same order as in the input |
| Common.SortDescHead | player_rating_tool/rating.py:78 | the head of the sorted sequence is an input element that every earlier input element ranks strictly below |
| Common.TakeFilterIsPrefixFilter | player_rating_tool/selector.py:17-20 | the first n matches of a sequence are the matches within some prefix of it |
| Common.FilterAppend | player_rating_tool/selector.py:17-20 | filtering distributes over concatenation |
| Common.FilterPrefix | app.py:323-327 | the matches of a prefix lead the matches of the whole sequence |
| Common.TakeTies | app.py:323-327 | cutting a stably sorted sequence keeps, for every key, the earliest input elements of that key |
| Common.FilterSameTest | player_rating_tool/rating.py:44 | two tests that agree on every element filter alike |
| Common.FilterSnoc | player_rating_tool/rating.py:65 | filtering a sequence extended at the end extends the matches by that element when it matches |
| Common.FilterLastKept | player_rating_tool/rating.py:65 | when the last element matches, it is the last match |
| Common.LastOfFilter | player_rating_tool/rating.py:65 | the last match sits at a position after which no element matches |
| Common.LastMatchOfSame | player_rating_tool/rating.py:65 | when two sequences have the same matches and one ends in a match, that element is the other's last match |
| Text.StripEmptyIffBlank | player_rating_tool/loader.py:26 | a value strips to the empty string exactly when every character is whitespace in the sense of `str.isspace()`, U+001C–U+001F included |
| Text.StripLowerIdempotent | player_rating_tool/db.py:206 | stripping and lower-casing twice gives the same token as once |
| Text.IntToStringRoundTrip | app.py:432 | the decimal rendering of an integer reads back as that integer |
| Console.OversDisplay | app.py:429-432 | the display ends in a dot followed by one digit between 0 and 5 |
| Console.OversDisplayRoundTrip | app.py:429-432 | reading the display back gives completed overs = balls div 6 and balls = balls mod 6, which recombine to the count |
| Console.OversDisplayInjective | app.py:429-432 | different legal-ball counts display differently |
| Console.AutoBattingTeamName | app.py:447-463 | no team exactly when the toss winner is neither side or the decision is neither "bat" nor "bowl"; the answer is always one of the sides; with "bat" the winner bats first, with "bowl" the other side does |
| Console.InningsAlternate | app.py:458-463 | when the sides differ, innings 1 and every later innings are batted by different sides, covering both |
| Console.SameNamesBatTwice | app.py:458-463 | when both sides carry the same name, that name bats in every innings |
| Console.RotateStrike | app.py:519-530 | the bowler and flags are kept, the ends are a permutation of the old ones, and they swap exactly when an odd total or a completed over happens but not both |
| Console.OddRunEndingOverKeepsStrike | app.py:526-530 | an odd total on the ball that completes an over leaves the ends unchanged |
| Console.RotateStrikeTwice | app.py:519-530 | rotating twice for the same ball restores the ends |
| Console.DefaultNonStriker | app.py:499 | the default non-striker is the second batting id when there are two or more, else the first |
| Console.EnsureLiveState | app.py:477-516 | no state exactly when either side has no players; otherwise striker and non-striker are batting ids and the bowler a bowling id; valid saved choices are kept; without a valid saved striker the striker is the first batting id and without a valid saved bowler the bowler is the first bowling id; without a valid saved non-striker distinct from the striker, the non-striker is the default non-striker unless that is the striker, and then the first batting id; the flags are carried over |
| Console.LiveStateDistinctEnds | app.py:495-502 | when the first two batting ids differ, striker and non-striker differ |
| Console.RepeatedLeadingIdSharesEnds | app.py:499-502 | batting ids [5, 5, 7] with nothing saved give both ends to player 5 |
| Console.EnsureLiveStateIdempotent | app.py:477-516 | applying the defaulting to its own result changes nothing |
| Console.PlayerIndex | app.py:466-470 | the index of the first row with the id, or 0 when no row has it |
| Console.PositiveStructure | app.py:280-282 | the structure keeps exactly the positive counts, and is an error exactly when none is positive |
| Console.Picked | app.py:323-327 | the player rows of a role are min(need, selected of that role) many, sorted by (rating, selection score) descending; among entries of equal rank the ones kept are the earliest of that rank in input order, as Python's stable sort keeps them |
| Console.RoleRows | app.py:318-359 | each role block has exactly max(0, need) rows, all labelled with the role |
| Console.BlockRows | app.py:329-359 | a block has `need` rows of its role: one per picked player, in pick order, then blank slots |
| Console.TeamRows | app.py:317-359 | the team table has max(0, need) rows for each of the four roles, in role order: the batter rows first, then wicket keeper, allrounder and bowler |
| Console.CountAppend | app.py:317-359 | role and player-row counts add over concatenated blocks |
| Console.RoleBlock | app.py:318-359 | a role with positive need gets its player rows first, drawn from the selected entries of that role in rank order, then blank rows up to the need |
| Console.LeftOutRankLower | app.py:323-327 | a selected entry of the role that did not make the table ranks no higher than any that did |
| Console.RowsPerRole | app.py:317-359 | the table has exactly max(0, need) rows for each of the four table roles, and none for any other role |
| Console.TableRolesDistinct | app.py:297 | the four table roles are distinct |

## Left out

- SQLite plumbing is not modelled: connections, schema, commits, timestamps and the read-only queries. Each mutation is one atomic function over a `Match` value.
- New row ids are not modelled. The id of a new innings is a parameter (`newId`), and the row id `record_ball_event` returns is not modelled.
- `int(...)` conversions of ids and counts are not modelled, because the model's values are already integers.
- Ball events are grouped per innings inside their match. The `match_id` check of `record_ball_event` is therefore the choice of the `Match` value.
- The store orders ties in `event_seq` arbitrarily; the model picks the later event. Well-formed logs have no ties.
- Floating point is not modelled: rounding to two decimals (player_rating_tool/rating.py:71-74) and IEEE arithmetic. All ratios are exact reals.
- Reading the CSV file is not modelled: the header and rows arrive as values. `float()` parsing is a parameter of the loader.
- `Lower` lower-cases ASCII letters only; other letters pass unchanged.
- JSON weight loading (`load_weights`) is not modelled. The weights are a record parameter.
- Session state, Streamlit and pandas are not modelled. `EnsureLiveState` returns the merged state instead of storing it.
- `_team_tables` availability filtering, rating and its `select_team` call are not modelled. The call passes arguments that `select_team` in player_rating_tool/selector.py does not accept, and `PlayerSeasonStats` has no availability field. The table padding is modelled over a given list of selected entries.
- The threshold table of `_team_tables` is not modelled; it is display-only.
- `load_player_history_from_db`, match, team, player and squad creation, the CLI, secrets and the package initialiser are not modelled. Squads are a set in the `Match` value.
- Recompute.BattingRows: the innings count and team of a batting row are stated only through the not-out relations in `PlayerStats.BattingRowRatios`, not counted against the log.
- Recompute.BatStep: fours and sixes are tallied in the fold but no lemma relates them to the log.

=== FILE: classifier.dfy ===
/** Role classification by the gap between batting and bowling scores, and
    the three linear skill formulas of one season (exact `real` arithmetic). */
module Classifier {
  import opened Models
  import opened Common

  /** Scores within `margin` of each other make an allrounder; otherwise the
      larger score decides, a tie going to the bowler. */
  function ClassifyRole(batting: real, bowling: real, margin: real): (r: Role)
    ensures r == Allrounder <==> Abs(batting - bowling) <= margin
    ensures r == Batter <==> Abs(batting - bowling) > margin && batting > bowling
    ensures r == Bowler <==> Abs(batting - bowling) > margin && batting <= bowling
  {
    if Abs(batting - bowling) <= margin then Allrounder
    else if batting > bowling then Batter
    else Bowler
  }

  function Mirror(r: Role): Role {
    match r
    case Batter => Bowler
    case Bowler => Batter
    case Allrounder => Allrounder
  }

  /** Swapping the two scores swaps batter and bowler, provided the margin is
      not negative (with a negative margin equal scores give "bowler" both ways). */
  lemma ClassifyRoleMirror(batting: real, bowling: real, margin: real)
    requires margin >= 0.0
    ensures ClassifyRole(bowling, batting, margin) == Mirror(ClassifyRole(batting, bowling, margin))
  {
    assert Abs(batting - bowling) == Abs(bowling - batting);
  }

  /** Raising the batting score never turns a batter into anything else. */
  lemma ClassifyRoleBatterMonotone(batting: real, batting': real, bowling: real, margin: real)
    requires ClassifyRole(batting, bowling, margin) == Batter
    requires batting' >= batting
    ensures ClassifyRole(batting', bowling, margin) == Batter
  {
  }

  /** `count / max(matches, 1)` in exact arithmetic. */
  function PerMatch(count: int, matches: int): (r: real)
    ensures count >= 0 ==> r >= 0.0
    ensures matches <= 1 ==> r == count as real
  {
    count as real / (Max(matches, 1) as real)
  }

  lemma PerMatchMonotone(c: int, c': int, matches: int)
    requires c <= c'
    ensures PerMatch(c, matches) <= PerMatch(c', matches)
  {
    var d := Max(matches, 1) as real;
    assert d > 0.0;
    assert c' as real - c as real >= 0.0;
    assert (c' as real - c as real) / d >= 0.0;
    assert c' as real / d - c as real / d == (c' as real - c as real) / d;
  }

  /** Batting skill: 0.45 average + 0.25 strike rate + 0.30 runs per match,
      a season with no recorded match counting as one match. */
  function BattingSkill(s: PlayerSeasonStats): (r: real)
    ensures s.matches <= 1 ==>
      r == s.battingAverage * 0.45 + s.strikeRate * 0.25 + s.runs as real * 0.30
  {
    s.battingAverage * 0.45 + s.strikeRate * 0.25 + PerMatch(s.runs, s.matches) * 0.30
  }

  /** More runs, a higher average or a higher strike rate never lowers batting skill. */
  lemma BattingSkillMonotone(s: PlayerSeasonStats, t: PlayerSeasonStats)
    requires t == s.(runs := t.runs, battingAverage := t.battingAverage, strikeRate := t.strikeRate)
    requires s.runs <= t.runs && s.battingAverage <= t.battingAverage && s.strikeRate <= t.strikeRate
    ensures BattingSkill(s) <= BattingSkill(t)
  {
    PerMatchMonotone(s.runs, t.runs, s.matches);
  }

  /** The bowling-average component: 60 minus the average, floored at 0. */
  function AverageComponent(bowlingAverage: real): (r: real)
    ensures r >= 0.0 && r >= 60.0 - bowlingAverage
    ensures r == 0.0 || r == 60.0 - bowlingAverage
    ensures bowlingAverage >= 0.0 ==> r <= 60.0
  {
    if 60.0 - bowlingAverage > 0.0 then 60.0 - bowlingAverage else 0.0
  }

  /** The economy component: 12 minus the economy, floored at 0, times 5. */
  function EconomyComponent(economy: real): (r: real)
    ensures r >= 0.0 && r >= (12.0 - economy) * 5.0
    ensures r == 0.0 || r == (12.0 - economy) * 5.0
    ensures economy >= 0.0 ==> r <= 60.0
  {
    (if 12.0 - economy > 0.0 then 12.0 - economy else 0.0) * 5.0
  }

  /** Bowling skill: 35 per wicket per match + 0.35 of the average component
      + 0.30 of the economy component. */
  function BowlingSkill(s: PlayerSeasonStats): (r: real)
    ensures r >= PerMatch(s.wickets, s.matches) * 35.0
    ensures s.wickets >= 0 ==> r >= 0.0
    ensures s.bowlingAverage >= 0.0 && s.economy >= 0.0 ==>
      r <= PerMatch(s.wickets, s.matches) * 35.0 + 39.0
  {
    PerMatch(s.wickets, s.matches) * 35.0
      + AverageComponent(s.bowlingAverage) * 0.35
      + EconomyComponent(s.economy) * 0.30
  }

  /** A worse (higher) bowling average or economy never raises bowling skill. */
  lemma BowlingSkillAntitone(s: PlayerSeasonStats, t: PlayerSeasonStats)
    requires t == s.(bowlingAverage := t.bowlingAverage, economy := t.economy)
    requires s.bowlingAverage <= t.bowlingAverage && s.economy <= t.economy
    ensures BowlingSkill(t) <= BowlingSkill(s)
  {
    assert AverageComponent(t.bowlingAverage) <= AverageComponent(s.bowlingAverage);
    assert EconomyComponent(t.economy) <= EconomyComponent(s.economy);
  }

  /** Fielding skill: 40 catches-per-match points. */
  function FieldingSkill(s: PlayerSeasonStats): (r: real)
    ensures s.catches >= 0 ==> r >= 0.0
    ensures s.matches <= 1 ==> r == s.catches as real * 40.0
  {
    PerMatch(s.catches, s.matches) * 40.0
  }
}

=== FILE: common.dfy ===
/** Shared vocabulary: optional values, results that carry an error, a
    stable descending sort on sequences, and key sets of sequences. */
module Common {

  datatype Option<+T> = None | Some(value: T)

  /** The outcome of an operation that may raise; usable with `:-`. */
  datatype Result<+T, +E> = Ok(value: T) | Err(error: E) {
    predicate IsFailure() {
      Err?
    }

    function PropagateFailure<U>(): Result<U, E>
      requires Err?
    {
      Err(error)
    }

    function Extract(): T
      requires Ok?
    {
      value
    }
  }

  function Max(a: int, b: int): (r: int)
    ensures r >= a && r >= b && (r == a || r == b)
  {
    if a >= b then a else b
  }

  function Min(a: int, b: int): (r: int)
    ensures r <= a && r <= b && (r == a || r == b)
  {
    if a <= b then a else b
  }

  function Abs(x: real): (r: real)
    ensures r >= 0.0 && (r == x || r == -x)
  {
    if x < 0.0 then -x else x
  }

  /** The first `n` elements of `s`, or all of them when there are fewer. */
  function Take<T>(s: seq<T>, n: int): (r: seq<T>)
    ensures |r| == Max(0, Min(n, |s|))
    ensures forall i :: 0 <= i < |r| ==> r[i] == s[i]
  {
    if n <= 0 then [] else if n >= |s| then s else s[..n]
  }

  // ---------------------------------------------------------------------------
  // Sorting
  // ---------------------------------------------------------------------------

  /** A sort key compared lexicographically: `major` first, then `minor`. */
  datatype Rank = Rank(major: real, minor: real)

  predicate RankGe(a: Rank, b: Rank) {
    a.major > b.major || (a.major == b.major && a.minor >= b.minor)
  }

  /** Non-increasing by `key`, as Python's `sorted(..., reverse=True)` leaves it. */
  predicate SortedDesc<T>(s: seq<T>, key: T -> Rank) {
    forall i, j :: 0 <= i < j < |s| ==> RankGe(key(s[i]), key(s[j]))
  }

  /** Inserts `x` in front of every element whose key it does not exceed
      strictly, so an element that came first stays first among equal keys. */
  function Insert<T>(x: T, s: seq<T>, key: T -> Rank): (r: seq<T>)
    requires SortedDesc(s, key)
    ensures SortedDesc(r, key)
    ensures multiset(r) == multiset(s) + multiset{x}
    ensures |r| == |s| + 1
  {
    if |s| == 0 then [x]
    else if RankGe(key(x), key(s[0])) then [x] + s
    else
      var rest := Insert(x, s[1..], key);
      InsertBelowHead(x, s, rest, key);
      [s[0]] + rest
  }

  /** The head of `s` outranks `x` and everything after it, so it may lead
      the result of inserting `x` into the tail. */
  lemma InsertBelowHead<T>(x: T, s: seq<T>, rest: seq<T>, key: T -> Rank)
    requires |s| > 0 && SortedDesc(s, key) && !RankGe(key(x), key(s[0]))
    requires SortedDesc(rest, key) && multiset(rest) == multiset(s[1..]) + multiset{x}
    ensures SortedDesc([s[0]] + rest, key)
    ensures multiset([s[0]] + rest) == multiset(s) + multiset{x}
  {
    assert s == [s[0]] + s[1..];
    forall k | 0 <= k < |rest|
      ensures RankGe(key(s[0]), key(rest[k]))
    {
      assert rest[k] in multiset(rest);
      if rest[k] != x {
        assert rest[k] in s[1..];
        var j :| 0 <= j < |s[1..]| && s[1..][j] == rest[k];
        assert s[j + 1] == rest[k];
      }
    }
    var t := [s[0]] + rest;
    forall i, j | 0 <= i < j < |t|
      ensures RankGe(key(t[i]), key(t[j]))
    {
      if i > 0 {
        assert t[i] == rest[i - 1] && t[j] == rest[j - 1];
      } else {
        assert t[j] == rest[j - 1];
      }
    }
  }

  /** Stable insertion sort, non-increasing by `key`: the elements that share
      a key keep the order they had in `s`. */
  function SortDesc<T>(s: seq<T>, key: T -> Rank): (r: seq<T>)
    ensures SortedDesc(r, key)
    ensures multiset(r) == multiset(s)
    ensures |r| == |s|
    ensures forall k :: Filter(r, KeyIs(key, k)) == Filter(s, KeyIs(key, k))
  {
    if |s| == 0 then []
    else
      assert s == [s[0]] + s[1..];
      var t := SortDesc(s[1..], key);
      InsertAllTies(s[0], t, s[1..], key);
      Insert(s[0], t, key)
  }

  /** The elements whose key is exactly `k`. */
  function KeyIs<T>(key: T -> Rank, k: Rank): T -> bool {
    x => key(x) == k
  }

  /** Among the elements with one key, an inserted element comes first. */
  lemma {:induction false} InsertTies<T>(x: T, s: seq<T>, key: T -> Rank, k: Rank)
    requires SortedDesc(s, key)
    ensures Filter(Insert(x, s, key), KeyIs(key, k)) == (if key(x) == k then [x] else []) + Filter(s, KeyIs(key, k))
  {
    var f := KeyIs(key, k);
    if |s| == 0 {
      FilterCons(x, s, f);
    } else if RankGe(key(x), key(s[0])) {
      FilterCons(x, s, f);
    } else {
      var rest := Insert(x, s[1..], key);
      assert Insert(x, s, key) == [s[0]] + rest;
      InsertTies(x, s[1..], key, k);
      FilterCons(s[0], rest, f);
      assert s == [s[0]] + s[1..];
      FilterCons(s[0], s[1..], f);
      if key(x) == k {
        assert key(s[0]) != k;
        assert Filter(Insert(x, s, key), f) == [x] + Filter(s[1..], f);
      } else {
        assert Filter(rest, f) == Filter(s[1..], f);
      }
    }
  }

  lemma InsertAllTies<T>(x: T, t: seq<T>, s: seq<T>, key: T -> Rank)
    requires SortedDesc(t, key)
    requires forall k :: Filter(t, KeyIs(key, k)) == Filter(s, KeyIs(key, k))
    ensures forall k :: Filter(Insert(x, t, key), KeyIs(key, k)) == Filter([x] + s, KeyIs(key, k))
  {
    forall k
      ensures Filter(Insert(x, t, key), KeyIs(key, k)) == Filter([x] + s, KeyIs(key, k))
    {
      InsertTies(x, t, key, k);
      FilterCons(x, s, KeyIs(key, k));
    }
  }

  /** The head of the sorted sequence is the first element of `s` that no
      earlier element outranks or ties: everything before it ranks strictly lower. */
  lemma {:induction false} SortDescHead<T>(s: seq<T>, key: T -> Rank)
    requires |s| > 0
    ensures exists j :: 0 <= j < |s| && SortDesc(s, key)[0] == s[j] &&
                        forall i :: 0 <= i < j ==> !RankGe(key(s[i]), key(s[j]))
  {
    assert s == [s[0]] + s[1..];
    var t := SortDesc(s[1..], key);
    assert SortDesc(s, key) == Insert(s[0], t, key);
    if |t| == 0 || RankGe(key(s[0]), key(t[0])) {
      assert SortDesc(s, key)[0] == s[0];
    } else {
      SortDescHead(s[1..], key);
      var j :| 0 <= j < |s[1..]| && t[0] == s[1..][j] &&
               forall i :: 0 <= i < j ==> !RankGe(key(s[1..][i]), key(s[1..][j]));
      assert SortDesc(s, key)[0] == s[j + 1];
      forall i | 0 <= i < j + 1
        ensures !RankGe(key(s[i]), key(s[j + 1]))
      {
        if i > 0 {
          assert s[i] == s[1..][i - 1];
        }
      }
    }
  }

  lemma SortDescMembers<T>(s: seq<T>, key: T -> Rank)
    ensures forall x :: x in SortDesc(s, key) <==> x in s
  {
    var r := SortDesc(s, key);
    forall x
      ensures x in r <==> x in s
    {
      assert x in r <==> x in multiset(r);
      assert x in s <==> x in multiset(s);
    }
  }

  // ---------------------------------------------------------------------------
  // Key sets
  // ---------------------------------------------------------------------------

  function Keys<T, K>(s: seq<T>, key: T -> K): set<K> {
    set i | 0 <= i < |s| :: key(s[i])
  }

  /** No two positions hold elements with the same key. */
  predicate DistinctKeys<T, K(==)>(s: seq<T>, key: T -> K) {
    forall i, j :: 0 <= i < j < |s| ==> key(s[i]) != key(s[j])
  }

  lemma KeysAppend<T, K>(s: seq<T>, x: T, key: T -> K)
    ensures Keys(s + [x], key) == Keys(s, key) + {key(x)}
  {
    var t := s + [x];
    assert forall i :: 0 <= i < |s| ==> t[i] == s[i];
    assert t[|s|] == x;
  }

  /** The key of an element already present adds nothing to the key set. */
  lemma KeyPresent<T, K>(s: seq<T>, key: T -> K, i: int)
    requires 0 <= i < |s|
    ensures Keys(s, key) + {key(s[i])} == Keys(s, key)
  {
  }

  lemma KeysCons<T, K>(x: T, s: seq<T>, key: T -> K)
    ensures Keys([x] + s, key) == {key(x)} + Keys(s, key)
  {
    var t := [x] + s;
    assert forall i :: 0 <= i < |s| ==> t[i + 1] == s[i];
    forall k | k in Keys(t, key)
      ensures k in {key(x)} + Keys(s, key)
    {
      var i :| 0 <= i < |t| && key(t[i]) == k;
      if i > 0 {
        assert key(s[i - 1]) == k;
      }
    }
    forall k | k in {key(x)} + Keys(s, key)
      ensures k in Keys(t, key)
    {
      if k == key(x) {
        assert key(t[0]) == k;
      } else {
        var i :| 0 <= i < |s| && key(s[i]) == k;
        assert key(t[i + 1]) == k;
      }
    }
  }

  /** Sequences with the same keys position by position have the same key set. */
  lemma KeysPointwise<T, U, K>(s: seq<T>, ks: T -> K, t: seq<U>, kt: U -> K)
    requires |s| == |t|
    requires forall i :: 0 <= i < |s| ==> ks(s[i]) == kt(t[i])
    ensures Keys(s, ks) == Keys(t, kt)
    ensures DistinctKeys(s, ks) <==> DistinctKeys(t, kt)
  {
    forall k | k in Keys(s, ks)
      ensures k in Keys(t, kt)
    {
      var i :| 0 <= i < |s| && ks(s[i]) == k;
      assert kt(t[i]) == k;
    }
    forall k | k in Keys(t, kt)
      ensures k in Keys(s, ks)
    {
      var i :| 0 <= i < |t| && kt(t[i]) == k;
      assert ks(s[i]) == k;
    }
  }

  /** Keys are distinct exactly when there are as many keys as elements. */
  lemma {:induction false} DistinctKeysCard<T, K>(s: seq<T>, key: T -> K)
    ensures |Keys(s, key)| <= |s|
    ensures DistinctKeys(s, key) <==> |Keys(s, key)| == |s|
    decreases |s|
  {
    if |s| == 0 {
      assert Keys(s, key) == {};
    } else {
      var p := s[..|s| - 1];
      var x := s[|s| - 1];
      assert s == p + [x];
      KeysAppend(p, x, key);
      DistinctKeysCard(p, key);
      if key(x) in Keys(p, key) {
        var i :| 0 <= i < |p| && key(p[i]) == key(x);
        assert key(s[i]) == key(s[|s| - 1]);
        assert !DistinctKeys(s, key);
      } else {
        assert DistinctKeys(s, key) <==> DistinctKeys(p, key);
      }
    }
  }

  /** Reordering a sequence keeps its keys and their distinctness. */
  lemma PermutationKeys<T, K>(s: seq<T>, t: seq<T>, key: T -> K)
    requires multiset(s) == multiset(t)
    ensures Keys(s, key) == Keys(t, key)
    ensures DistinctKeys(s, key) <==> DistinctKeys(t, key)
  {
    forall k | k in Keys(s, key)
      ensures k in Keys(t, key)
    {
      var i :| 0 <= i < |s| && key(s[i]) == k;
      assert s[i] in multiset(t);
      var j :| 0 <= j < |t| && t[j] == s[i];
    }
    forall k | k in Keys(t, key)
      ensures k in Keys(s, key)
    {
      var j :| 0 <= j < |t| && key(t[j]) == k;
      assert t[j] in multiset(s);
      var i :| 0 <= i < |s| && s[i] == t[j];
    }
    assert |s| == |multiset(s)| == |t|;
    DistinctKeysCard(s, key);
    DistinctKeysCard(t, key);
  }

  // ---------------------------------------------------------------------------
  // Filtering
  // ---------------------------------------------------------------------------

  /** The elements of `s` that satisfy `f`, in their original order. */
  function Filter<T>(s: seq<T>, f: T -> bool): (r: seq<T>)
    ensures |r| <= |s|
    ensures forall i :: 0 <= i < |r| ==> f(r[i])
  {
    if |s| == 0 then []
    else if f(s[0]) then [s[0]] + Filter(s[1..], f)
    else Filter(s[1..], f)
  }

  lemma FilterCons<T>(x: T, s: seq<T>, f: T -> bool)
    ensures Filter([x] + s, f) == (if f(x) then [x] else []) + Filter(s, f)
  {
    assert ([x] + s)[0] == x && ([x] + s)[1..] == s;
  }

  /** Taking the first `n` matches is filtering some prefix of `s`. */
  lemma {:induction false} TakeFilterIsPrefixFilter<T>(s: seq<T>, f: T -> bool, n: int)
    ensures exists m :: 0 <= m <= |s| && Take(Filter(s, f), n) == Filter(s[..m], f)
  {
    if n <= 0 || |s| == 0 {
      assert Filter(s[..0], f) == [];
    } else {
      var n' := if f(s[0]) then n - 1 else n;
      TakeFilterIsPrefixFilter(s[1..], f, n');
      var m :| 0 <= m <= |s[1..]| && Take(Filter(s[1..], f), n') == Filter(s[1..][..m], f);
      assert s[..m + 1] == [s[0]] + s[1..][..m];
      FilterCons(s[0], s[1..][..m], f);
      assert s == [s[0]] + s[1..];
      FilterCons(s[0], s[1..], f);
      if f(s[0]) {
        var a := Filter(s[1..], f);
        assert Take([s[0]] + a, n) == [s[0]] + Take(a, n - 1);
      }
      assert Take(Filter(s, f), n) == Filter(s[..m + 1], f);
    }
  }

  lemma {:induction false} FilterAppend<T>(a: seq<T>, b: seq<T>, f: T -> bool)
    ensures Filter(a + b, f) == Filter(a, f) + Filter(b, f)
  {
    if |a| == 0 {
      assert a + b == b;
    } else {
      FilterAppend(a[1..], b, f);
      assert a + b == [a[0]] + (a[1..] + b);
      FilterCons(a[0], a[1..] + b, f);
      assert a == [a[0]] + a[1..];
      FilterCons(a[0], a[1..], f);
    }
  }

  /** Filtering keeps prefixes: the matches of a prefix lead the matches of the whole. */
  lemma FilterPrefix<T>(p: seq<T>, s: seq<T>, f: T -> bool)
    requires p <= s
    ensures Filter(p, f) <= Filter(s, f)
  {
    assert s == p + s[|p|..];
    FilterAppend(p, s[|p|..], f);
  }

  /** A leading part of a sequence whose ties follow `t` keeps, for each key,
      the earliest of those ties. */
  lemma TakeTies<T>(s: seq<T>, n: int, key: T -> Rank, t: seq<T>)
    requires forall k :: Filter(s, KeyIs(key, k)) == Filter(t, KeyIs(key, k))
    ensures forall k :: Filter(Take(s, n), KeyIs(key, k)) <= Filter(t, KeyIs(key, k))
  {
    assert Take(s, n) <= s;
    forall k
      ensures Filter(Take(s, n), KeyIs(key, k)) <= Filter(t, KeyIs(key, k))
    {
      FilterPrefix(Take(s, n), s, KeyIs(key, k));
    }
  }

  /** Two tests that agree everywhere filter alike. */
  lemma {:induction false} FilterSameTest<T>(s: seq<T>, f: T -> bool, g: T -> bool)
    requires forall x :: f(x) == g(x)
    ensures Filter(s, f) == Filter(s, g)
  {
    if |s| > 0 {
      FilterSameTest(s[1..], f, g);
    }
  }

  /** Filtering a sequence extended at the end. */
  lemma FilterSnoc<T>(s: seq<T>, x: T, f: T -> bool)
    ensures Filter(s + [x], f) == Filter(s, f) + (if f(x) then [x] else [])
  {
    FilterAppend(s, [x], f);
    FilterCons(x, [], f);
    assert [x] + [] == [x];
  }

  /** A matching last element is the last match. */
  lemma FilterLastKept<T>(s: seq<T>, f: T -> bool)
    requires |s| > 0 && f(s[|s| - 1])
    ensures |Filter(s, f)| > 0 && Filter(s, f)[|Filter(s, f)| - 1] == s[|s| - 1]
  {
    var n := |s|;
    assert s == s[..n - 1] + [s[n - 1]];
    FilterSnoc(s[..n - 1], s[n - 1], f);
  }

  /** The last match sits at a position after which nothing matches. */
  lemma {:induction false} LastOfFilter<T>(s: seq<T>, f: T -> bool)
    requires |Filter(s, f)| > 0
    ensures exists j :: 0 <= j < |s| && s[j] == Filter(s, f)[|Filter(s, f)| - 1] &&
                        forall i :: j < i < |s| ==> !f(s[i])
  {
    var n := |s|;
    var t := s[..n - 1];
    assert s == t + [s[n - 1]];
    FilterSnoc(t, s[n - 1], f);
    if f(s[n - 1]) {
      assert s[n - 1] == Filter(s, f)[|Filter(s, f)| - 1];
    } else {
      assert Filter(s, f) == Filter(t, f);
      LastOfFilter(t, f);
      var j :| 0 <= j < |t| && t[j] == Filter(t, f)[|Filter(t, f)| - 1] &&
               forall i :: j < i < |t| ==> !f(t[i]);
      assert s[j] == t[j];
      forall i | j < i < n
        ensures !f(s[i])
      {
        if i < n - 1 {
          assert s[i] == t[i];
        }
      }
    }
  }

  /** When `t` and `s` have the same matches and `t` ends in one, that
      element is the last match in `s`. */
  lemma LastMatchOfSame<T>(t: seq<T>, s: seq<T>, f: T -> bool)
    requires |t| > 0 && f(t[|t| - 1]) && Filter(t, f) == Filter(s, f)
    ensures exists j :: 0 <= j < |s| && s[j] == t[|t| - 1] && forall i :: j < i < |s| ==> !f(s[i])
  {
    FilterLastKept(t, f);
    LastOfFilter(s, f);
  }

  lemma {:induction false} FilterMembers<T>(s: seq<T>, f: T -> bool)
    ensures forall x :: x in Filter(s, f) <==> x in s && f(x)
  {
    if |s| > 0 {
      FilterMembers(s[1..], f);
      assert s == [s[0]] + s[1..];
    }
  }

  /** Two elements of a sequence without repeated keys that share a key are equal. */
  lemma SameKeySameElement<T, K>(s: seq<T>, key: T -> K, x: T, y: T)
    requires DistinctKeys(s, key) && x in s && y in s
    ensures key(x) == key(y) ==> x == y
  {
    var i :| 0 <= i < |s| && s[i] == x;
    var j :| 0 <= j < |s| && s[j] == y;
  }

  lemma {:induction false} FilterKeys<T, K>(s: seq<T>, f: T -> bool, key: T -> K)
    ensures Keys(Filter(s, f), key) <= Keys(s, key)
    ensures DistinctKeys(s, key) ==> DistinctKeys(Filter(s, f), key)
  {
    if |s| > 0 {
      var rest := s[1..];
      assert s == [s[0]] + rest;
      FilterKeys(rest, f, key);
      KeysCons(s[0], rest, key);
      if f(s[0]) {
        KeysCons(s[0], Filter(rest, f), key);
        if DistinctKeys(s, key) {
          assert key(s[0]) !in Keys(rest, key);
          DistinctCons(s[0], Filter(rest, f), key);
        }
      }
    }
  }

  lemma DistinctCons<T, K>(x: T, s: seq<T>, key: T -> K)
    requires DistinctKeys(s, key) && key(x) !in Keys(s, key)
    ensures DistinctKeys([x] + s, key)
  {
    var t := [x] + s;
    forall i, j | 0 <= i < j < |t|
      ensures key(t[i]) != key(t[j])
    {
      if i == 0 {
        assert t[j] == s[j - 1];
      } else {
        assert t[i] == s[i - 1] && t[j] == s[j - 1];
      }
    }
  }

  /** Concatenating two sequences with disjoint key sets keeps keys distinct. */
  lemma DistinctAppend<T, K>(a: seq<T>, b: seq<T>, key: T -> K)
    requires DistinctKeys(a, key) && DistinctKeys(b, key)
    requires Keys(a, key) !! Keys(b, key)
    ensures DistinctKeys(a + b, key)
    ensures Keys(a + b, key) == Keys(a, key) + Keys(b, key)
  {
    var t := a + b;
    forall i, j | 0 <= i < j < |t|
      ensures key(t[i]) != key(t[j])
    {
      if j < |a| {
        assert t[i] == a[i] && t[j] == a[j];
      } else if i >= |a| {
        assert t[i] == b[i - |a|] && t[j] == b[j - |a|];
      } else {
        assert t[i] == a[i] && t[j] == b[j - |a|];
        assert key(t[i]) in Keys(a, key) && key(t[j]) in Keys(b, key);
      }
    }
    forall k | k in Keys(t, key)
      ensures k in Keys(a, key) + Keys(b, key)
    {
      var i :| 0 <= i < |t| && key(t[i]) == k;
      if i < |a| {
        assert t[i] == a[i];
      } else {
        assert t[i] == b[i - |a|];
      }
    }
    forall k | k in Keys(a, key) + Keys(b, key)
      ensures k in Keys(t, key)
    {
      if k in Keys(a, key) {
        var i :| 0 <= i < |a| && key(a[i]) == k;
        assert t[i] == a[i];
      } else {
        var i :| 0 <= i < |b| && key(b[i]) == k;
        assert t[|a| + i] == b[i];
      }
    }
  }

  /** Dropping every element whose key is in `S`, where `S` holds only keys of
      a sequence without repeated keys, removes exactly `|S|` elements. */
  lemma {:induction false} FilterOutKeys<T, K>(s: seq<T>, f: T -> bool, key: T -> K, S: set<K>)
    requires DistinctKeys(s, key) && S <= Keys(s, key)
    requires forall i :: 0 <= i < |s| ==> f(s[i]) == (key(s[i]) !in S)
    ensures |Filter(s, f)| == |s| - |S|
  {
    if |s| == 0 {
      assert Keys(s, key) == {};
    } else {
      var rest := s[1..];
      assert s == [s[0]] + rest;
      KeysCons(s[0], rest, key);
      var k0 := key(s[0]);
      assert k0 !in Keys(rest, key) by {
        forall j | 0 <= j < |rest|
          ensures key(rest[j]) != k0
        {
          assert rest[j] == s[j + 1];
        }
      }
      var S' := S - {k0};
      forall i | 0 <= i < |rest|
        ensures f(rest[i]) == (key(rest[i]) !in S')
      {
        assert rest[i] == s[i + 1];
        assert key(rest[i]) in Keys(rest, key);
      }
      FilterOutKeys(rest, f, key, S');
    }
  }
}

=== FILE: console.dfy ===
/** The scoring console's pure helpers: the overs display, the toss-based
    choice of batting side, strike rotation after a delivery, defaulting of the
    live scoring state, the player-list index lookup, and the per-role padding
    of the selected-team table. */
module Console {
  import opened Common
  import opened Text

  // ---------------------------------------------------------------------------
  // Overs display
  // ---------------------------------------------------------------------------

  /** `"O.B"`: completed overs, a dot, and balls into the current over. Python
      floors `//` and `%`; with the positive divisor 6 that agrees with
      Dafny's Euclidean operators for every integer. */
  function OversDisplay(legalBalls: int): (r: string)
    ensures |r| >= 3 && r[|r| - 2] == '.' && '0' <= r[|r| - 1] <= '5'
  {
    IntToString(legalBalls / 6) + "." + [DigitChar(legalBalls % 6)]
  }

  /** Reads a display back into its completed overs and balls. */
  function ParseOvers(s: string): (r: Option<(int, int)>)
    ensures r.Some? ==> 0 <= r.value.1 < 10
  {
    if |s| >= 3 && s[|s| - 2] == '.' && IsDigit(s[|s| - 1]) && IsIntString(s[..|s| - 2]) then
      Some((ParseInt(s[..|s| - 2]), DigitValue(s[|s| - 1])))
    else None
  }

  /** The display reads back as `lb div 6` and `lb mod 6`, and those two
      numbers give back the ball count. */
  lemma OversDisplayRoundTrip(legalBalls: int)
    ensures ParseOvers(OversDisplay(legalBalls)) == Some((legalBalls / 6, legalBalls % 6))
    ensures 0 <= legalBalls % 6 <= 5 && (legalBalls / 6) * 6 + legalBalls % 6 == legalBalls
  {
    var s := OversDisplay(legalBalls);
    var head := IntToString(legalBalls / 6);
    assert s[..|s| - 2] == head;
    IntToStringRoundTrip(legalBalls / 6);
  }

  /** Distinct ball counts are displayed differently. */
  lemma OversDisplayInjective(a: int, b: int)
    ensures OversDisplay(a) == OversDisplay(b) <==> a == b
  {
    if OversDisplay(a) == OversDisplay(b) {
      OversDisplayRoundTrip(a);
      OversDisplayRoundTrip(b);
    }
  }

  // ---------------------------------------------------------------------------
  // Batting side from the toss
  // ---------------------------------------------------------------------------

  /** `str(value or "")`: a missing or empty field reads as the empty string. */
  function OrEmpty(s: Option<string>): (r: string)
    ensures s.Some? ==> r == s.value
    ensures s.None? ==> r == ""
  {
    if s.None? then "" else s.value
  }

  /** The stored toss fields and team names of a match. */
  datatype TossInfo = TossInfo(
    tossWinner: Option<string>,
    tossDecision: Option<string>,
    homeTeam: Option<string>,
    awayTeam: Option<string>)

  function Winner(t: TossInfo): string { Strip(OrEmpty(t.tossWinner)) }
  function Decision(t: TossInfo): string { Lower(Strip(OrEmpty(t.tossDecision))) }
  function Home(t: TossInfo): string { Strip(OrEmpty(t.homeTeam)) }
  function Away(t: TossInfo): string { Strip(OrEmpty(t.awayTeam)) }

  /** The team of the two that is not `team`, reading `team` as home unless
      it is the away side's name. */
  function Other(t: TossInfo, team: string): string {
    if team == Home(t) then Away(t) else Home(t)
  }

  /** `_auto_batting_team_name`: which side bats in an innings, or nothing when
      the toss winner is not one of the two sides or the decision is neither
      "bat" nor "bowl". Innings 1 goes to the side that chose to bat (or the
      one put in); every other innings number to the remaining side. */
  function AutoBattingTeamName(t: TossInfo, inningsNo: int): (r: Option<string>)
    ensures r.None? <==>
      Winner(t) !in {Home(t), Away(t)} || Decision(t) !in {"bat", "bowl"}
    ensures r.Some? ==> r.value in {Home(t), Away(t)}
    ensures r.Some? && inningsNo == 1 && Decision(t) == "bat" ==> r.value == Winner(t)
    ensures r.Some? && inningsNo == 1 && Decision(t) == "bowl" && Home(t) != Away(t) ==>
      r.value != Winner(t)
  {
    var winner := Winner(t);
    var decision := Decision(t);
    if winner !in {Home(t), Away(t)} then None
    else if decision !in {"bat", "bowl"} then None
    else
      var firstBatting := if decision == "bat" then winner else Other(t, winner);
      var secondBatting := Other(t, firstBatting);
      Some(if inningsNo == 1 then firstBatting else secondBatting)
  }

  /** Between two different sides, the second innings goes to the side that
      did not bat first, and any later innings number to the same side. */
  lemma InningsAlternate(t: TossInfo, laterNo: int)
    requires Home(t) != Away(t) && laterNo != 1
    requires AutoBattingTeamName(t, 1).Some?
    ensures AutoBattingTeamName(t, laterNo).Some?
    ensures {AutoBattingTeamName(t, 1).value, AutoBattingTeamName(t, laterNo).value} == {Home(t), Away(t)}
    ensures AutoBattingTeamName(t, 1).value != AutoBattingTeamName(t, laterNo).value
    ensures AutoBattingTeamName(t, laterNo) == AutoBattingTeamName(t, 2)
  {
  }

  /** When both names are the same, "bowl" cannot hand the innings to another
      side: the toss winner's name is returned for both innings. */
  lemma SameNamesBatTwice(t: TossInfo, inningsNo: int)
    requires Home(t) == Away(t) && AutoBattingTeamName(t, 1).Some?
    ensures AutoBattingTeamName(t, inningsNo) == Some(Home(t))
  {
  }

  // ---------------------------------------------------------------------------
  // Live scoring state
  // ---------------------------------------------------------------------------

  /** The console's per-innings scoring state. */
  datatype LiveState = LiveState(
    striker: int,
    nonStriker: int,
    bowler: int,
    needsNewBatter: bool,
    lastOut: Option<int>)

  /** Whether a delivery's total (bat runs plus extras) is odd; Python's
      floored `%` and Dafny's Euclidean `%` agree for the divisor 2. */
  predicate OddTotal(runsOffBat: int, extras: int) {
    (runsOffBat + extras) % 2 == 1
  }

  /** The delivery took the legal-ball count up to a whole number of overs. */
  predicate OverCompleted(before: int, after: int) {
    after > before && after % 6 == 0
  }

  function Swap(s: LiveState): LiveState {
    s.(striker := s.nonStriker, nonStriker := s.striker)
  }

  /** `_rotate_strike_if_needed`: swap ends on an odd total, and swap again
      when the delivery completed an over. */
  function RotateStrike(s: LiveState, runsOffBat: int, extras: int, before: int, after: int): (r: LiveState)
    ensures r.bowler == s.bowler && r.needsNewBatter == s.needsNewBatter && r.lastOut == s.lastOut
    ensures {r.striker, r.nonStriker} == {s.striker, s.nonStriker}
    ensures r.striker == s.nonStriker && r.nonStriker == s.striker <==>
      s.striker == s.nonStriker || OddTotal(runsOffBat, extras) != OverCompleted(before, after)
  {
    var once := if OddTotal(runsOffBat, extras) then Swap(s) else s;
    if OverCompleted(before, after) then Swap(once) else once
  }

  /** A single (or any odd total) off the last ball of an over leaves the
      striker where it was. */
  lemma OddRunEndingOverKeepsStrike(s: LiveState, runsOffBat: int, extras: int, before: int, after: int)
    requires OddTotal(runsOffBat, extras) && OverCompleted(before, after)
    ensures RotateStrike(s, runsOffBat, extras, before, after) == s
  {
  }

  /** Rotating twice for the same delivery restores the ends. */
  lemma RotateStrikeTwice(s: LiveState, runsOffBat: int, extras: int, before: int, after: int)
    ensures RotateStrike(RotateStrike(s, runsOffBat, extras, before, after), runsOffBat, extras, before, after) == s
  {
  }

  /** What a session may already hold for an innings; a missing key is `None`. */
  datatype Saved = Saved(
    striker: Option<int>,
    nonStriker: Option<int>,
    bowler: Option<int>,
    needsNewBatter: Option<bool>,
    lastOut: Option<int>)

  const NothingSaved := Saved(None, None, None, None, None)

  function GetOr(o: Option<int>, default: int): (r: int)
    ensures o.Some? ==> r == o.value
    ensures o.None? ==> r == default
  {
    if o.Some? then o.value else default
  }

  /** The second listed batter when there is one, else the first. */
  function DefaultNonStriker(battingIds: seq<int>): (r: int)
    requires |battingIds| > 0
    ensures r in battingIds
    ensures |battingIds| > 1 ==> r == battingIds[1]
    ensures |battingIds| == 1 ==> r == battingIds[0]
  {
    if |battingIds| > 1 then battingIds[1] else battingIds[0]
  }

  /** `_ensure_live_state`: nothing when either side has no players; otherwise
      the saved ids where they are still valid, else defaults from the player
      lists. Writing the result back to the session is not modelled. */
  function EnsureLiveState(saved: Saved, battingIds: seq<int>, bowlingIds: seq<int>): (r: Option<LiveState>)
    ensures r.None? <==> |battingIds| == 0 || |bowlingIds| == 0
    ensures r.Some? ==> r.value.striker in battingIds && r.value.nonStriker in battingIds
    ensures r.Some? ==> r.value.bowler in bowlingIds
    ensures r.Some? && saved.striker.Some? && saved.striker.value in battingIds ==>
      r.value.striker == saved.striker.value
    ensures r.Some? && saved.bowler.Some? && saved.bowler.value in bowlingIds ==>
      r.value.bowler == saved.bowler.value
    ensures r.Some? && saved.nonStriker.Some? && saved.nonStriker.value in battingIds &&
            saved.nonStriker.value != r.value.striker ==>
      r.value.nonStriker == saved.nonStriker.value
    ensures r.Some? && !(saved.striker.Some? && saved.striker.value in battingIds) ==>
      r.value.striker == battingIds[0]
    ensures r.Some? && !(saved.bowler.Some? && saved.bowler.value in bowlingIds) ==>
      r.value.bowler == bowlingIds[0]
    ensures r.Some? && !(saved.nonStriker.Some? && saved.nonStriker.value in battingIds &&
                         saved.nonStriker.value != r.value.striker) ==>
      r.value.nonStriker ==
        (if DefaultNonStriker(battingIds) != r.value.striker then DefaultNonStriker(battingIds) else battingIds[0])
    ensures r.Some? ==> r.value.needsNewBatter == (saved.needsNewBatter == Some(true))
    ensures r.Some? ==> r.value.lastOut == saved.lastOut
  {
    if |battingIds| == 0 || |bowlingIds| == 0 then None
    else
      var s0 := GetOr(saved.striker, battingIds[0]);
      var striker := if s0 !in battingIds then battingIds[0] else s0;
      var defaultNs := DefaultNonStriker(battingIds);
      var n0 := GetOr(saved.nonStriker, defaultNs);
      var nonStriker :=
        if n0 !in battingIds || n0 == striker then
          (if defaultNs != striker then defaultNs else battingIds[0])
        else n0;
      var b0 := GetOr(saved.bowler, bowlingIds[0]);
      var bowler := if b0 !in bowlingIds then bowlingIds[0] else b0;
      Some(LiveState(striker, nonStriker, bowler, saved.needsNewBatter == Some(true), saved.lastOut))
  }

  /** When the first two listed batters differ, the two ends always hold
      different batters. */
  lemma LiveStateDistinctEnds(saved: Saved, battingIds: seq<int>, bowlingIds: seq<int>)
    requires |battingIds| >= 2 && battingIds[0] != battingIds[1] && |bowlingIds| > 0
    ensures EnsureLiveState(saved, battingIds, bowlingIds).value.striker !=
            EnsureLiveState(saved, battingIds, bowlingIds).value.nonStriker
  {
  }

  /** A list whose first two batters share an id can leave both ends with one
      batter, even though a third, different batter is listed. */
  lemma RepeatedLeadingIdSharesEnds()
    ensures var r := EnsureLiveState(NothingSaved, [5, 5, 7], [9]).value;
      r.striker == 5 && r.nonStriker == 5
  {
  }

  function SavedOf(s: LiveState): Saved {
    Saved(Some(s.striker), Some(s.nonStriker), Some(s.bowler), Some(s.needsNewBatter), s.lastOut)
  }

  /** Defaulting a state that was itself produced by defaulting changes nothing. */
  lemma EnsureLiveStateIdempotent(saved: Saved, battingIds: seq<int>, bowlingIds: seq<int>)
    requires |battingIds| > 0 && |bowlingIds| > 0
    ensures var r := EnsureLiveState(saved, battingIds, bowlingIds).value;
      EnsureLiveState(SavedOf(r), battingIds, bowlingIds) == Some(r)
  {
    var r := EnsureLiveState(saved, battingIds, bowlingIds).value;
    var defaultNs := DefaultNonStriker(battingIds);
    if r.nonStriker == r.striker {
      assert defaultNs == r.striker && battingIds[0] == r.striker;
    }
  }

  // ---------------------------------------------------------------------------
  // Player-list index
  // ---------------------------------------------------------------------------

  /** `_player_index`: the position of the first row carrying `id`, or 0 when
      no row does. */
  method PlayerIndex(ids: seq<int>, id: int) returns (idx: nat)
    ensures id in ids ==> idx < |ids| && ids[idx] == id && forall j :: 0 <= j < idx ==> ids[j] != id
    ensures id !in ids ==> idx == 0
  {
    var i := 0;
    while i < |ids|
      invariant 0 <= i <= |ids|
      invariant forall j :: 0 <= j < i ==> ids[j] != id
    {
      if ids[i] == id {
        return i;
      }
      i := i + 1;
    }
    return 0;
  }

  // ---------------------------------------------------------------------------
  // Team table padding
  // ---------------------------------------------------------------------------

  /** One selected player as the table sees it. */
  datatype Selected = Selected(name: string, role: string, rating: real, selectionScore: real)

  /** A table row: a selected player under a role, or a blank slot. */
  datatype TeamRow = PlayerRow(role: string, player: Selected) | BlankRow(role: string)

  /** The table's role order. */
  const TableRoles: seq<string> := ["Batter", "Wicket Keeper", "Allrounder", "Bowler"]

  datatype TableError = NoPositiveRoleCounts

  /** The configured structure with non-positive counts dropped; an error
      when nothing is left. */
  function PositiveStructure(raw: map<string, int>): (r: Result<map<string, int>, TableError>)
    ensures r.Ok? <==> exists k :: k in raw && raw[k] > 0
    ensures r.Ok? ==> forall k :: k in r.value <==> k in raw && raw[k] > 0
    ensures r.Ok? ==> forall k :: k in r.value ==> r.value[k] == raw[k]
  {
    var st := map k | k in raw && raw[k] > 0 :: raw[k];
    if exists k :: k in raw && raw[k] > 0 then Ok(st) else Err(NoPositiveRoleCounts)
  }

  function SelectedRank(e: Selected): Rank {
    Rank(e.rating, e.selectionScore)
  }

  function HasRole(role: string): Selected -> bool {
    (e: Selected) => e.role == role
  }

  function NeedOf(structure: map<string, int>, role: string): int {
    if role in structure then structure[role] else 0
  }

  /** The players of one role, best first, at most `need` of them. */
  function Picked(selected: seq<Selected>, role: string, need: int): (r: seq<Selected>)
    ensures |r| == Max(0, Min(need, |Filter(selected, HasRole(role))|))
    ensures SortedDesc(r, SelectedRank)
    ensures forall k :: Filter(r, KeyIs(SelectedRank, k)) <= Filter(Filter(selected, HasRole(role)), KeyIs(SelectedRank, k))
  {
    var sorted := SortDesc(Filter(selected, HasRole(role)), SelectedRank);
    TakeTies(sorted, need, SelectedRank, Filter(selected, HasRole(role)));
    Take(sorted, need)
  }

  /** One role's block: its picked players, then blank slots up to `need`. */
  function RoleRows(selected: seq<Selected>, structure: map<string, int>, role: string): (r: seq<TeamRow>)
    ensures |r| == Max(0, NeedOf(structure, role))
    ensures forall i :: 0 <= i < |r| ==> r[i].role == role
  {
    var need := NeedOf(structure, role);
    if need <= 0 then [] else BlockRows(role, Picked(selected, role, need), need)
  }

  /** `need` rows of `role`: a row per picked player, then blank slots. */
  function BlockRows(role: string, picked: seq<Selected>, need: nat): (r: seq<TeamRow>)
    requires |picked| <= need
    ensures |r| == need
    ensures forall i :: 0 <= i < |r| ==> r[i].role == role
    ensures forall i :: 0 <= i < |picked| ==> r[i] == PlayerRow(role, picked[i])
    ensures forall i :: |picked| <= i < need ==> r[i] == BlankRow(role)
  {
    seq(|picked|, i requires 0 <= i < |picked| => PlayerRow(role, picked[i])) +
    seq(need - |picked|, _ => BlankRow(role))
  }

  /** The team table: the four role blocks in table order. */
  function TeamRows(selected: seq<Selected>, structure: map<string, int>): (r: seq<TeamRow>)
    ensures |r| == Max(0, NeedOf(structure, "Batter")) + Max(0, NeedOf(structure, "Wicket Keeper")) +
                   Max(0, NeedOf(structure, "Allrounder")) + Max(0, NeedOf(structure, "Bowler"))
    ensures var n1, n2, n3 := Max(0, NeedOf(structure, "Batter")), Max(0, NeedOf(structure, "Wicket Keeper")),
                              Max(0, NeedOf(structure, "Allrounder"));
      && (forall i :: 0 <= i < n1 ==> r[i].role == "Batter")
      && (forall i :: n1 <= i < n1 + n2 ==> r[i].role == "Wicket Keeper")
      && (forall i :: n1 + n2 <= i < n1 + n2 + n3 ==> r[i].role == "Allrounder")
      && (forall i :: n1 + n2 + n3 <= i < |r| ==> r[i].role == "Bowler")
  {
    RoleRows(selected, structure, "Batter") + RoleRows(selected, structure, "Wicket Keeper") +
    RoleRows(selected, structure, "Allrounder") + RoleRows(selected, structure, "Bowler")
  }

  /** Rows of `role` in a table. */
  function CountRole(rows: seq<TeamRow>, role: string): (n: nat)
    ensures n <= |rows|
  {
    if |rows| == 0 then 0
    else CountRole(rows[..|rows| - 1], role) + (if rows[|rows| - 1].role == role then 1 else 0)
  }

  /** Player rows (not blank slots) in a table. */
  function CountPlayers(rows: seq<TeamRow>): (n: nat)
    ensures n <= |rows|
  {
    if |rows| == 0 then 0
    else CountPlayers(rows[..|rows| - 1]) + (if rows[|rows| - 1].PlayerRow? then 1 else 0)
  }

  lemma {:induction false} CountAppend(a: seq<TeamRow>, b: seq<TeamRow>, role: string)
    ensures CountRole(a + b, role) == CountRole(a, role) + CountRole(b, role)
    ensures CountPlayers(a + b) == CountPlayers(a) + CountPlayers(b)
  {
    if |b| == 0 {
      assert a + b == a;
    } else {
      assert (a + b)[..|a + b| - 1] == a + b[..|b| - 1];
      CountAppend(a, b[..|b| - 1], role);
    }
  }

  lemma {:induction false} CountUniform(rows: seq<TeamRow>, role: string)
    requires forall i :: 0 <= i < |rows| ==> rows[i].role == role
    ensures CountRole(rows, role) == |rows|
  {
    if |rows| > 0 {
      CountUniform(rows[..|rows| - 1], role);
    }
  }

  lemma {:induction false} CountOther(rows: seq<TeamRow>, role: string, other: string)
    requires other != role && forall i :: 0 <= i < |rows| ==> rows[i].role == other
    ensures CountRole(rows, role) == 0
  {
    if |rows| > 0 {
      CountOther(rows[..|rows| - 1], role, other);
    }
  }

  lemma {:induction false} CountPlayerRows(rows: seq<TeamRow>, p: nat)
    requires p <= |rows|
    requires forall i :: 0 <= i < |rows| ==> (rows[i].PlayerRow? <==> i < p)
    ensures CountPlayers(rows) == p
  {
    if |rows| > p {
      CountPlayerRows(rows[..|rows| - 1], p);
    } else if |rows| > 0 {
      CountPlayerRows(rows[..|rows| - 1], p - 1);
    }
  }

  /** A role with a positive need gets exactly `need` rows: the best
      `min(count, need)` players of that role in non-increasing (rating,
      selection score) order, then blank slots. */
  lemma RoleBlock(selected: seq<Selected>, structure: map<string, int>, role: string)
    requires NeedOf(structure, role) > 0
    ensures var r := RoleRows(selected, structure, role);
      var p := Min(NeedOf(structure, role), |Filter(selected, HasRole(role))|);
      && |r| == NeedOf(structure, role)
      && CountPlayers(r) == p
      && (forall i :: 0 <= i < |r| ==> (r[i].PlayerRow? <==> i < p))
      && (forall i :: 0 <= i < p ==> r[i].player in selected && r[i].player.role == role)
      && (forall i, j :: 0 <= i < j < p ==> RankGe(SelectedRank(r[i].player), SelectedRank(r[j].player)))
  {
    var need := NeedOf(structure, role);
    var r := RoleRows(selected, structure, role);
    var f := Filter(selected, HasRole(role));
    var sorted := SortDesc(f, SelectedRank);
    var picked := Picked(selected, role, need);
    var p := Min(need, |f|);
    assert |picked| == p;
    assert forall i :: 0 <= i < p ==> r[i] == PlayerRow(role, picked[i]);
    assert forall i :: p <= i < |r| ==> r[i] == BlankRow(role);
    CountPlayerRows(r, p);
    SortDescMembers(f, SelectedRank);
    FilterMembers(selected, HasRole(role));
    forall i | 0 <= i < p
      ensures r[i].player in selected && r[i].player.role == role
    {
      assert picked[i] == sorted[i];
      assert sorted[i] in f;
    }
  }

  /** No selected player of a role who is left out of the table outranks one
      who is in it. */
  lemma LeftOutRankLower(selected: seq<Selected>, role: string, need: int, e: Selected)
    requires e in Filter(selected, HasRole(role)) && e !in Picked(selected, role, need)
    ensures forall i :: 0 <= i < |Picked(selected, role, need)| ==>
      RankGe(SelectedRank(Picked(selected, role, need)[i]), SelectedRank(e))
  {
    var f := Filter(selected, HasRole(role));
    var sorted := SortDesc(f, SelectedRank);
    var picked := Picked(selected, role, need);
    SortDescMembers(f, SelectedRank);
    var j :| 0 <= j < |sorted| && sorted[j] == e;
    assert forall i :: 0 <= i < |picked| ==> picked[i] == sorted[i] && picked[i] != e;
    assert j >= |picked|;
  }

  /** Every table role with a positive need has exactly `need` rows, and no
      other role appears. */
  lemma RowsPerRole(selected: seq<Selected>, structure: map<string, int>, role: string)
    ensures CountRole(TeamRows(selected, structure), role) ==
      (if role in TableRoles then Max(0, NeedOf(structure, role)) else 0)
  {
    CountFour(RoleRows(selected, structure, "Batter"), RoleRows(selected, structure, "Wicket Keeper"),
              RoleRows(selected, structure, "Allrounder"), RoleRows(selected, structure, "Bowler"), role);
    BlockCount(selected, structure, "Batter", role);
    BlockCount(selected, structure, "Wicket Keeper", role);
    BlockCount(selected, structure, "Allrounder", role);
    BlockCount(selected, structure, "Bowler", role);
    TableRolesDistinct(role);
  }

  lemma CountFour(b: seq<TeamRow>, w: seq<TeamRow>, a: seq<TeamRow>, o: seq<TeamRow>, role: string)
    ensures CountRole(b + w + a + o, role) ==
      CountRole(b, role) + CountRole(w, role) + CountRole(a, role) + CountRole(o, role)
  {
    CountAppend(b + w + a, o, role);
    CountAppend(b + w, a, role);
    CountAppend(b, w, role);
  }

  /** A role is in the table order at most once. */
  lemma TableRolesDistinct(role: string)
    ensures role in TableRoles <==>
      role == "Batter" || role == "Wicket Keeper" || role == "Allrounder" || role == "Bowler"
    ensures role == "Batter" ==> role != "Wicket Keeper" && role != "Allrounder" && role != "Bowler"
    ensures role == "Wicket Keeper" ==> role != "Allrounder" && role != "Bowler"
    ensures role == "Allrounder" ==> role != "Bowler"
  {
  }

  lemma BlockCount(selected: seq<Selected>, structure: map<string, int>, block: string, role: string)
    ensures CountRole(RoleRows(selected, structure, block), role) ==
      (if block == role then Max(0, NeedOf(structure, role)) else 0)
  {
    var r := RoleRows(selected, structure, block);
    if block == role {
      CountUniform(r, role);
    } else {
      CountOther(r, role, block);
    }
  }
}

=== FILE: events.dfy ===
/** The ball-by-ball scoring ledger's stored shapes: one delivery as recorded,
    the innings that owns a log of deliveries, and the match that owns its
    innings, squads and derived per-player rows. Also the two token
    normalisers applied to delivery input. */
module Events {
  import opened Common
  import opened Text

  /** The five extra types a delivery may carry. */
  datatype ExtraType = NoExtra | Wide | NoBall | Bye | LegBye

  function ExtraName(x: ExtraType): string {
    match x
    case NoExtra => "none"
    case Wide => "wide"
    case NoBall => "no_ball"
    case Bye => "bye"
    case LegBye => "leg_bye"
  }

  /** The extra type a normalised token names, if any. */
  function ExtraOf(token: string): (r: Option<ExtraType>)
    ensures r.Some? ==> ExtraName(r.value) == token
  {
    if token == "none" then Some(NoExtra)
    else if token == "wide" then Some(Wide)
    else if token == "no_ball" then Some(NoBall)
    else if token == "bye" then Some(Bye)
    else if token == "leg_bye" then Some(LegBye)
    else None
  }

  lemma ExtraNameRoundTrip(x: ExtraType)
    ensures ExtraOf(ExtraName(x)) == Some(x)
  {
  }

  /** Every lower-case, stripped extra name is recognised. */
  lemma ExtraNamesAreNormal(x: ExtraType)
    ensures Strip(ExtraName(x)) == ExtraName(x) && Lower(ExtraName(x)) == ExtraName(x)
  {
    PlainWordNormal(ExtraName(x));
  }

  /** `_normalize_extra_type`: a missing or empty token means "none"; otherwise
      the stripped, lower-cased token must name one of the five types. */
  function NormalizeExtraType(raw: Option<string>): (r: Option<ExtraType>)
    ensures raw == None || raw == Some("") ==> r == Some(NoExtra)
    ensures raw.Some? && raw.value != "" ==>
      (r.Some? <==> Lower(Strip(raw.value)) in {"none", "wide", "no_ball", "bye", "leg_bye"})
    ensures r.Some? && raw.Some? && raw.value != "" ==> ExtraName(r.value) == Lower(Strip(raw.value))
  {
    var token := if raw == None || raw == Some("") then "none" else Lower(Strip(raw.value));
    ExtraOf(token)
  }

  /** Feeding a normalised name back through the normaliser returns the same type. */
  lemma NormalizeExtraTypeRoundTrip(x: ExtraType)
    ensures NormalizeExtraType(Some(ExtraName(x))) == Some(x)
  {
    ExtraNamesAreNormal(x);
  }

  /** `_normalize_dismissal_type`: missing stays missing; otherwise the token is
      stripped and lower-cased, and an empty result becomes missing. */
  function NormalizeDismissalType(raw: Option<string>): Option<string> {
    match raw
    case None => None
    case Some(s) =>
      var token := Lower(Strip(s));
      if token == "" then None else Some(token)
  }

  /** What the normaliser promises, kept apart from the function so that the
      per-delivery fold does not carry these string facts around. */
  lemma NormalizeDismissalTypeMeaning(raw: Option<string>)
    ensures raw == None ==> NormalizeDismissalType(raw) == None
    ensures raw.Some? ==> (NormalizeDismissalType(raw) == None <==> IsBlank(raw.value))
    ensures NormalizeDismissalType(raw).Some? ==>
      var r := NormalizeDismissalType(raw).value;
      r != "" && raw.Some? && r == Lower(Strip(raw.value))
  {
    if raw.Some? {
      StripEmptyIffBlank(raw.value);
    }
  }

  /** Normalising an already normalised dismissal type changes nothing. */
  lemma NormalizeDismissalTypeIdempotent(raw: Option<string>)
    ensures NormalizeDismissalType(NormalizeDismissalType(raw)) == NormalizeDismissalType(raw)
  {
    if raw.Some? && NormalizeDismissalType(raw).Some? {
      StripLowerIdempotent(raw.value);
    }
  }

  /** One stored delivery. Player and team ids are the store's integer ids. */
  datatype BallEvent = BallEvent(
    seqNo: int,
    overNo: int,
    ballInOver: int,
    legal: bool,
    striker: int,
    nonStriker: int,
    bowler: int,
    runsOffBat: int,
    extras: int,
    extraType: ExtraType,
    isWicket: bool,
    dismissalType: Option<string>,
    dismissedPlayer: Option<int>,
    notes: Option<string>)

  /** The stored innings status: `in_progress` or `completed`. */
  datatype InningsStatus = InProgress | Completed

  /** An innings: identity, the two teams, the stored running totals and
      status, and its delivery log in the order the deliveries were recorded. */
  datatype Innings = Innings(
    id: int,
    inningsNo: int,
    battingTeam: int,
    bowlingTeam: int,
    totalRuns: int,
    wickets: int,
    legalBalls: int,
    status: InningsStatus,
    events: seq<BallEvent>)

  /** The stored match status: `scheduled`, `live` or `completed`. */
  datatype MatchStatus = Scheduled | Live | Completed

  /** One stored batting row of a match. */
  datatype BattingRow = BattingRow(
    team: int,
    innings: int,
    runs: int,
    ballsFaced: int,
    fours: int,
    sixes: int,
    dismissals: int,
    notOuts: int,
    highestScore: int,
    strikeRate: real,
    average: real)

  /** One stored bowling row of a match. */
  datatype BowlingRow = BowlingRow(
    team: int,
    innings: int,
    ballsBowled: int,
    runsConceded: int,
    wickets: int,
    wides: int,
    noBalls: int,
    overs: real,
    economy: real,
    strikeRate: real,
    average: real)

  /** A match: overs limit, status, squad membership as (team, player) pairs,
      its innings in creation (id) order, and the derived rows per player id. */
  datatype Match = Match(
    id: int,
    totalOvers: int,
    status: MatchStatus,
    squads: set<(int, int)>,
    innings: seq<Innings>,
    batting: map<int, BattingRow>,
    bowling: map<int, BowlingRow>)
}

=== FILE: ledger.dfy ===
/** The scoring ledger's mutations: recording a delivery, undoing the last
    one, and opening an innings. Each is one atomic step from one match value
    to the next; recording and undoing end with a full recomputation. */
module Ledger {
  import opened Common
  import opened Text
  import opened Events
  import opened Recompute

  /** The reasons a mutation is refused, one per error the store raises. */
  datatype LedgerError =
    | SameBatters
    | NegativeRuns
    | NegativeExtras
    | InvalidExtraType
    | ExtrasWithoutType
    | RunsOnWide
    | RunsOnBye
    | InvalidInnings
    | InningsCompleted
    | AllOut
    | OversComplete
    | StrikerNotInSquad
    | NonStrikerNotInSquad
    | BowlerNotInSquad
    | DismissedNotInSquad
    | InvalidInningsNo
    | SameTeams

  /** A delivery as the scorer submits it. */
  datatype Delivery = Delivery(
    striker: int,
    nonStriker: int,
    bowler: int,
    runsOffBat: int,
    extras: int,
    extraType: Option<string>,
    isWicket: bool,
    dismissalType: Option<string>,
    dismissedPlayer: Option<int>,
    notes: Option<string>)

  /** The delivery's checks that need no stored state, in the order the store
      makes them, yielding the normalised extra type. */
  function ValidateDelivery(d: Delivery): (r: Result<ExtraType, LedgerError>)
    ensures r.Ok? <==>
      && d.striker != d.nonStriker
      && d.runsOffBat >= 0 && d.extras >= 0
      && NormalizeExtraType(d.extraType).Some?
      && !(NormalizeExtraType(d.extraType) == Some(NoExtra) && d.extras > 0)
      && !(NormalizeExtraType(d.extraType) in {Some(Wide), Some(Bye), Some(LegBye)} && d.runsOffBat > 0)
    ensures r.Ok? ==> Some(r.value) == NormalizeExtraType(d.extraType)
    ensures d.striker == d.nonStriker ==> r == Err(SameBatters)
  {
    if d.striker == d.nonStriker then Err(SameBatters)
    else if d.runsOffBat < 0 then Err(NegativeRuns)
    else if d.extras < 0 then Err(NegativeExtras)
    else
      match NormalizeExtraType(d.extraType)
      case None => Err(InvalidExtraType)
      case Some(x) =>
        if x == NoExtra && d.extras > 0 then Err(ExtrasWithoutType)
        else if x == Wide && d.runsOffBat > 0 then Err(RunsOnWide)
        else if (x == Bye || x == LegBye) && d.runsOffBat > 0 then Err(RunsOnBye)
        else Ok(x)
  }

  /** Wides and no-balls are the only deliveries that do not count toward the over. */
  function IsLegal(x: ExtraType): (r: bool)
    ensures r <==> x != Wide && x != NoBall
  {
    !(x in {Wide, NoBall})
  }

  /** `COALESCE(MAX(event_seq), 0)`. */
  function MaxSeq(events: seq<BallEvent>): (r: int)
    ensures |events| == 0 ==> r == 0
    ensures forall i :: 0 <= i < |events| ==> events[i].seqNo <= r
    ensures |events| > 0 ==> exists i :: 0 <= i < |events| && events[i].seqNo == r
  {
    if |events| == 0 then 0
    else if |events| == 1 then events[0].seqNo
    else Max(MaxSeq(events[..|events| - 1]), events[|events| - 1].seqNo)
  }

  /** The over number and ball-in-over stamp of a delivery made after
      `legalBalls` legal deliveries, in the two forms the store computes:
      counting the delivery itself when legal, and not counting it otherwise. */
  function Stamp(legal: bool, legalBalls: int): (int, int) {
    if legal then
      var legalIndex := legalBalls + 1;
      ((legalIndex - 1) / 6, (legalIndex - 1) % 6 + 1)
    else
      (legalBalls / 6, legalBalls % 6 + 1)
  }

  /** Both forms agree: over `lb / 6`, ball `lb % 6 + 1`, so a wide or no-ball
      carries the stamp of the legal delivery that follows it. */
  lemma StampBothBranches(legalBalls: int)
    ensures Stamp(true, legalBalls) == Stamp(false, legalBalls)
    ensures 1 <= Stamp(true, legalBalls).1 <= 6
    ensures legalBalls >= 0 ==> Stamp(true, legalBalls).0 * 6 + Stamp(true, legalBalls).1 - 1 == legalBalls
  {
  }

  /** `notes.strip()` when that is not empty, otherwise nothing. */
  function CleanNotes(notes: Option<string>): (r: Option<string>)
    ensures r.Some? <==> notes.Some? && !IsBlank(notes.value)
    ensures r.Some? ==> r.value == Strip(notes.value)
  {
    match notes
    case None => None
    case Some(s) =>
      StripEmptyIffBlank(s);
      if Strip(s) == "" then None else Some(Strip(s))
  }

  /** The position of the innings with the given id among the match's innings. */
  function FindInnings(inns: seq<Innings>, inningsId: int): (r: Option<nat>)
    ensures r.Some? ==> r.value < |inns| && inns[r.value].id == inningsId
    ensures r.None? <==> forall i :: 0 <= i < |inns| ==> inns[i].id != inningsId
  {
    if |inns| == 0 then None
    else if inns[|inns| - 1].id == inningsId then Some(|inns| - 1)
    else FindInnings(inns[..|inns| - 1], inningsId)
  }

  predicate InSquad(m: Match, player: int, team: int) {
    (team, player) in m.squads
  }

  /** The checks against stored state, in the store's order. */
  function CheckInnings(m: Match, inn: Innings, d: Delivery): (r: Result<(), LedgerError>)
    ensures r.Ok? <==>
      && inn.status != InningsStatus.Completed && inn.wickets < 10 && inn.legalBalls < m.totalOvers * 6
      && InSquad(m, d.striker, inn.battingTeam) && InSquad(m, d.nonStriker, inn.battingTeam)
      && InSquad(m, d.bowler, inn.bowlingTeam)
      && (d.dismissedPlayer.Some? ==> InSquad(m, d.dismissedPlayer.value, inn.battingTeam))
    ensures inn.status == InningsStatus.Completed ==> r == Err(InningsCompleted)
  {
    if inn.status == InningsStatus.Completed then Err(InningsCompleted)
    else if inn.wickets >= 10 then Err(AllOut)
    else if inn.legalBalls >= m.totalOvers * 6 then Err(OversComplete)
    else if !InSquad(m, d.striker, inn.battingTeam) then Err(StrikerNotInSquad)
    else if !InSquad(m, d.nonStriker, inn.battingTeam) then Err(NonStrikerNotInSquad)
    else if !InSquad(m, d.bowler, inn.bowlingTeam) then Err(BowlerNotInSquad)
    else if d.dismissedPlayer.Some? && !InSquad(m, d.dismissedPlayer.value, inn.battingTeam) then Err(DismissedNotInSquad)
    else Ok(())
  }

  /** The stored delivery: next sequence number, stamp, normalised tokens;
      a dismissed id of 0 is stored as missing, as the store's truthiness test does. */
  function MakeEvent(inn: Innings, d: Delivery, x: ExtraType): (e: BallEvent)
    ensures e.seqNo == MaxSeq(inn.events) + 1
    ensures e.legal <==> x != Wide && x != NoBall
    ensures e.overNo == inn.legalBalls / 6 && e.ballInOver == inn.legalBalls % 6 + 1
    ensures 1 <= e.ballInOver <= 6
    ensures e.striker == d.striker && e.nonStriker == d.nonStriker && e.bowler == d.bowler
    ensures e.runsOffBat == d.runsOffBat && e.extras == d.extras && e.extraType == x
    ensures e.isWicket == d.isWicket
    ensures e.dismissalType == NormalizeDismissalType(d.dismissalType)
    ensures e.dismissedPlayer.Some? <==> d.dismissedPlayer.Some? && d.dismissedPlayer.value != 0
    ensures e.dismissedPlayer.Some? ==> e.dismissedPlayer == d.dismissedPlayer
    ensures e.notes.Some? <==> d.notes.Some? && !IsBlank(d.notes.value)
    ensures e.notes.Some? ==> e.notes.value == Strip(d.notes.value)
  {
    var legal := IsLegal(x);
    var stamp := Stamp(legal, inn.legalBalls);
    StampBothBranches(inn.legalBalls);
    BallEvent(
      MaxSeq(inn.events) + 1, stamp.0, stamp.1, legal,
      d.striker, d.nonStriker, d.bowler, d.runsOffBat, d.extras, x, d.isWicket,
      NormalizeDismissalType(d.dismissalType),
      if d.dismissedPlayer == Some(0) then None else d.dismissedPlayer,
      CleanNotes(d.notes))
  }

  function AppendEvent(inn: Innings, e: BallEvent): Innings {
    inn.(events := inn.events + [e])
  }

  datatype Recorded = Recorded(m: Match, event: BallEvent)

  /** `record_ball_event`: validate, append one delivery to the innings' log,
      recompute the match. */
  function RecordBallEvent(m: Match, inningsId: int, d: Delivery): (r: Result<Recorded, LedgerError>)
    ensures r.Ok? ==> ValidateDelivery(d).Ok? && FindInnings(m.innings, inningsId).Some?
    ensures ValidateDelivery(d).Err? ==> r == Err(ValidateDelivery(d).error)
    ensures ValidateDelivery(d).Ok? && FindInnings(m.innings, inningsId).None? ==> r == Err(InvalidInnings)
    ensures ValidateDelivery(d).Ok? && FindInnings(m.innings, inningsId).Some? ==>
      var inn := m.innings[FindInnings(m.innings, inningsId).value];
      (r.Ok? <==> CheckInnings(m, inn, d).Ok?)
    ensures r.Ok? ==>
      var k := FindInnings(m.innings, inningsId).value;
      var inn := m.innings[k];
      && r.value.event == MakeEvent(inn, d, ValidateDelivery(d).value)
      && r.value.m == RecomputeMatch(m.(innings := m.innings[k := AppendEvent(inn, r.value.event)]))
  {
    var x :- ValidateDelivery(d);
    match FindInnings(m.innings, inningsId)
    case None => Err(InvalidInnings)
    case Some(k) =>
      var inn := m.innings[k];
      var _ :- CheckInnings(m, inn, d);
      var e := MakeEvent(inn, d, x);
      Ok(Recorded(RecomputeMatch(m.(innings := m.innings[k := AppendEvent(inn, e)])), e))
  }

  /** The position of the delivery with the highest sequence number (the
      later one on a tie). */
  function TopIndex(events: seq<BallEvent>): (r: nat)
    requires |events| > 0
    ensures r < |events|
    ensures forall i :: 0 <= i < |events| ==> events[i].seqNo <= events[r].seqNo
  {
    if |events| == 1 then 0
    else
      var k := TopIndex(events[..|events| - 1]);
      if events[|events| - 1].seqNo >= events[k].seqNo then |events| - 1 else k
  }

  function RemoveAt(events: seq<BallEvent>, k: nat): (r: seq<BallEvent>)
    requires k < |events|
    ensures |r| == |events| - 1
    ensures forall i :: 0 <= i < k ==> r[i] == events[i]
    ensures forall i :: k <= i < |r| ==> r[i] == events[i + 1]
  {
    events[..k] + events[k + 1..]
  }

  datatype Undone = Undone(m: Match, removed: bool)

  /** `undo_last_ball`: nothing happens, and false is reported, when the
      innings is unknown or its log is empty; otherwise the delivery with the
      highest sequence number is deleted and the match recomputed. */
  function UndoLastBall(m: Match, inningsId: int): (r: Undone)
    ensures !r.removed <==>
      FindInnings(m.innings, inningsId).None? || |m.innings[FindInnings(m.innings, inningsId).value].events| == 0
    ensures !r.removed ==> r.m == m
    ensures r.removed ==>
      var k := FindInnings(m.innings, inningsId).value;
      var inn := m.innings[k];
      r.m == RecomputeMatch(m.(innings := m.innings[k := inn.(events := RemoveAt(inn.events, TopIndex(inn.events)))]))
  {
    match FindInnings(m.innings, inningsId)
    case None => Undone(m, false)
    case Some(k) =>
      var inn := m.innings[k];
      if |inn.events| == 0 then Undone(m, false)
      else
        var events := RemoveAt(inn.events, TopIndex(inn.events));
        Undone(RecomputeMatch(m.(innings := m.innings[k := inn.(events := events)])), true)
  }

  datatype Opened = Opened(m: Match, inningsId: int)

  /** `get_or_create_innings`: the number must be positive and the teams must
      differ; an existing innings of that number is returned as it is;
      otherwise a fresh in-progress innings is appended under `newId` (the
      store's next row id) and the match is marked live without recomputing. */
  function GetOrCreateInnings(m: Match, inningsNo: int, battingTeam: int, bowlingTeam: int, newId: int)
    : (r: Result<Opened, LedgerError>)
    ensures inningsNo <= 0 ==> r == Err(InvalidInningsNo)
    ensures inningsNo > 0 && battingTeam == bowlingTeam ==> r == Err(SameTeams)
    ensures r.Ok? <==> inningsNo > 0 && battingTeam != bowlingTeam
    ensures r.Ok? && (exists i :: 0 <= i < |m.innings| && m.innings[i].inningsNo == inningsNo) ==>
      r.value.m == m && exists i :: 0 <= i < |m.innings| && m.innings[i].inningsNo == inningsNo &&
                                   m.innings[i].id == r.value.inningsId
    ensures r.Ok? && (forall i :: 0 <= i < |m.innings| ==> m.innings[i].inningsNo != inningsNo) ==>
      && r.value.inningsId == newId
      && r.value.m == m.(status := Live,
                         innings := m.innings + [Innings(newId, inningsNo, battingTeam, bowlingTeam, 0, 0, 0, InProgress, [])])
  {
    if inningsNo <= 0 then Err(InvalidInningsNo)
    else if battingTeam == bowlingTeam then Err(SameTeams)
    else
      match FindNumber(m.innings, inningsNo)
      case Some(k) => Ok(Opened(m, m.innings[k].id))
      case None =>
        var created := Innings(newId, inningsNo, battingTeam, bowlingTeam, 0, 0, 0, InProgress, []);
        Ok(Opened(m.(status := Live, innings := m.innings + [created]), newId))
  }

  function FindNumber(inns: seq<Innings>, inningsNo: int): (r: Option<nat>)
    ensures r.Some? ==> r.value < |inns| && inns[r.value].inningsNo == inningsNo
    ensures r.None? <==> forall i :: 0 <= i < |inns| ==> inns[i].inningsNo != inningsNo
  {
    if |inns| == 0 then None
    else if inns[|inns| - 1].inningsNo == inningsNo then Some(|inns| - 1)
    else FindNumber(inns[..|inns| - 1], inningsNo)
  }
}

=== FILE: ledger_facts.dfy ===
/** Invariants of the scoring ledger and the relations between its
    mutations: every reachable match keeps its logs numbered 1..N, its totals
    in step with its logs and within the wicket and over limits, and its
    player rows equal to a pass over its deliveries; undoing a recorded
    delivery gives back the recomputed match from before it. */
module LedgerFacts {
  import opened Common
  import opened Events
  import opened Recompute
  import opened Ledger

  // ---------------------------------------------------------------------------
  // Well-formed matches
  // ---------------------------------------------------------------------------

  /** Sequence numbers are exactly 1..N in log order. */
  predicate Numbered(events: seq<BallEvent>) {
    forall i :: 0 <= i < |events| ==> events[i].seqNo == i + 1
  }

  /** What validation lets into a log. */
  predicate ValidEvent(e: BallEvent) {
    e.runsOffBat >= 0 && e.extras >= 0 && 1 <= e.ballInOver <= 6 &&
    (e.legal <==> e.extraType != Wide && e.extraType != NoBall)
  }

  predicate GoodInnings(inn: Innings, totalOvers: int) {
    && inn.inningsNo > 0 && inn.battingTeam != inn.bowlingTeam
    && Numbered(inn.events)
    && (forall i :: 0 <= i < |inn.events| ==> ValidEvent(inn.events[i]))
    && Settled(inn, totalOvers)
    && inn.wickets <= 10 && inn.legalBalls <= totalOvers * 6
  }

  /** Innings ids increase in creation order and innings numbers never repeat. */
  predicate InningsOrder(inns: seq<Innings>) {
    forall i, j :: 0 <= i < j < |inns| ==> inns[i].id < inns[j].id && inns[i].inningsNo != inns[j].inningsNo
  }

  predicate RowsUpToDate(m: Match) {
    m.batting == BattingRows(Pass(Stream(m.innings))) && m.bowling == BowlingRows(Pass(Stream(m.innings)))
  }

  predicate WellFormed(m: Match) {
    && m.totalOvers > 0
    && InningsOrder(m.innings)
    && (forall i :: 0 <= i < |m.innings| ==> GoodInnings(m.innings[i], m.totalOvers))
    && RowsUpToDate(m)
  }

  lemma WellFormedSame(a: Match, b: Match)
    requires WellFormed(a) && a == b
    ensures WellFormed(b)
  {
  }

  /** A match as creation leaves it: scheduled, no innings, no rows. */
  function NewMatch(id: int, totalOvers: int, squads: set<(int, int)>): (m: Match)
    requires totalOvers > 0
    ensures WellFormed(m) && m.status == Scheduled
  {
    Match(id, totalOvers, Scheduled, squads, [], map[], map[])
  }

  // ---------------------------------------------------------------------------
  // Sequence numbers
  // ---------------------------------------------------------------------------

  lemma {:induction false} NumberedMaxSeq(events: seq<BallEvent>)
    requires Numbered(events)
    ensures MaxSeq(events) == |events|
    ensures |events| > 0 ==> TopIndex(events) == |events| - 1
  {
    if |events| > 1 {
      var p := events[..|events| - 1];
      assert Numbered(p);
      NumberedMaxSeq(p);
    }
  }

  /** The next number continues the run, and removing the top keeps it. */
  lemma NumberedAppendRemove(events: seq<BallEvent>, e: BallEvent)
    requires Numbered(events) && e.seqNo == MaxSeq(events) + 1
    ensures Numbered(events + [e])
    ensures RemoveAt(events + [e], TopIndex(events + [e])) == events
  {
    NumberedMaxSeq(events);
    NumberedMaxSeq(events + [e]);
  }

  // ---------------------------------------------------------------------------
  // Recording
  // ---------------------------------------------------------------------------

  /** The event validation produces is one a well-formed log may hold. */
  lemma MadeEventValid(inn: Innings, d: Delivery)
    requires ValidateDelivery(d).Ok?
    ensures ValidEvent(MakeEvent(inn, d, ValidateDelivery(d).value))
  {
  }

  /** A log validation could have produced, within the wicket and over limits. */
  predicate LogOk(events: seq<BallEvent>, totalOvers: int) {
    && Numbered(events)
    && (forall j :: 0 <= j < |events| ==> ValidEvent(events[j]))
    && WicketCount(events) <= 10 && LegalCount(events) <= totalOvers * 6
  }

  /** Recomputing a match whose logs are all acceptable gives a well-formed match. */
  lemma RecomputeWellFormed(m: Match)
    requires m.totalOvers > 0 && InningsOrder(m.innings)
    requires forall i :: 0 <= i < |m.innings| ==>
      m.innings[i].inningsNo > 0 && m.innings[i].battingTeam != m.innings[i].bowlingTeam &&
      LogOk(m.innings[i].events, m.totalOvers)
    ensures WellFormed(RecomputeMatch(m))
  {
    var r := RecomputeMatch(m);
    StreamSameLogs(r.innings, m.innings);
    forall i | 0 <= i < |r.innings|
      ensures GoodInnings(r.innings[i], r.totalOvers)
    {
      assert r.innings[i] == Refresh(m.innings[i], m.totalOvers);
    }
  }

  /** Replacing one innings' log of a well-formed match by an acceptable log
      and recomputing gives a well-formed match. */
  lemma ReplaceLogWellFormed(m: Match, k: nat, events: seq<BallEvent>)
    requires WellFormed(m) && k < |m.innings| && LogOk(events, m.totalOvers)
    ensures WellFormed(RecomputeMatch(m.(innings := m.innings[k := m.innings[k].(events := events)])))
  {
    var m1 := m.(innings := m.innings[k := m.innings[k].(events := events)]);
    forall i | 0 <= i < |m1.innings|
      ensures m1.innings[i].inningsNo > 0 && m1.innings[i].battingTeam != m1.innings[i].bowlingTeam &&
              LogOk(m1.innings[i].events, m1.totalOvers)
    {
      assert GoodInnings(m.innings[i], m.totalOvers);
    }
    RecomputeWellFormed(m1);
  }

  /** After one more delivery, the counts stay within the limits that held
      strictly before it. */
  lemma AppendWithinLimits(inn: Innings, e: BallEvent, totalOvers: int)
    requires Settled(inn, totalOvers) && inn.wickets < 10 && inn.legalBalls < totalOvers * 6
    ensures WicketCount(inn.events + [e]) <= 10 && LegalCount(inn.events + [e]) <= totalOvers * 6
  {
    TotalsAppend(inn.events, e);
  }

  /** One more acceptable delivery, numbered next, on an innings still open
      leaves an acceptable log. */
  lemma AppendLogOk(inn: Innings, e: BallEvent, totalOvers: int)
    requires GoodInnings(inn, totalOvers) && inn.wickets < 10 && inn.legalBalls < totalOvers * 6
    requires ValidEvent(e) && e.seqNo == MaxSeq(inn.events) + 1
    ensures LogOk(inn.events + [e], totalOvers)
  {
    NumberedAppendRemove(inn.events, e);
    AppendWithinLimits(inn, e, totalOvers);
    assert forall j :: 0 <= j < |inn.events + [e]| ==> ValidEvent((inn.events + [e])[j]);
  }

  /** Recording keeps a match well formed. */
  lemma RecordPreservesWellFormed(m: Match, inningsId: int, d: Delivery)
    requires WellFormed(m) && RecordBallEvent(m, inningsId, d).Ok?
    ensures WellFormed(RecordBallEvent(m, inningsId, d).value.m)
  {
    var k := FindInnings(m.innings, inningsId).value;
    var inn := m.innings[k];
    var e := RecordBallEvent(m, inningsId, d).value.event;
    assert GoodInnings(inn, m.totalOvers);
    MadeEventValid(inn, d);
    AppendLogOk(inn, e, m.totalOvers);
    ReplaceLogWellFormed(m, k, inn.events + [e]);
    assert AppendEvent(inn, e) == inn.(events := inn.events + [e]);
    WellFormedSame(RecomputeMatch(m.(innings := m.innings[k := inn.(events := inn.events + [e])])),
                   RecordBallEvent(m, inningsId, d).value.m);
  }

  /** A recorded delivery takes the next sequence number, |log| + 1, and the
      log grows by exactly that delivery. */
  lemma RecordNumbersNext(m: Match, inningsId: int, d: Delivery)
    requires WellFormed(m) && RecordBallEvent(m, inningsId, d).Ok?
    ensures var k := FindInnings(m.innings, inningsId).value;
      var r := RecordBallEvent(m, inningsId, d).value;
      && r.event.seqNo == |m.innings[k].events| + 1
      && r.m.innings[k].events == m.innings[k].events + [r.event]
      && (forall i :: 0 <= i < |m.innings| && i != k ==> r.m.innings[i].events == m.innings[i].events)
  {
    var k := FindInnings(m.innings, inningsId).value;
    var r := RecordBallEvent(m, inningsId, d).value;
    assert GoodInnings(m.innings[k], m.totalOvers);
    NumberedMaxSeq(m.innings[k].events);
    ReplacedFound(m, k, AppendEvent(m.innings[k], r.event), inningsId);
  }

  /** A completed innings, or one at ten wickets or at the overs limit,
      accepts no delivery. */
  lemma FinishedInningsRejects(m: Match, inningsId: int, d: Delivery)
    requires WellFormed(m)
    requires ValidateDelivery(d).Ok?
    requires FindInnings(m.innings, inningsId).Some?
    requires var inn := m.innings[FindInnings(m.innings, inningsId).value];
      inn.status == InningsStatus.Completed || inn.wickets >= 10 || inn.legalBalls >= m.totalOvers * 6
    ensures RecordBallEvent(m, inningsId, d) == Err(InningsCompleted)
  {
    var inn := m.innings[FindInnings(m.innings, inningsId).value];
    assert Settled(inn, m.totalOvers);
  }

  // ---------------------------------------------------------------------------
  // Undoing
  // ---------------------------------------------------------------------------

  lemma GoodInningsLogOk(inn: Innings, totalOvers: int)
    requires GoodInnings(inn, totalOvers)
    ensures LogOk(inn.events, totalOvers)
  {
  }

  /** Removing the top of a well-numbered log drops its last delivery, and
      what is left is still acceptable. */
  lemma RemoveTopOfLog(events: seq<BallEvent>, totalOvers: int)
    requires LogOk(events, totalOvers) && |events| > 0
    ensures RemoveAt(events, TopIndex(events)) == events[..|events| - 1]
    ensures LogOk(events[..|events| - 1], totalOvers)
  {
    var n := |events|;
    var rest := events[..n - 1];
    NumberedMaxSeq(events);
    assert events == rest + [events[n - 1]];
    TotalsAppend(rest, events[n - 1]);
  }

  /** What undo does to a well-formed match that has something to undo. */
  lemma UndoDropsLast(m: Match, inningsId: int)
    requires WellFormed(m) && UndoLastBall(m, inningsId).removed
    ensures var k := FindInnings(m.innings, inningsId).value;
      var events := m.innings[k].events;
      && LogOk(events[..|events| - 1], m.totalOvers)
      && UndoLastBall(m, inningsId).m ==
         RecomputeMatch(m.(innings := m.innings[k := m.innings[k].(events := events[..|events| - 1])]))
  {
    var k := FindInnings(m.innings, inningsId).value;
    GoodInningsLogOk(m.innings[k], m.totalOvers);
    RemoveTopOfLog(m.innings[k].events, m.totalOvers);
  }

  /** Undoing a delivery keeps a match well formed. */
  lemma UndoRemovedWellFormed(m: Match, inningsId: int)
    requires WellFormed(m) && UndoLastBall(m, inningsId).removed
    ensures WellFormed(UndoLastBall(m, inningsId).m)
  {
    var k := FindInnings(m.innings, inningsId).value;
    var events := m.innings[k].events;
    UndoDropsLast(m, inningsId);
    ReplaceLogWellFormed(m, k, events[..|events| - 1]);
    WellFormedSame(RecomputeMatch(m.(innings := m.innings[k := m.innings[k].(events := events[..|events| - 1])])),
                   UndoLastBall(m, inningsId).m);
  }

  /** Undoing keeps a match well formed. */
  lemma UndoPreservesWellFormed(m: Match, inningsId: int)
    requires WellFormed(m)
    ensures WellFormed(UndoLastBall(m, inningsId).m)
  {
    if UndoLastBall(m, inningsId).removed {
      UndoRemovedWellFormed(m, inningsId);
    }
  }

  /** What recording does, in the terms undo needs: the innings is found at
      the same position and its log is the old one plus the new delivery. */
  lemma RecordShape(m: Match, inningsId: int, d: Delivery)
    requires RecordBallEvent(m, inningsId, d).Ok?
    ensures var k := FindInnings(m.innings, inningsId).value;
      var r := RecordBallEvent(m, inningsId, d).value;
      && FindInnings(r.m.innings, inningsId) == Some(k)
      && r.m.innings[k].events == m.innings[k].events + [r.event]
      && SameLogs(r.m.innings, m.innings[k := m.innings[k].(events := m.innings[k].events + [r.event])])
      && r.m.id == m.id && r.m.totalOvers == m.totalOvers && r.m.squads == m.squads
      && (forall i :: 0 <= i < |m.innings| ==> r.m.innings[i].inningsNo == m.innings[i].inningsNo)
  {
    var k := FindInnings(m.innings, inningsId).value;
    var r := RecordBallEvent(m, inningsId, d).value;
    ReplacedFound(m, k, AppendEvent(m.innings[k], r.event), inningsId);
  }

  /** Recomputing after replacing the innings at `k` by one with the same id
      leaves it findable at `k`, holding the new log, and every other log as
      it was. */
  lemma ReplacedFound(m: Match, k: nat, inn: Innings, inningsId: int)
    requires FindInnings(m.innings, inningsId) == Some(k) && inn.id == inningsId
    ensures var r := RecomputeMatch(m.(innings := m.innings[k := inn]));
      && FindInnings(r.innings, inningsId) == Some(k) && r.innings[k].events == inn.events
      && forall i :: 0 <= i < |m.innings| && i != k ==> r.innings[i].events == m.innings[i].events
  {
    var r := RecomputeMatch(m.(innings := m.innings[k := inn]));
    assert forall i :: 0 <= i < |r.innings| ==> r.innings[i].id == m.innings[i].id;
    FindSameIds(r.innings, m.innings, inningsId);
  }

  /** Undoing a log whose last delivery is `e` recomputes the match from the
      log without `e`. */
  lemma UndoOfAppended(r: Match, inningsId: int, k: nat, before: seq<BallEvent>, e: BallEvent)
    requires WellFormed(r) && FindInnings(r.innings, inningsId) == Some(k)
    requires r.innings[k].events == before + [e]
    ensures UndoLastBall(r, inningsId) ==
      Undone(RecomputeMatch(r.(innings := r.innings[k := r.innings[k].(events := before)])), true)
  {
    var events := r.innings[k].events;
    assert events[..|events| - 1] == before;
    UndoDropsLast(r, inningsId);
  }

  /** Putting the old log back into the recorded match gives a match with the
      same logs as the one before the record. */
  lemma PutBackSameRecompute(m: Match, r: Match, k: nat)
    requires k < |m.innings| && |r.innings| == |m.innings|
    requires r.id == m.id && r.totalOvers == m.totalOvers && r.squads == m.squads
    requires SameLogs(r.innings, m.innings[k := m.innings[k].(events := r.innings[k].events)])
    requires forall i :: 0 <= i < |m.innings| ==> r.innings[i].inningsNo == m.innings[i].inningsNo
    ensures RecomputeMatch(r.(innings := r.innings[k := r.innings[k].(events := m.innings[k].events)])) ==
      RecomputeMatch(m)
  {
    var m2 := r.(innings := r.innings[k := r.innings[k].(events := m.innings[k].events)]);
    assert SameLogs(m2.innings, m.innings);
    RecomputeSameLogs(m2, m);
  }

  /** Undo right after a record removes exactly the recorded delivery: the
      result is the match before the record, recomputed. */
  lemma UndoAfterRecord(m: Match, inningsId: int, d: Delivery)
    requires WellFormed(m) && RecordBallEvent(m, inningsId, d).Ok?
    ensures UndoLastBall(RecordBallEvent(m, inningsId, d).value.m, inningsId) == Undone(RecomputeMatch(m), true)
  {
    var k := FindInnings(m.innings, inningsId).value;
    var r := RecordBallEvent(m, inningsId, d).value;
    RecordShape(m, inningsId, d);
    RecordPreservesWellFormed(m, inningsId, d);
    UndoOfAppended(r.m, inningsId, k, m.innings[k].events, r.event);
    PutBackSameRecompute(m, r.m, k);
  }

  lemma {:induction false} FindSameIds(a: seq<Innings>, b: seq<Innings>, inningsId: int)
    requires |a| == |b| && forall i :: 0 <= i < |a| ==> a[i].id == b[i].id
    ensures FindInnings(a, inningsId) == FindInnings(b, inningsId)
  {
    if |a| > 0 {
      FindSameIds(a[..|a| - 1], b[..|b| - 1], inningsId);
    }
  }

  /** On a match whose derived state is already current, record then undo
      is the identity. */
  lemma UndoAfterRecordRestores(m: Match, inningsId: int, d: Delivery)
    requires WellFormed(m) && m == RecomputeMatch(m) && RecordBallEvent(m, inningsId, d).Ok?
    ensures UndoLastBall(RecordBallEvent(m, inningsId, d).value.m, inningsId).m == m
  {
    UndoAfterRecord(m, inningsId, d);
  }

  // ---------------------------------------------------------------------------
  // Opening an innings
  // ---------------------------------------------------------------------------

  /** Appending a fresh, empty, in-progress innings under a larger id and an
      unused number keeps a match well formed, whatever its status. */
  lemma AppendFreshWellFormed(m: Match, created: Innings, status: MatchStatus)
    requires WellFormed(m)
    requires forall i :: 0 <= i < |m.innings| ==> m.innings[i].id < created.id && m.innings[i].inningsNo != created.inningsNo
    requires created.inningsNo > 0 && created.battingTeam != created.bowlingTeam
    requires created.events == [] && created.totalRuns == 0 && created.wickets == 0 && created.legalBalls == 0
    requires created.status == InProgress
    ensures WellFormed(m.(status := status, innings := m.innings + [created]))
  {
    var r := m.(status := status, innings := m.innings + [created]);
    assert Stream(r.innings) == Stream(m.innings) by {
      assert r.innings[..|r.innings| - 1] == m.innings;
    }
    assert GoodInnings(created, m.totalOvers);
  }

  /** Opening an innings under an id above every existing one keeps a match
      well formed. */
  lemma OpenPreservesWellFormed(m: Match, inningsNo: int, battingTeam: int, bowlingTeam: int, newId: int)
    requires WellFormed(m)
    requires forall i :: 0 <= i < |m.innings| ==> m.innings[i].id < newId
    requires GetOrCreateInnings(m, inningsNo, battingTeam, bowlingTeam, newId).Ok?
    ensures WellFormed(GetOrCreateInnings(m, inningsNo, battingTeam, bowlingTeam, newId).value.m)
  {
    var r := GetOrCreateInnings(m, inningsNo, battingTeam, bowlingTeam, newId).value.m;
    if FindNumber(m.innings, inningsNo).None? {
      var created := Innings(newId, inningsNo, battingTeam, bowlingTeam, 0, 0, 0, InProgress, []);
      AppendFreshWellFormed(m, created, Live);
      WellFormedSame(m.(status := Live, innings := m.innings + [created]), r);
    } else {
      WellFormedSame(m, r);
    }
  }

  // ---------------------------------------------------------------------------
  // A single, a wide and a six, then an undo
  // ---------------------------------------------------------------------------

  /** A delivery that passes validation is accepted exactly when the innings
      has wickets and balls left and the three players are in the right squads. */
  lemma RecordAccepted(m: Match, inningsId: int, d: Delivery, k: nat)
    requires WellFormed(m) && FindInnings(m.innings, inningsId) == Some(k)
    requires ValidateDelivery(d).Ok? && d.dismissedPlayer == None
    ensures RecordBallEvent(m, inningsId, d).Ok? <==>
      && m.innings[k].wickets < 10 && m.innings[k].legalBalls < m.totalOvers * 6
      && InSquad(m, d.striker, m.innings[k].battingTeam) && InSquad(m, d.nonStriker, m.innings[k].battingTeam)
      && InSquad(m, d.bowler, m.innings[k].bowlingTeam)
  {
    assert Settled(m.innings[k], m.totalOvers);
  }

  /** Recording adds exactly the delivery to the innings' running totals:
      its bat runs and extras to the score, one legal ball unless it is a wide
      or no-ball, one wicket when it is a wicket. */
  lemma RecordAddsDelivery(m: Match, inningsId: int, d: Delivery, k: nat)
    requires WellFormed(m) && FindInnings(m.innings, inningsId) == Some(k)
    requires RecordBallEvent(m, inningsId, d).Ok?
    ensures var r := RecordBallEvent(m, inningsId, d).value.m;
      var x := ValidateDelivery(d).value;
      && WellFormed(r) && FindInnings(r.innings, inningsId) == Some(k)
      && r.totalOvers == m.totalOvers && r.squads == m.squads
      && r.innings[k].battingTeam == m.innings[k].battingTeam
      && r.innings[k].bowlingTeam == m.innings[k].bowlingTeam
      && r.innings[k].totalRuns == m.innings[k].totalRuns + d.runsOffBat + d.extras
      && r.innings[k].legalBalls == m.innings[k].legalBalls + (if IsLegal(x) then 1 else 0)
      && r.innings[k].wickets == m.innings[k].wickets + (if d.isWicket then 1 else 0)
  {
    var r := RecordBallEvent(m, inningsId, d).value;
    RecordShape(m, inningsId, d);
    RecordPreservesWellFormed(m, inningsId, d);
    assert Settled(m.innings[k], m.totalOvers);
    assert Settled(r.m.innings[k], m.totalOvers);
    TotalsAppend(m.innings[k].events, r.event);
  }

  /** Recomputing leaves the totals of an innings that already agree with its log. */
  lemma RecomputeKeepsSettled(m: Match, k: nat)
    requires k < |m.innings| && Settled(m.innings[k], m.totalOvers)
    ensures RecomputeMatch(m).innings[k] == m.innings[k]
  {
    var r := RecomputeMatch(m);
    assert Settled(r.innings[k], m.totalOvers);
  }

  /** A delivery with no dismissed player that passes validation, recorded
      into an innings with wickets and balls left by players of the right
      squads, is accepted and adds itself to the running totals. */
  lemma AcceptedStep(m: Match, inningsId: int, d: Delivery, k: nat)
    requires WellFormed(m) && FindInnings(m.innings, inningsId) == Some(k)
    requires ValidateDelivery(d).Ok? && d.dismissedPlayer == None
    requires m.innings[k].wickets < 10 && m.innings[k].legalBalls < m.totalOvers * 6
    requires InSquad(m, d.striker, m.innings[k].battingTeam) && InSquad(m, d.nonStriker, m.innings[k].battingTeam)
    requires InSquad(m, d.bowler, m.innings[k].bowlingTeam)
    ensures RecordBallEvent(m, inningsId, d).Ok?
    ensures var r := RecordBallEvent(m, inningsId, d).value.m;
      var x := ValidateDelivery(d).value;
      && WellFormed(r) && FindInnings(r.innings, inningsId) == Some(k)
      && r.totalOvers == m.totalOvers && r.squads == m.squads
      && r.innings[k].battingTeam == m.innings[k].battingTeam
      && r.innings[k].bowlingTeam == m.innings[k].bowlingTeam
      && r.innings[k].totalRuns == m.innings[k].totalRuns + d.runsOffBat + d.extras
      && r.innings[k].legalBalls == m.innings[k].legalBalls + (if IsLegal(x) then 1 else 0)
      && r.innings[k].wickets == m.innings[k].wickets + (if d.isWicket then 1 else 0)
  {
    RecordAccepted(m, inningsId, d, k);
    RecordAddsDelivery(m, inningsId, d, k);
  }

  /** Runs off the bat with no extra type pass validation as an ordinary delivery. */
  lemma PlainDeliveryValid(a: int, b: int, c: int, runs: int)
    requires a != b && runs >= 0
    ensures ValidateDelivery(Delivery(a, b, c, runs, 0, None, false, None, None, None)) == Ok(NoExtra)
  {
  }

  /** A one-run wide passes validation as a wide. */
  lemma WideDeliveryValid(a: int, b: int, c: int)
    requires a != b
    ensures ValidateDelivery(Delivery(a, b, c, 0, 1, Some("wide"), false, None, None, None)) == Ok(Wide)
  {
    NormalizeExtraTypeRoundTrip(Wide);
  }

  lemma ScenarioDeliveries(a: int, b: int, c: int)
    requires a != b
    ensures ValidateDelivery(Delivery(a, b, c, 1, 0, None, false, None, None, None)) == Ok(NoExtra)
    ensures ValidateDelivery(Delivery(a, b, c, 0, 1, Some("wide"), false, None, None, None)) == Ok(Wide)
    ensures ValidateDelivery(Delivery(a, b, c, 6, 0, None, false, None, None, None)) == Ok(NoExtra)
  {
    PlainDeliveryValid(a, b, c, 1);
    WideDeliveryValid(a, b, c);
    PlainDeliveryValid(a, b, c, 6);
  }

  /** Whether batters `a`, `b` and bowler `c` may bowl into innings `k` of
      a well-formed two-over match that has no wickets. */
  predicate ReadyToBowl(m: Match, inningsId: int, k: nat, a: int, b: int, c: int) {
    && WellFormed(m) && m.totalOvers == 2 && FindInnings(m.innings, inningsId) == Some(k)
    && (m.innings[k].battingTeam, a) in m.squads && (m.innings[k].battingTeam, b) in m.squads
    && (m.innings[k].bowlingTeam, c) in m.squads
    && m.innings[k].wickets == 0
  }

  /** A delivery without a wicket into a ready innings with balls left is
      accepted, keeps the innings ready, and adds its runs and legal ball. */
  lemma BowlOne(m: Match, inningsId: int, k: nat, d: Delivery, x: ExtraType)
    requires ReadyToBowl(m, inningsId, k, d.striker, d.nonStriker, d.bowler)
    requires m.innings[k].legalBalls < 12
    requires ValidateDelivery(d) == Ok(x) && d.dismissedPlayer == None && !d.isWicket
    ensures RecordBallEvent(m, inningsId, d).Ok?
    ensures var r := RecordBallEvent(m, inningsId, d).value.m;
      && ReadyToBowl(r, inningsId, k, d.striker, d.nonStriker, d.bowler)
      && r.innings[k].totalRuns == m.innings[k].totalRuns + d.runsOffBat + d.extras
      && r.innings[k].legalBalls == m.innings[k].legalBalls + (if x == Wide || x == NoBall then 0 else 1)
  {
    AcceptedStep(m, inningsId, d, k);
  }

  /** A six followed by an undo that removes it. */
  lemma SixThenUndo(m: Match, inningsId: int, k: nat, a: int, b: int, c: int)
    requires WellFormed(m) && m.totalOvers == 2 && FindInnings(m.innings, inningsId) == Some(k)
    requires m.innings[k].legalBalls == 1 && m.innings[k].totalRuns == 2 && m.innings[k].wickets == 0
    requires a != b
    requires (m.innings[k].battingTeam, a) in m.squads && (m.innings[k].battingTeam, b) in m.squads
    requires (m.innings[k].bowlingTeam, c) in m.squads
    ensures
      var six := Delivery(a, b, c, 6, 0, None, false, None, None, None);
      && RecordBallEvent(m, inningsId, six).Ok?
      && var m3 := RecordBallEvent(m, inningsId, six).value.m;
      && FindInnings(m3.innings, inningsId) == Some(k)
      && m3.innings[k].legalBalls == 2 && m3.innings[k].totalRuns == 8
      && UndoLastBall(m3, inningsId).removed
      && FindInnings(UndoLastBall(m3, inningsId).m.innings, inningsId) == Some(k)
      && UndoLastBall(m3, inningsId).m.innings[k].legalBalls == 1
      && UndoLastBall(m3, inningsId).m.innings[k].totalRuns == 2
  {
    var six := Delivery(a, b, c, 6, 0, None, false, None, None, None);
    ScenarioDeliveries(a, b, c);
    AcceptedStep(m, inningsId, six, k);
    UndoAfterRecord(m, inningsId, six);
    assert Settled(m.innings[k], m.totalOvers);
    RecomputeKeepsSettled(m, k);
    FindSameIds(RecomputeMatch(m).innings, m.innings, inningsId);
  }

  /** An over of a two-over match: a single, a wide and a six give one legal
      ball and two runs after the wide, and two legal balls and eight runs
      after the six; undoing then removes the six, leaving two runs (the
      single and the wide) from one legal ball. */
  lemma SingleWideSixThenUndo(m: Match, inningsId: int, k: nat, a: int, b: int, c: int)
    requires WellFormed(m) && m.totalOvers == 2 && FindInnings(m.innings, inningsId) == Some(k)
    requires m.innings[k].events == []
    requires a != b
    requires (m.innings[k].battingTeam, a) in m.squads && (m.innings[k].battingTeam, b) in m.squads
    requires (m.innings[k].bowlingTeam, c) in m.squads
    ensures
      var single := Delivery(a, b, c, 1, 0, None, false, None, None, None);
      var wide := Delivery(a, b, c, 0, 1, Some("wide"), false, None, None, None);
      var six := Delivery(a, b, c, 6, 0, None, false, None, None, None);
      && RecordBallEvent(m, inningsId, single).Ok?
      && var m1 := RecordBallEvent(m, inningsId, single).value.m;
      && RecordBallEvent(m1, inningsId, wide).Ok?
      && var m2 := RecordBallEvent(m1, inningsId, wide).value.m;
      && FindInnings(m2.innings, inningsId) == Some(k)
      && m2.innings[k].legalBalls == 1 && m2.innings[k].totalRuns == 2
      && RecordBallEvent(m2, inningsId, six).Ok?
      && var m3 := RecordBallEvent(m2, inningsId, six).value.m;
      && FindInnings(m3.innings, inningsId) == Some(k)
      && m3.innings[k].legalBalls == 2 && m3.innings[k].totalRuns == 8
      && UndoLastBall(m3, inningsId).removed
      && FindInnings(UndoLastBall(m3, inningsId).m.innings, inningsId) == Some(k)
      && UndoLastBall(m3, inningsId).m.innings[k].legalBalls == 1
      && UndoLastBall(m3, inningsId).m.innings[k].totalRuns == 2
  {
    var single := Delivery(a, b, c, 1, 0, None, false, None, None, None);
    var wide := Delivery(a, b, c, 0, 1, Some("wide"), false, None, None, None);
    ScenarioDeliveries(a, b, c);
    assert Settled(m.innings[k], m.totalOvers);
    BowlOne(m, inningsId, k, single, NoExtra);
    var m1 := RecordBallEvent(m, inningsId, single).value.m;
    BowlOne(m1, inningsId, k, wide, Wide);
    var m2 := RecordBallEvent(m1, inningsId, wide).value.m;
    SixThenUndo(m2, inningsId, k, a, b, c);
  }
}

=== FILE: loader.dfy ===
/** Season-history ingestion: the required-column check on the CSV header,
    blank-tolerant number conversion, and grouping of records by player. */
module Loader {
  import opened Common
  import opened Models
  import Text

  datatype LoadError =
    | NoHeader
    | MissingColumns(columns: set<string>)
    | MissingField(column: string)
    | InvalidNumber(text: string)

  const RequiredColumns: set<string> := {
    "player_id", "player_name", "season", "matches", "runs", "batting_average",
    "strike_rate", "wickets", "bowling_average", "economy", "catches"
  }

  /** A header is accepted exactly when it exists and names every required
      column; otherwise the error carries the missing columns. */
  function CheckHeader(fieldnames: Option<seq<string>>): (r: Result<(), LoadError>)
    ensures fieldnames.None? ==> r == Err(NoHeader)
    ensures r.Ok? <==> fieldnames.Some? && forall c :: c in RequiredColumns ==> c in fieldnames.value
    ensures r.Err? && fieldnames.Some? ==>
      r.error.MissingColumns? && r.error.columns != {} &&
      forall c :: c in r.error.columns <==> c in RequiredColumns && c !in fieldnames.value
  {
    match fieldnames
    case None => Err(NoHeader)
    case Some(names) =>
      var missing := set c | c in RequiredColumns && c !in names;
      if missing != {} then Err(MissingColumns(missing))
      else
        assert forall c :: c in RequiredColumns && c !in names ==> c in missing;
        Ok(())
  }

  /** Python's `int(x)` on a float: truncation toward zero. */
  function TruncateTowardZero(x: real): (r: int)
    ensures x >= 0.0 ==> 0 <= r && r as real <= x < r as real + 1.0
    ensures x < 0.0 ==> r <= 0 && r as real - 1.0 < x <= r as real
  {
    if x >= 0.0 then x.Floor else -((-x).Floor)
  }

  /** `_to_float`: a blank cell reads as 0; anything else goes to the number
      parser (Python's `float`), whose refusal is an error. */
  function ToFloat(value: string, parseFloat: string -> Option<real>): (r: Result<real, LoadError>)
    ensures Text.IsBlank(value) ==> r == Ok(0.0)
    ensures !Text.IsBlank(value) ==>
      (r.Ok? <==> parseFloat(value).Some?) && (r.Ok? ==> r.value == parseFloat(value).value)
  {
    Text.StripEmptyIffBlank(value);
    if Text.Strip(value) == "" then Ok(0.0)
    else match parseFloat(value)
      case None => Err(InvalidNumber(value))
      case Some(x) => Ok(x)
  }

  /** `_to_int`: a blank cell reads as 0; anything else is parsed as a float
      and truncated toward zero. */
  function ToInt(value: string, parseFloat: string -> Option<real>): (r: Result<int, LoadError>)
    ensures Text.IsBlank(value) ==> r == Ok(0)
    ensures !Text.IsBlank(value) ==> (r.Ok? <==> parseFloat(value).Some?)
    ensures !Text.IsBlank(value) && r.Ok? ==>
      var x := parseFloat(value).value;
      Abs(r.value as real) <= Abs(x) < Abs(r.value as real) + 1.0 && (r.value < 0 ==> x < 0.0)
    ensures !Text.IsBlank(value) && r.Ok? ==> r.value == TruncateTowardZero(parseFloat(value).value)
  {
    var x :- ToFloat(value, parseFloat);
    Ok(TruncateTowardZero(x))
  }

  function Field(row: map<string, string>, column: string): (r: Result<string, LoadError>)
    ensures r.Ok? <==> column in row
    ensures r.Ok? ==> r.value == row[column]
  {
    if column in row then Ok(row[column]) else Err(MissingField(column))
  }

  /** A text cell: `row[column].strip()`. */
  function TextColumn(row: map<string, string>, column: string): (r: Result<string, LoadError>)
    ensures r.Ok? <==> column in row
    ensures r.Ok? ==> r.value == Text.Strip(row[column])
    ensures r.Err? ==> r.error == MissingField(column)
  {
    var v :- Field(row, column);
    Ok(Text.Strip(v))
  }

  /** An integer cell: `_to_int(row[column])`. */
  function IntColumn(row: map<string, string>, column: string, parseFloat: string -> Option<real>): (r: Result<int, LoadError>)
    ensures column !in row ==> r == Err(MissingField(column))
    ensures r.Ok? ==> column in row && ToInt(row[column], parseFloat) == Ok(r.value)
    ensures column in row && ToInt(row[column], parseFloat).Err? ==> r.Err?
    ensures column in row ==> r == ToInt(row[column], parseFloat)
  {
    var v :- Field(row, column);
    ToInt(v, parseFloat)
  }

  /** A decimal cell: `_to_float(row[column])`. */
  function FloatColumn(row: map<string, string>, column: string, parseFloat: string -> Option<real>): (r: Result<real, LoadError>)
    ensures column !in row ==> r == Err(MissingField(column))
    ensures r.Ok? ==> column in row && ToFloat(row[column], parseFloat) == Ok(r.value)
    ensures column in row && ToFloat(row[column], parseFloat).Err? ==> r.Err?
    ensures column in row ==> r == ToFloat(row[column], parseFloat)
  {
    var v :- Field(row, column);
    ToFloat(v, parseFloat)
  }

  /** The identity and batting cells as read from `row`: the two identities
      stripped, the counts through `_to_int`, the rates through `_to_float`. */
  predicate BattingCells(row: map<string, string>, parseFloat: string -> Option<real>,
                         b: (string, string, int, int, int, real, real)) {
    && "player_id" in row && b.0 == Text.Strip(row["player_id"])
    && "player_name" in row && b.1 == Text.Strip(row["player_name"])
    && "season" in row && ToInt(row["season"], parseFloat) == Ok(b.2)
    && "matches" in row && ToInt(row["matches"], parseFloat) == Ok(b.3)
    && "runs" in row && ToInt(row["runs"], parseFloat) == Ok(b.4)
    && "batting_average" in row && ToFloat(row["batting_average"], parseFloat) == Ok(b.5)
    && "strike_rate" in row && ToFloat(row["strike_rate"], parseFloat) == Ok(b.6)
  }

  /** The bowling and fielding cells as read from `row`. */
  predicate BowlingCells(row: map<string, string>, parseFloat: string -> Option<real>,
                         w: (int, real, real, int)) {
    && "wickets" in row && ToInt(row["wickets"], parseFloat) == Ok(w.0)
    && "bowling_average" in row && ToFloat(row["bowling_average"], parseFloat) == Ok(w.1)
    && "economy" in row && ToFloat(row["economy"], parseFloat) == Ok(w.2)
    && "catches" in row && ToInt(row["catches"], parseFloat) == Ok(w.3)
  }

  /** Every identity and batting column is present and every numeric one
      among them reads as a number. */
  predicate BattingReadable(row: map<string, string>, parseFloat: string -> Option<real>) {
    && "player_id" in row && "player_name" in row
    && "season" in row && ToInt(row["season"], parseFloat).Ok?
    && "matches" in row && ToInt(row["matches"], parseFloat).Ok?
    && "runs" in row && ToInt(row["runs"], parseFloat).Ok?
    && "batting_average" in row && ToFloat(row["batting_average"], parseFloat).Ok?
    && "strike_rate" in row && ToFloat(row["strike_rate"], parseFloat).Ok?
  }

  /** Every bowling and fielding column is present and reads as a number. */
  predicate BowlingReadable(row: map<string, string>, parseFloat: string -> Option<real>) {
    && "wickets" in row && ToInt(row["wickets"], parseFloat).Ok?
    && "bowling_average" in row && ToFloat(row["bowling_average"], parseFloat).Ok?
    && "economy" in row && ToFloat(row["economy"], parseFloat).Ok?
    && "catches" in row && ToInt(row["catches"], parseFloat).Ok?
  }

  /** A row the loader accepts: all eleven columns present, every numeric
      cell blank or a number. */
  predicate RowReadable(row: map<string, string>, parseFloat: string -> Option<real>) {
    BattingReadable(row, parseFloat) && BowlingReadable(row, parseFloat)
  }

  /** The identity and batting cells, in field order. */
  function ParseBatting(row: map<string, string>, parseFloat: string -> Option<real>)
    : (r: Result<(string, string, int, int, int, real, real), LoadError>)
    ensures "player_id" !in row ==> r == Err(MissingField("player_id"))
    ensures r.Ok? ==> BattingCells(row, parseFloat, r.value)
    ensures r.Ok? <==> BattingReadable(row, parseFloat)
  {
    var playerId :- TextColumn(row, "player_id");
    var playerName :- TextColumn(row, "player_name");
    var season :- IntColumn(row, "season", parseFloat);
    var matches :- IntColumn(row, "matches", parseFloat);
    var runs :- IntColumn(row, "runs", parseFloat);
    var battingAverage :- FloatColumn(row, "batting_average", parseFloat);
    var strikeRate :- FloatColumn(row, "strike_rate", parseFloat);
    Ok((playerId, playerName, season, matches, runs, battingAverage, strikeRate))
  }

  /** The bowling and fielding cells, in field order. */
  function ParseBowling(row: map<string, string>, parseFloat: string -> Option<real>)
    : (r: Result<(int, real, real, int), LoadError>)
    ensures r.Ok? ==> BowlingCells(row, parseFloat, r.value)
    ensures r.Ok? <==> BowlingReadable(row, parseFloat)
  {
    var wickets :- IntColumn(row, "wickets", parseFloat);
    var bowlingAverage :- FloatColumn(row, "bowling_average", parseFloat);
    var economy :- FloatColumn(row, "economy", parseFloat);
    var catches :- IntColumn(row, "catches", parseFloat);
    Ok((wickets, bowlingAverage, economy, catches))
  }

  /** One CSV row as a season record, its cells read in the order the fields
      are listed; which cell's error wins is stated by `ParseRecordFirstBadCell`. */
  function ParseRecord(row: map<string, string>, parseFloat: string -> Option<real>): (r: Result<PlayerSeasonStats, LoadError>)
    ensures r.Ok? ==> BattingCells(row, parseFloat, (r.value.playerId, r.value.playerName, r.value.season,
                        r.value.matches, r.value.runs, r.value.battingAverage, r.value.strikeRate))
    ensures r.Ok? ==> BowlingCells(row, parseFloat, (r.value.wickets, r.value.bowlingAverage,
                        r.value.economy, r.value.catches))
    ensures "player_id" !in row ==> r == Err(MissingField("player_id"))
    ensures r.Ok? <==> RowReadable(row, parseFloat)
  {
    var b :- ParseBatting(row, parseFloat);
    var w :- ParseBowling(row, parseFloat);
    Ok(PlayerSeasonStats(b.0, b.1, b.2, b.3, b.4, b.5, b.6, w.0, w.1, w.2, w.3))
  }

  /** The error of the `k`-th cell in field order, read on its own, or `None`
      when it reads: identities need only be present, the four rates go
      through `_to_float` and the other counts through `_to_int`. */
  function CellError(row: map<string, string>, k: int, parseFloat: string -> Option<real>): Option<LoadError> {
    if k == 0 then ErrorOf(TextColumn(row, "player_id"))
    else if k == 1 then ErrorOf(TextColumn(row, "player_name"))
    else if k == 2 then ErrorOf(IntColumn(row, "season", parseFloat))
    else if k == 3 then ErrorOf(IntColumn(row, "matches", parseFloat))
    else if k == 4 then ErrorOf(IntColumn(row, "runs", parseFloat))
    else if k == 5 then ErrorOf(FloatColumn(row, "batting_average", parseFloat))
    else if k == 6 then ErrorOf(FloatColumn(row, "strike_rate", parseFloat))
    else if k == 7 then ErrorOf(IntColumn(row, "wickets", parseFloat))
    else if k == 8 then ErrorOf(FloatColumn(row, "bowling_average", parseFloat))
    else if k == 9 then ErrorOf(FloatColumn(row, "economy", parseFloat))
    else ErrorOf(IntColumn(row, "catches", parseFloat))
  }

  function ErrorOf<T>(r: Result<T, LoadError>): Option<LoadError> {
    if r.Ok? then None else Some(r.error)
  }

  /** Every cell before the `k`-th, in field order, reads. */
  predicate CellsRead(row: map<string, string>, parseFloat: string -> Option<real>, k: int)
    decreases k
  {
    k <= 0 || (CellError(row, k - 1, parseFloat).None? && CellsRead(row, parseFloat, k - 1))
  }

  /** `e` is the error of the first of the eleven cells, in field order, that
      cannot be read. */
  ghost predicate FirstBadCell(row: map<string, string>, parseFloat: string -> Option<real>, e: LoadError) {
    exists k :: 0 <= k < 11 && CellsRead(row, parseFloat, k) && CellError(row, k, parseFloat) == Some(e)
  }

  /** A row that does not parse fails with the error of its first unreadable
      cell in field order: earlier cells win over later ones. */
  lemma ParseRecordFirstBadCell(row: map<string, string>, parseFloat: string -> Option<real>)
    ensures ParseRecord(row, parseFloat).Err? ==> FirstBadCell(row, parseFloat, ParseRecord(row, parseFloat).error)
  {
    if ParseRecord(row, parseFloat).Err? {
      if ParseBatting(row, parseFloat).Err? {
        BattingFirstBadCell(row, parseFloat);
      } else {
        BowlingFirstBadCell(row, parseFloat);
      }
    }
  }

  /** `ParseBatting`'s error is that of the first unreadable of its seven cells. */
  lemma BattingFirstBadCell(row: map<string, string>, parseFloat: string -> Option<real>)
    requires ParseBatting(row, parseFloat).Err?
    ensures exists k :: 0 <= k < 7 && CellsRead(row, parseFloat, k)
                     && CellError(row, k, parseFloat) == Some(ParseBatting(row, parseFloat).error)
  {
    if TextColumn(row, "player_id").Err? {
      assert CellsRead(row, parseFloat, 0);
    } else if TextColumn(row, "player_name").Err? {
      assert CellsRead(row, parseFloat, 1);
    } else if IntColumn(row, "season", parseFloat).Err? {
      assert CellsRead(row, parseFloat, 2);
    } else if IntColumn(row, "matches", parseFloat).Err? {
      assert CellsRead(row, parseFloat, 3);
    } else if IntColumn(row, "runs", parseFloat).Err? {
      assert CellsRead(row, parseFloat, 4);
    } else if FloatColumn(row, "batting_average", parseFloat).Err? {
      assert CellsRead(row, parseFloat, 5);
    } else {
      assert CellsRead(row, parseFloat, 6);
    }
  }

  /** A row whose batting half parses has its first seven cells read. */
  lemma BattingCellsRead(row: map<string, string>, parseFloat: string -> Option<real>)
    requires ParseBatting(row, parseFloat).Ok?
    ensures CellsRead(row, parseFloat, 7)
  {
    assert BattingReadable(row, parseFloat);
    assert CellsRead(row, parseFloat, 2);
    assert CellsRead(row, parseFloat, 5);
  }

  /** With the first seven cells read, the row's error is that of the first
      unreadable bowling or fielding cell. */
  lemma BowlingFirstBadCell(row: map<string, string>, parseFloat: string -> Option<real>)
    requires ParseBatting(row, parseFloat).Ok? && ParseBowling(row, parseFloat).Err?
    ensures exists k :: 7 <= k < 11 && CellsRead(row, parseFloat, k)
                     && CellError(row, k, parseFloat) == Some(ParseBowling(row, parseFloat).error)
  {
    BattingCellsRead(row, parseFloat);
    if IntColumn(row, "wickets", parseFloat).Err? {
    } else if FloatColumn(row, "bowling_average", parseFloat).Err? {
      assert CellsRead(row, parseFloat, 8);
    } else if FloatColumn(row, "economy", parseFloat).Err? {
      assert CellsRead(row, parseFloat, 9);
    } else {
      assert CellsRead(row, parseFloat, 10);
    }
  }

  /** A parsed row had every required column. */
  lemma ParsedRowHasColumns(row: map<string, string>, parseFloat: string -> Option<real>)
    requires ParseRecord(row, parseFloat).Ok?
    ensures forall c :: c in RequiredColumns ==> c in row
  {
    var rec := ParseRecord(row, parseFloat).value;
    assert BattingCells(row, parseFloat, (rec.playerId, rec.playerName, rec.season,
                        rec.matches, rec.runs, rec.battingAverage, rec.strikeRate));
    assert BowlingCells(row, parseFloat, (rec.wickets, rec.bowlingAverage, rec.economy, rec.catches));
    ColumnsPresent(row);
  }

  lemma ColumnsPresent(row: map<string, string>)
    requires "player_id" in row && "player_name" in row && "season" in row && "matches" in row
    requires "runs" in row && "batting_average" in row && "strike_rate" in row && "wickets" in row
    requires "bowling_average" in row && "economy" in row && "catches" in row
    ensures forall c :: c in RequiredColumns ==> c in row
  {
  }

  /** The rows in file order, each as one record; the first row that does
      not parse stops the load with that row's error. */
  function ParseRows(rows: seq<map<string, string>>, parseRow: map<string, string> -> Result<PlayerSeasonStats, LoadError>)
    : (r: Result<seq<PlayerSeasonStats>, LoadError>)
    ensures r.Ok? <==> forall i :: 0 <= i < |rows| ==> parseRow(rows[i]).Ok?
    ensures r.Ok? ==> |r.value| == |rows| && forall i :: 0 <= i < |rows| ==> parseRow(rows[i]) == Ok(r.value[i])
    ensures r.Err? ==> FirstFailure(rows, parseRow, r.error)
  {
    if |rows| == 0 then Ok([])
    else
      var first :- parseRow(rows[0]);
      var rest := ParseRows(rows[1..], parseRow);
      assert forall i :: 1 <= i < |rows| ==> rows[i] == rows[1..][i - 1];
      match rest
      case Err(e) =>
        FirstFailureShift(rows, parseRow, e);
        Err(e)
      case Ok(vs) => Ok([first] + vs)
  }

  /** `e` is the error of the earliest row that does not parse. */
  ghost predicate FirstFailure(rows: seq<map<string, string>>,
                               parseRow: map<string, string> -> Result<PlayerSeasonStats, LoadError>, e: LoadError) {
    exists i :: 0 <= i < |rows| && parseRow(rows[i]) == Err(e) && forall j :: 0 <= j < i ==> parseRow(rows[j]).Ok?
  }

  /** A first failure after a parsed head row is the first failure of the whole. */
  lemma FirstFailureShift(rows: seq<map<string, string>>,
                          parseRow: map<string, string> -> Result<PlayerSeasonStats, LoadError>, e: LoadError)
    requires |rows| > 0 && parseRow(rows[0]).Ok? && FirstFailure(rows[1..], parseRow, e)
    ensures FirstFailure(rows, parseRow, e)
  {
    var i :| 0 <= i < |rows[1..]| && parseRow(rows[1..][i]) == Err(e) &&
             forall j :: 0 <= j < i ==> parseRow(rows[1..][j]).Ok?;
    assert rows[i + 1] == rows[1..][i];
    forall j | 0 <= j < i + 1
      ensures parseRow(rows[j]).Ok?
    {
      if j > 0 {
        assert rows[j] == rows[1..][j - 1];
      }
    }
  }

  /** `load_player_history` after the file is read: the header is checked
      before any row, then every row becomes one record, in file order. */
  function LoadPlayerHistory(fieldnames: Option<seq<string>>, rows: seq<map<string, string>>,
                             parseFloat: string -> Option<real>): (r: Result<seq<PlayerSeasonStats>, LoadError>)
    ensures CheckHeader(fieldnames).Err? ==> r == Err(CheckHeader(fieldnames).error)
    ensures r.Ok? ==> CheckHeader(fieldnames).Ok? && |r.value| == |rows|
    ensures r.Ok? ==> forall i :: 0 <= i < |rows| ==> ParseRecord(rows[i], parseFloat) == Ok(r.value[i])
    ensures r.Err? && CheckHeader(fieldnames).Ok? ==>
      exists i :: 0 <= i < |rows| && ParseRecord(rows[i], parseFloat) == Err(r.error) &&
                  forall j :: 0 <= j < i ==> ParseRecord(rows[j], parseFloat).Ok?
    ensures r.Ok? <==> CheckHeader(fieldnames).Ok? && forall i :: 0 <= i < |rows| ==> RowReadable(rows[i], parseFloat)
  {
    var _ :- CheckHeader(fieldnames);
    ParseRows(rows, row => ParseRecord(row, parseFloat))
  }

  // ---------------------------------------------------------------------------
  // Grouping by player
  // ---------------------------------------------------------------------------

  /** A player's records in input order, as a dict entry of `group_by_player`. */
  datatype Group = Group(playerId: string, records: seq<PlayerSeasonStats>)

  function GroupId(g: Group): string {
    g.playerId
  }

  /** The records of `id`, in input order. */
  function RecordsOf(records: seq<PlayerSeasonStats>, id: string): (r: seq<PlayerSeasonStats>)
    ensures |r| <= |records|
    ensures forall k :: 0 <= k < |r| ==> r[k].playerId == id && r[k] in records
  {
    if |records| == 0 then []
    else
      var last := records[|records| - 1];
      RecordsOf(records[..|records| - 1], id) + (if last.playerId == id then [last] else [])
  }

  /** `grouped.setdefault(record.player_id, []).append(record)`: the first
      group with the record's id grows by the record, or a new group is opened. */
  function AddRecord(gs: seq<Group>, rec: PlayerSeasonStats): (r: seq<Group>)
    ensures |r| == |gs| || (|r| == |gs| + 1 && r[|gs|] == Group(rec.playerId, [rec]))
    ensures forall i :: 0 <= i < |gs| ==> r[i].playerId == gs[i].playerId
    ensures DistinctKeys(gs, GroupId) ==> forall i :: 0 <= i < |gs| ==>
      r[i].records == gs[i].records + (if gs[i].playerId == rec.playerId then [rec] else [])
    ensures |r| == |gs| <==> exists i :: 0 <= i < |gs| && gs[i].playerId == rec.playerId
  {
    if |gs| == 0 then [Group(rec.playerId, [rec])]
    else if gs[0].playerId == rec.playerId then
      [gs[0].(records := gs[0].records + [rec])] + gs[1..]
    else
      var rest := AddRecord(gs[1..], rec);
      AddBelowHead(gs, rec, rest);
      [gs[0]] + rest
  }

  /** The recursive case of `AddRecord`: the head group keeps its place. */
  lemma AddBelowHead(gs: seq<Group>, rec: PlayerSeasonStats, rest: seq<Group>)
    requires |gs| > 0 && gs[0].playerId != rec.playerId
    requires |rest| == |gs| - 1 || (|rest| == |gs| && rest[|gs| - 1] == Group(rec.playerId, [rec]))
    requires forall i :: 0 <= i < |gs| - 1 ==> rest[i].playerId == gs[1..][i].playerId
    requires DistinctKeys(gs[1..], GroupId) ==> forall i :: 0 <= i < |gs| - 1 ==>
      rest[i].records == gs[1..][i].records + (if gs[1..][i].playerId == rec.playerId then [rec] else [])
    requires |rest| == |gs| - 1 <==> exists i :: 0 <= i < |gs| - 1 && gs[1..][i].playerId == rec.playerId
    ensures var r := [gs[0]] + rest;
      && (|r| == |gs| || (|r| == |gs| + 1 && r[|gs|] == Group(rec.playerId, [rec])))
      && (forall i :: 0 <= i < |gs| ==> r[i].playerId == gs[i].playerId)
      && (DistinctKeys(gs, GroupId) ==> forall i :: 0 <= i < |gs| ==>
            r[i].records == gs[i].records + (if gs[i].playerId == rec.playerId then [rec] else []))
      && (|r| == |gs| <==> exists i :: 0 <= i < |gs| && gs[i].playerId == rec.playerId)
  {
    IdInTail(gs, rec.playerId);
    HeadKeepsIds(gs, rest);
    if DistinctKeys(gs, GroupId) {
      HeadKeepsRecords(gs, rec, rest);
    }
  }

  lemma HeadKeepsIds(gs: seq<Group>, rest: seq<Group>)
    requires |gs| > 0 && |rest| >= |gs| - 1
    requires forall i :: 0 <= i < |gs| - 1 ==> rest[i].playerId == gs[1..][i].playerId
    ensures forall i :: 0 <= i < |gs| ==> ([gs[0]] + rest)[i].playerId == gs[i].playerId
  {
    var r := [gs[0]] + rest;
    forall i | 0 <= i < |gs|
      ensures r[i].playerId == gs[i].playerId
    {
      if i > 0 {
        assert r[i] == rest[i - 1] && gs[i] == gs[1..][i - 1];
      }
    }
  }

  lemma HeadKeepsRecords(gs: seq<Group>, rec: PlayerSeasonStats, rest: seq<Group>)
    requires |gs| > 0 && gs[0].playerId != rec.playerId && |rest| >= |gs| - 1
    requires DistinctKeys(gs, GroupId)
    requires DistinctKeys(gs[1..], GroupId) ==> forall i :: 0 <= i < |gs| - 1 ==>
      rest[i].records == gs[1..][i].records + (if gs[1..][i].playerId == rec.playerId then [rec] else [])
    ensures forall i :: 0 <= i < |gs| ==>
      ([gs[0]] + rest)[i].records == gs[i].records + (if gs[i].playerId == rec.playerId then [rec] else [])
  {
    var r := [gs[0]] + rest;
    assert DistinctKeys(gs[1..], GroupId) by {
      forall i, j | 0 <= i < j < |gs[1..]|
        ensures GroupId(gs[1..][i]) != GroupId(gs[1..][j])
      {
        assert gs[1..][i] == gs[i + 1] && gs[1..][j] == gs[j + 1];
      }
    }
    forall i | 0 <= i < |gs|
      ensures r[i].records == gs[i].records + (if gs[i].playerId == rec.playerId then [rec] else [])
    {
      if i > 0 {
        assert r[i] == rest[i - 1] && gs[i] == gs[1..][i - 1];
      }
    }
  }

  lemma IdInTail(gs: seq<Group>, id: string)
    requires |gs| > 0 && gs[0].playerId != id
    ensures (exists i :: 0 <= i < |gs| && gs[i].playerId == id)
        <==> (exists i :: 0 <= i < |gs| - 1 && gs[1..][i].playerId == id)
  {
    if i :| 0 <= i < |gs| && gs[i].playerId == id {
      assert gs[1..][i - 1] == gs[i];
    }
  }

  /** Adding a record extends the key set by the record's id and keeps keys distinct. */
  lemma AddRecordKeys(gs: seq<Group>, rec: PlayerSeasonStats)
    requires DistinctKeys(gs, GroupId)
    ensures Keys(AddRecord(gs, rec), GroupId) == Keys(gs, GroupId) + {rec.playerId}
    ensures DistinctKeys(AddRecord(gs, rec), GroupId)
  {
    if |AddRecord(gs, rec)| == |gs| {
      KnownIdKeys(gs, rec);
    } else {
      NewIdKeys(gs, rec);
    }
  }

  /** A record of a player already grouped leaves the keys as they were. */
  lemma KnownIdKeys(gs: seq<Group>, rec: PlayerSeasonStats)
    requires DistinctKeys(gs, GroupId) && |AddRecord(gs, rec)| == |gs|
    ensures Keys(AddRecord(gs, rec), GroupId) == Keys(gs, GroupId) + {rec.playerId}
    ensures DistinctKeys(AddRecord(gs, rec), GroupId)
  {
    RenamedNothingKeys(gs, AddRecord(gs, rec), rec.playerId);
  }

  lemma RenamedNothingKeys(gs: seq<Group>, r: seq<Group>, id: string)
    requires DistinctKeys(gs, GroupId) && |r| == |gs|
    requires forall i :: 0 <= i < |gs| ==> r[i].playerId == gs[i].playerId
    requires exists i :: 0 <= i < |gs| && gs[i].playerId == id
    ensures Keys(r, GroupId) == Keys(gs, GroupId) + {id}
    ensures DistinctKeys(r, GroupId)
  {
    var i :| 0 <= i < |gs| && gs[i].playerId == id;
    KeyPresent(gs, GroupId, i);
    KeysPointwise(r, GroupId, gs, GroupId);
  }

  /** A record of a new player opens one group at the end under a fresh key. */
  lemma NewIdKeys(gs: seq<Group>, rec: PlayerSeasonStats)
    requires DistinctKeys(gs, GroupId) && |AddRecord(gs, rec)| != |gs|
    ensures Keys(AddRecord(gs, rec), GroupId) == Keys(gs, GroupId) + {rec.playerId}
    ensures DistinctKeys(AddRecord(gs, rec), GroupId)
  {
    var r := AddRecord(gs, rec);
    var front := r[..|gs|];
    assert r == front + [r[|gs|]];
    KeysPointwise(front, GroupId, gs, GroupId);
    KeysAppend(front, r[|gs|], GroupId);
    assert rec.playerId !in Keys(gs, GroupId);
    DistinctKeysCard(front, GroupId);
    DistinctKeysCard(r, GroupId);
  }

  /** `group_by_player`: one group per distinct player id, keys in order of
      first appearance, each group holding exactly that player's records in
      input order. */
  function GroupByPlayer(records: seq<PlayerSeasonStats>): (r: seq<Group>)
    ensures DistinctKeys(r, GroupId)
    ensures Keys(r, GroupId) == Keys(records, RecordId)
    ensures forall i :: 0 <= i < |r| ==> r[i].records == RecordsOf(records, r[i].playerId)
    ensures forall i :: 0 <= i < |r| ==> |r[i].records| > 0
    ensures forall i, j :: 0 <= i < j < |r| ==> SeenBefore(records, r[i].playerId, r[j].playerId)
  {
    if |records| == 0 then []
    else
      var before := GroupByPlayer(records[..|records| - 1]);
      GroupStep(records, before);
      GroupOrderStep(records, before);
      AddRecord(before, records[|records| - 1])
  }

  /** Id `x` occurs in `records` at a position where `y` has not occurred yet. */
  ghost predicate SeenBefore(records: seq<PlayerSeasonStats>, x: string, y: string) {
    exists a :: 0 <= a < |records| && records[a].playerId == x &&
      forall b :: 0 <= b <= a ==> records[b].playerId != y
  }

  lemma SeenBeforeExtend(records: seq<PlayerSeasonStats>, x: string, y: string)
    requires |records| > 0 && SeenBefore(records[..|records| - 1], x, y)
    ensures SeenBefore(records, x, y)
  {
    var prefix := records[..|records| - 1];
    var a :| 0 <= a < |prefix| && prefix[a].playerId == x && forall b :: 0 <= b <= a ==> prefix[b].playerId != y;
    assert forall b :: 0 <= b <= a ==> records[b] == prefix[b];
  }

  /** An id of the prefix is seen before an id the prefix lacks. */
  lemma SeenBeforeNew(records: seq<PlayerSeasonStats>, x: string)
    requires |records| > 0
    requires x in Keys(records[..|records| - 1], RecordId)
    requires records[|records| - 1].playerId !in Keys(records[..|records| - 1], RecordId)
    ensures SeenBefore(records, x, records[|records| - 1].playerId)
  {
    var prefix := records[..|records| - 1];
    var y := records[|records| - 1].playerId;
    var a :| 0 <= a < |prefix| && RecordId(prefix[a]) == x;
    forall b | 0 <= b <= a
      ensures records[b].playerId != y
    {
      assert records[b] == prefix[b];
      assert RecordId(prefix[b]) in Keys(prefix, RecordId);
    }
    assert records[a] == prefix[a];
  }

  /** One step of the grouping loop keeps every group non-empty and the
      groups in order of first appearance. */
  lemma GroupOrderStep(records: seq<PlayerSeasonStats>, before: seq<Group>)
    requires |records| > 0
    requires DistinctKeys(before, GroupId)
    requires Keys(before, GroupId) == Keys(records[..|records| - 1], RecordId)
    requires forall i :: 0 <= i < |before| ==> |before[i].records| > 0
    requires forall i, j :: 0 <= i < j < |before| ==>
      SeenBefore(records[..|records| - 1], before[i].playerId, before[j].playerId)
    ensures var r := AddRecord(before, records[|records| - 1]);
      && (forall i :: 0 <= i < |r| ==> |r[i].records| > 0)
      && (forall i, j :: 0 <= i < j < |r| ==> SeenBefore(records, r[i].playerId, r[j].playerId))
  {
    var prefix := records[..|records| - 1];
    var last := records[|records| - 1];
    var r := AddRecord(before, last);
    forall i | 0 <= i < |r|
      ensures |r[i].records| > 0
    {
    }
    forall i, j | 0 <= i < j < |r|
      ensures SeenBefore(records, r[i].playerId, r[j].playerId)
    {
      if j < |before| {
        SeenBeforeExtend(records, r[i].playerId, r[j].playerId);
      } else {
        assert r[i].playerId == GroupId(before[i]);
        assert last.playerId !in Keys(before, GroupId);
        SeenBeforeNew(records, r[i].playerId);
      }
    }
  }

  /** One step of the grouping loop keeps the groups equal to the per-player filters. */
  lemma GroupStep(records: seq<PlayerSeasonStats>, before: seq<Group>)
    requires |records| > 0
    requires DistinctKeys(before, GroupId)
    requires Keys(before, GroupId) == Keys(records[..|records| - 1], RecordId)
    requires forall i :: 0 <= i < |before| ==> before[i].records == RecordsOf(records[..|records| - 1], before[i].playerId)
    ensures var r := AddRecord(before, records[|records| - 1]);
      && DistinctKeys(r, GroupId)
      && Keys(r, GroupId) == Keys(records, RecordId)
      && forall i :: 0 <= i < |r| ==> r[i].records == RecordsOf(records, r[i].playerId)
  {
    var prefix := records[..|records| - 1];
    var last := records[|records| - 1];
    var r := AddRecord(before, last);
    assert records == prefix + [last];
    KeysAppend(prefix, last, RecordId);
    AddRecordKeys(before, last);
    forall i | 0 <= i < |r|
      ensures r[i].records == RecordsOf(records, r[i].playerId)
    {
      if i < |before| {
        assert r[i].playerId == before[i].playerId;
      } else {
        NoRecordsOfAbsent(prefix, last.playerId);
      }
    }
  }

  lemma {:induction false} NoRecordsOfAbsent(records: seq<PlayerSeasonStats>, id: string)
    requires id !in Keys(records, RecordId)
    ensures RecordsOf(records, id) == []
  {
    if |records| > 0 {
      var prefix := records[..|records| - 1];
      assert records == prefix + [records[|records| - 1]];
      KeysAppend(prefix, records[|records| - 1], RecordId);
      NoRecordsOfAbsent(prefix, id);
    }
  }

  function TotalSize(gs: seq<Group>): nat {
    if |gs| == 0 then 0 else |gs[0].records| + TotalSize(gs[1..])
  }

  lemma {:induction false} AddRecordSize(gs: seq<Group>, rec: PlayerSeasonStats)
    requires DistinctKeys(gs, GroupId)
    ensures TotalSize(AddRecord(gs, rec)) == TotalSize(gs) + 1
  {
    if |gs| > 0 && gs[0].playerId != rec.playerId {
      AddRecordSize(gs[1..], rec);
      assert AddRecord(gs, rec)[1..] == AddRecord(gs[1..], rec);
    } else if |gs| > 0 {
      assert AddRecord(gs, rec)[1..] == gs[1..];
    }
  }

  /** The groups partition the input: their sizes add up to the record count. */
  lemma {:induction false} GroupSizesSum(records: seq<PlayerSeasonStats>)
    ensures TotalSize(GroupByPlayer(records)) == |records|
  {
    if |records| > 0 {
      var prefix := records[..|records| - 1];
      GroupSizesSum(prefix);
      AddRecordSize(GroupByPlayer(prefix), records[|records| - 1]);
    }
  }

  /** Every record sits in the group keyed by its own player id. */
  lemma EveryRecordGrouped(records: seq<PlayerSeasonStats>, k: nat)
    requires k < |records|
    ensures exists i :: 0 <= i < |GroupByPlayer(records)| &&
                        GroupByPlayer(records)[i].playerId == records[k].playerId &&
                        records[k] in GroupByPlayer(records)[i].records
  {
    var gs := GroupByPlayer(records);
    assert records[k].playerId in Keys(records, RecordId);
    var i :| 0 <= i < |gs| && gs[i].playerId == records[k].playerId;
    RecordsOfContains(records, k);
  }

  lemma {:induction false} RecordsOfContains(records: seq<PlayerSeasonStats>, k: nat)
    requires k < |records|
    ensures records[k] in RecordsOf(records, records[k].playerId)
  {
    var prefix := records[..|records| - 1];
    if k < |records| - 1 {
      assert prefix[k] == records[k];
      RecordsOfContains(prefix, k);
    }
  }
}

=== FILE: models.dfy ===
/** The records the rating side of the tool passes around: one season of a
    player's statistics, and the rated profile computed from a player's seasons. */
module Models {

  /** The three role names the classifier produces: "batter", "bowler", "allrounder". */
  datatype Role = Batter | Bowler | Allrounder

  function RoleName(r: Role): string {
    match r
    case Batter => "batter"
    case Bowler => "bowler"
    case Allrounder => "allrounder"
  }

  lemma RoleNameInjective(a: Role, b: Role)
    ensures RoleName(a) == RoleName(b) <==> a == b
  {
    if a != b {
      assert RoleName(a)[1] != RoleName(b)[1] || |RoleName(a)| != |RoleName(b)|;
    }
  }

  /** One row of the season history: identity, season, and raw statistics. */
  datatype PlayerSeasonStats = PlayerSeasonStats(
    playerId: string,
    playerName: string,
    season: int,
    matches: int,
    runs: int,
    battingAverage: real,
    strikeRate: real,
    wickets: int,
    bowlingAverage: real,
    economy: real,
    catches: int)

  /** A rated player: classified role, overall rating and the three skill scores. */
  datatype PlayerProfile = PlayerProfile(
    playerId: string,
    playerName: string,
    role: Role,
    rating: real,
    battingScore: real,
    bowlingScore: real,
    fieldingScore: real)

  function RecordId(r: PlayerSeasonStats): string {
    r.playerId
  }

  function ProfileId(p: PlayerProfile): string {
    p.playerId
  }
}

=== FILE: rating.dfy ===
/** The rating engine: season blending of skill scores, role classification
    and the role-weighted rating, one profile per player, best first. */
module Rating {
  import opened Common
  import opened Models
  import opened Classifier
  import opened Loader

  /** The weight configuration; names follow the configuration keys. */
  datatype Weights = Weights(
    recentSeasonWeight: real,
    pastSeasonWeight: real,
    battingRoleWeight: real,
    bowlingRoleWeight: real,
    allrounderSplitWeight: real,
    fieldingWeight: real,
    allrounderMargin: real)

  const DefaultWeights: Weights := Weights(0.6, 0.4, 0.70, 0.70, 0.45, 0.10, 8.0)

  function Sum(s: seq<real>): real {
    if |s| == 0 then 0.0 else Sum(s[..|s| - 1]) + s[|s| - 1]
  }

  lemma {:induction false} SumBounds(s: seq<real>, lo: real, hi: real)
    requires forall i :: 0 <= i < |s| ==> lo <= s[i] <= hi
    ensures |s| as real * lo <= Sum(s) <= |s| as real * hi
  {
    if |s| > 0 {
      SumBounds(s[..|s| - 1], lo, hi);
    }
  }

  /** `_blend_scores`: nothing gives 0, one season gives itself, and more
      seasons weigh the latest against the mean of the earlier ones. */
  function BlendScores(series: seq<real>, recent: real, past: real): (r: real)
    ensures |series| == 0 ==> r == 0.0
    ensures |series| == 1 ==> r == series[0]
  {
    if |series| == 0 then 0.0
    else if |series| == 1 then series[0]
    else
      var earlier := series[..|series| - 1];
      series[|series| - 1] * recent + (Sum(earlier) / (|earlier| as real)) * past
  }

  lemma MeanBounds(s: seq<real>, lo: real, hi: real)
    requires |s| > 0
    requires forall i :: 0 <= i < |s| ==> lo <= s[i] <= hi
    ensures lo <= Sum(s) / (|s| as real) <= hi
  {
    SumBounds(s, lo, hi);
    var n := |s| as real;
    var m := Sum(s) / n;
    assert m * n == Sum(s);
    assert (m - lo) * n >= 0.0;
    assert (hi - m) * n >= 0.0;
  }

  lemma MulNonNegative(x: real, y: real)
    requires x >= 0.0 && y >= 0.0
    ensures x * y >= 0.0
  {
  }

  lemma ConvexBounds(a: real, b: real, wa: real, wb: real, lo: real, hi: real)
    requires lo <= a <= hi && lo <= b <= hi
    requires wa >= 0.0 && wb >= 0.0 && wa + wb == 1.0
    ensures lo <= a * wa + b * wb <= hi
  {
    MulNonNegative(a - lo, wa);
    MulNonNegative(b - lo, wb);
    MulNonNegative(hi - a, wa);
    MulNonNegative(hi - b, wb);
  }

  /** With non-negative weights summing to one, the blend stays within the
      range of the seasons' scores. */
  lemma BlendWithinRange(series: seq<real>, recent: real, past: real, lo: real, hi: real)
    requires |series| > 0
    requires forall i :: 0 <= i < |series| ==> lo <= series[i] <= hi
    requires recent >= 0.0 && past >= 0.0 && recent + past == 1.0
    ensures lo <= BlendScores(series, recent, past) <= hi
  {
    if |series| > 1 {
      var earlier := series[..|series| - 1];
      MeanBounds(earlier, lo, hi);
      ConvexBounds(series[|series| - 1], Sum(earlier) / (|earlier| as real), recent, past, lo, hi);
    }
  }

  /** A player whose score never changed keeps that score after blending. */
  lemma BlendConstant(series: seq<real>, recent: real, past: real, c: real)
    requires |series| > 0
    requires forall i :: 0 <= i < |series| ==> series[i] == c
    requires recent >= 0.0 && past >= 0.0 && recent + past == 1.0
    ensures BlendScores(series, recent, past) == c
  {
    BlendWithinRange(series, recent, past, c, c);
  }

  /** Ascending by season, via a descending sort on the negated season. */
  function SeasonRank(s: PlayerSeasonStats): Rank {
    Rank(-(s.season as real), 0.0)
  }

  /** The records of one season. */
  function SeasonIs(y: int): PlayerSeasonStats -> bool {
    (s: PlayerSeasonStats) => s.season == y
  }

  /** Python's stable ascending sort on the season: the records of any one
      season keep their input order. */
  function SortSeasons(seasons: seq<PlayerSeasonStats>): (r: seq<PlayerSeasonStats>)
    ensures multiset(r) == multiset(seasons) && |r| == |seasons|
    ensures forall i, j :: 0 <= i < j < |r| ==> r[i].season <= r[j].season
    ensures forall y :: Filter(r, SeasonIs(y)) == Filter(seasons, SeasonIs(y))
  {
    var r := SortDesc(seasons, SeasonRank);
    assert forall i, j :: 0 <= i < j < |r| ==> RankGe(SeasonRank(r[i]), SeasonRank(r[j]));
    SeasonTies(seasons, r);
    r
  }

  /** Equal ranks are equal seasons, so the sort's tie order is the season's. */
  lemma SeasonTies(seasons: seq<PlayerSeasonStats>, r: seq<PlayerSeasonStats>)
    requires forall k :: Filter(r, KeyIs(SeasonRank, k)) == Filter(seasons, KeyIs(SeasonRank, k))
    ensures forall y :: Filter(r, SeasonIs(y)) == Filter(seasons, SeasonIs(y))
  {
    forall y
      ensures Filter(r, SeasonIs(y)) == Filter(seasons, SeasonIs(y))
    {
      var k := Rank(-(y as real), 0.0);
      forall x: PlayerSeasonStats
        ensures KeyIs(SeasonRank, k)(x) == SeasonIs(y)(x)
      {
        assert SeasonRank(x) == k <==> x.season as real == y as real;
      }
      FilterSameTest(r, KeyIs(SeasonRank, k), SeasonIs(y));
      FilterSameTest(seasons, KeyIs(SeasonRank, k), SeasonIs(y));
    }
  }

  function BattingSeries(ss: seq<PlayerSeasonStats>): (r: seq<real>)
    ensures |r| == |ss| && forall i :: 0 <= i < |ss| ==> r[i] == BattingSkill(ss[i])
  {
    seq(|ss|, i requires 0 <= i < |ss| => BattingSkill(ss[i]))
  }

  function BowlingSeries(ss: seq<PlayerSeasonStats>): (r: seq<real>)
    ensures |r| == |ss| && forall i :: 0 <= i < |ss| ==> r[i] == BowlingSkill(ss[i])
  {
    seq(|ss|, i requires 0 <= i < |ss| => BowlingSkill(ss[i]))
  }

  function FieldingSeries(ss: seq<PlayerSeasonStats>): (r: seq<real>)
    ensures |r| == |ss| && forall i :: 0 <= i < |ss| ==> r[i] == FieldingSkill(ss[i])
  {
    seq(|ss|, i requires 0 <= i < |ss| => FieldingSkill(ss[i]))
  }

  /** The role-dependent rating formula. */
  function RoleRating(role: Role, batting: real, bowling: real, fielding: real, w: Weights): real {
    match role
    case Batter => batting * w.battingRoleWeight + fielding * w.fieldingWeight
    case Bowler => bowling * w.bowlingRoleWeight + fielding * w.fieldingWeight
    case Allrounder =>
      batting * w.allrounderSplitWeight + bowling * w.allrounderSplitWeight + fielding * w.fieldingWeight
  }

  /** Non-negative scores and weights give a non-negative rating, whatever the role. */
  lemma RoleRatingNonNegative(role: Role, batting: real, bowling: real, fielding: real, w: Weights)
    requires batting >= 0.0 && bowling >= 0.0 && fielding >= 0.0
    requires w.battingRoleWeight >= 0.0 && w.bowlingRoleWeight >= 0.0
    requires w.allrounderSplitWeight >= 0.0 && w.fieldingWeight >= 0.0
    ensures RoleRating(role, batting, bowling, fielding, w) >= 0.0
  {
    assert batting * w.battingRoleWeight >= 0.0;
    assert bowling * w.bowlingRoleWeight >= 0.0;
    assert batting * w.allrounderSplitWeight >= 0.0;
    assert bowling * w.allrounderSplitWeight >= 0.0;
    assert fielding * w.fieldingWeight >= 0.0;
  }

  /** The latest season of a player: the last one after sorting by season,
      which is the last record of the latest season in input order. */
  function Latest(seasons: seq<PlayerSeasonStats>): (r: PlayerSeasonStats)
    requires |seasons| > 0
    ensures r in seasons
    ensures forall i :: 0 <= i < |seasons| ==> seasons[i].season <= r.season
    ensures exists j :: 0 <= j < |seasons| && seasons[j] == r &&
                        forall i :: j < i < |seasons| ==> seasons[i].season < r.season
  {
    var sorted := SortSeasons(seasons);
    var r := sorted[|sorted| - 1];
    assert r in multiset(seasons);
    forall i | 0 <= i < |seasons|
      ensures seasons[i].season <= r.season
    {
      assert seasons[i] in multiset(sorted);
    }
    LastOfLatestSeason(seasons, sorted);
    r
  }

  /** The last of the sorted records is the last record of its season in the input. */
  lemma LastOfLatestSeason(seasons: seq<PlayerSeasonStats>, sorted: seq<PlayerSeasonStats>)
    requires |sorted| > 0 && |sorted| == |seasons|
    requires forall i :: 0 <= i < |seasons| ==> seasons[i].season <= sorted[|sorted| - 1].season
    requires forall y :: Filter(sorted, SeasonIs(y)) == Filter(seasons, SeasonIs(y))
    ensures var r := sorted[|sorted| - 1];
      exists j :: 0 <= j < |seasons| && seasons[j] == r &&
                  forall i :: j < i < |seasons| ==> seasons[i].season < r.season
  {
    var r := sorted[|sorted| - 1];
    var f := SeasonIs(r.season);
    assert Filter(sorted, f) == Filter(seasons, f);
    LastMatchOfSame(sorted, seasons, f);
    var j :| 0 <= j < |seasons| && seasons[j] == r && forall i :: j < i < |seasons| ==> !f(seasons[i]);
    forall i | j < i < |seasons|
      ensures seasons[i].season < r.season
    {
      assert !f(seasons[i]);
    }
  }

  // ---------------------------------------------------------------------------
  // The blend over the input order
  // ---------------------------------------------------------------------------

  /** The total of one skill over a player's seasons, in input order. */
  function SkillSum(ss: seq<PlayerSeasonStats>, skill: PlayerSeasonStats -> real): real {
    if |ss| == 0 then 0.0 else SkillSum(ss[..|ss| - 1], skill) + skill(ss[|ss| - 1])
  }

  /** The blend stated without sorting: the latest season's skill at the
      recent weight, plus the mean skill of every other season at the past
      weight. */
  function ReferenceBlend(seasons: seq<PlayerSeasonStats>, skill: PlayerSeasonStats -> real, w: Weights): real
    requires |seasons| >= 2
  {
    var latest := skill(Latest(seasons));
    latest * w.recentSeasonWeight +
      (SkillSum(seasons, skill) - latest) / ((|seasons| - 1) as real) * w.pastSeasonWeight
  }

  /** A series of one skill per season sums to the skill total. */
  lemma {:induction false} SeriesSum(ss: seq<PlayerSeasonStats>, series: seq<real>, skill: PlayerSeasonStats -> real)
    requires |series| == |ss| && forall i :: 0 <= i < |ss| ==> series[i] == skill(ss[i])
    ensures Sum(series) == SkillSum(ss, skill)
  {
    if |ss| > 0 {
      SeriesSum(ss[..|ss| - 1], series[..|series| - 1], skill);
    }
  }

  lemma {:induction false} SkillSumAppend(a: seq<PlayerSeasonStats>, b: seq<PlayerSeasonStats>,
                                          skill: PlayerSeasonStats -> real)
    ensures SkillSum(a + b, skill) == SkillSum(a, skill) + SkillSum(b, skill)
  {
    if |b| == 0 {
      assert a + b == a;
    } else {
      SkillSumAppend(a, b[..|b| - 1], skill);
      assert (a + b)[..|a + b| - 1] == a + b[..|b| - 1];
    }
  }

  /** The skill total does not depend on the order of the seasons. */
  lemma {:induction false} SkillSumPermutation(a: seq<PlayerSeasonStats>, b: seq<PlayerSeasonStats>,
                                               skill: PlayerSeasonStats -> real)
    requires multiset(a) == multiset(b)
    ensures SkillSum(a, skill) == SkillSum(b, skill)
  {
    if |a| == 0 {
      assert |multiset(b)| == 0;
    } else {
      var n := |a|;
      var x := a[n - 1];
      assert a == a[..n - 1] + [x];
      assert x in multiset(b);
      var j :| 0 <= j < |b| && b[j] == x;
      var rest := b[..j] + b[j + 1..];
      assert b == b[..j] + [x] + b[j + 1..];
      assert multiset(b) == multiset(b[..j]) + multiset{x} + multiset(b[j + 1..]);
      assert multiset(a) == multiset(a[..n - 1]) + multiset{x};
      assert multiset(rest) == multiset(b[..j]) + multiset(b[j + 1..]);
      MultisetCancel(multiset(a[..n - 1]), multiset(rest), x);
      SkillSumPermutation(a[..n - 1], rest, skill);
      SkillSumAppend(b[..j] + [x], b[j + 1..], skill);
      SkillSumAppend(b[..j], [x], skill);
      SkillSumAppend(b[..j], b[j + 1..], skill);
      assert [x][..0] == [];
    }
  }

  lemma MultisetCancel<T>(p: multiset<T>, q: multiset<T>, x: T)
    requires p + multiset{x} == q + multiset{x}
    ensures p == q
  {
    forall y
      ensures p[y] == q[y]
    {
      assert (p + multiset{x})[y] == (q + multiset{x})[y];
    }
  }

  /** Blending a series read off the sorted seasons is the reference blend. */
  lemma BlendOfSorted(seasons: seq<PlayerSeasonStats>, series: seq<real>, skill: PlayerSeasonStats -> real,
                      w: Weights)
    requires |seasons| >= 2
    requires var sorted := SortSeasons(seasons);
      |series| == |sorted| && forall i :: 0 <= i < |sorted| ==> series[i] == skill(sorted[i])
    ensures BlendScores(series, w.recentSeasonWeight, w.pastSeasonWeight) == ReferenceBlend(seasons, skill, w)
  {
    var sorted := SortSeasons(seasons);
    var n := |series|;
    SeriesSum(sorted, series, skill);
    SkillSumPermutation(sorted, seasons, skill);
    assert Sum(series) == Sum(series[..n - 1]) + series[n - 1];
    assert series[n - 1] == skill(Latest(seasons));
  }

  /** The three skill blends of the sorted seasons are the reference blends. */
  lemma SortedBlends(seasons: seq<PlayerSeasonStats>, w: Weights)
    ensures |seasons| >= 2 ==>
      var sorted := SortSeasons(seasons);
      && BlendScores(BattingSeries(sorted), w.recentSeasonWeight, w.pastSeasonWeight) ==
           ReferenceBlend(seasons, BattingSkill, w)
      && BlendScores(BowlingSeries(sorted), w.recentSeasonWeight, w.pastSeasonWeight) ==
           ReferenceBlend(seasons, BowlingSkill, w)
      && BlendScores(FieldingSeries(sorted), w.recentSeasonWeight, w.pastSeasonWeight) ==
           ReferenceBlend(seasons, FieldingSkill, w)
  {
    if |seasons| >= 2 {
      var sorted := SortSeasons(seasons);
      BlendOfSorted(seasons, BattingSeries(sorted), BattingSkill, w);
      BlendOfSorted(seasons, BowlingSeries(sorted), BowlingSkill, w);
      BlendOfSorted(seasons, FieldingSeries(sorted), FieldingSkill, w);
    }
  }

  /** The body of the loop in `rate_players` for one player's seasons: blended
      skills, the role they classify to, the role's rating, and the identity
      of the latest season. Rounding to two decimals is not modelled. */
  function RateSeasons(seasons: seq<PlayerSeasonStats>, w: Weights): (r: PlayerProfile)
    requires |seasons| > 0
    ensures r.role == ClassifyRole(r.battingScore, r.bowlingScore, w.allrounderMargin)
    ensures r.rating == RoleRating(r.role, r.battingScore, r.bowlingScore, r.fieldingScore, w)
    ensures r.playerId == Latest(seasons).playerId && r.playerName == Latest(seasons).playerName
    ensures |seasons| == 1 ==>
      r.battingScore == BattingSkill(seasons[0]) && r.bowlingScore == BowlingSkill(seasons[0]) &&
      r.fieldingScore == FieldingSkill(seasons[0])
    ensures |seasons| >= 2 ==>
      r.battingScore == ReferenceBlend(seasons, BattingSkill, w) &&
      r.bowlingScore == ReferenceBlend(seasons, BowlingSkill, w) &&
      r.fieldingScore == ReferenceBlend(seasons, FieldingSkill, w)
  {
    var sorted := SortSeasons(seasons);
    var batting := BlendScores(BattingSeries(sorted), w.recentSeasonWeight, w.pastSeasonWeight);
    var bowling := BlendScores(BowlingSeries(sorted), w.recentSeasonWeight, w.pastSeasonWeight);
    var fielding := BlendScores(FieldingSeries(sorted), w.recentSeasonWeight, w.pastSeasonWeight);
    var role := ClassifyRole(batting, bowling, w.allrounderMargin);
    var latest := sorted[|sorted| - 1];
    SortedBlends(seasons, w);
    assert |seasons| == 1 ==> sorted == seasons by {
      if |seasons| == 1 {
        assert sorted[0] in multiset(seasons);
      }
    }
    PlayerProfile(latest.playerId, latest.playerName, role,
                  RoleRating(role, batting, bowling, fielding, w), batting, bowling, fielding)
  }

  function RatingRank(p: PlayerProfile): Rank {
    Rank(p.rating, 0.0)
  }

  lemma {:induction false} RecordsOfNonEmpty(records: seq<PlayerSeasonStats>, id: string)
    requires id in Keys(records, RecordId)
    ensures |RecordsOf(records, id)| > 0
  {
    var prefix := records[..|records| - 1];
    assert records == prefix + [records[|records| - 1]];
    KeysAppend(prefix, records[|records| - 1], RecordId);
    if records[|records| - 1].playerId != id {
      RecordsOfNonEmpty(prefix, id);
    }
  }

  /** The unsorted profiles, one per group, in order of first appearance. */
  function ProfilesOf(gs: seq<Group>, w: Weights): (r: seq<PlayerProfile>)
    requires forall i :: 0 <= i < |gs| ==> |gs[i].records| > 0
    ensures |r| == |gs| && forall i :: 0 <= i < |gs| ==> r[i] == RateSeasons(gs[i].records, w)
  {
    seq(|gs|, i requires 0 <= i < |gs| => RateSeasons(gs[i].records, w))
  }

  lemma GroupsNonEmpty(records: seq<PlayerSeasonStats>)
    ensures forall i :: 0 <= i < |GroupByPlayer(records)| ==> |GroupByPlayer(records)[i].records| > 0
  {
    var gs := GroupByPlayer(records);
    forall i | 0 <= i < |gs|
      ensures |gs[i].records| > 0
    {
      assert GroupId(gs[i]) in Keys(gs, GroupId);
      RecordsOfNonEmpty(records, gs[i].playerId);
    }
  }

  /** Each group's profile carries the group's player id. */
  lemma ProfileIdsMatchGroups(gs: seq<Group>, w: Weights)
    requires forall i :: 0 <= i < |gs| ==> |gs[i].records| > 0
    requires forall i :: 0 <= i < |gs| ==> forall k :: 0 <= k < |gs[i].records| ==> gs[i].records[k].playerId == gs[i].playerId
    ensures forall i :: 0 <= i < |gs| ==> ProfilesOf(gs, w)[i].playerId == gs[i].playerId
  {
    var profiles := ProfilesOf(gs, w);
    forall i | 0 <= i < |gs|
      ensures profiles[i].playerId == gs[i].playerId
    {
      var latest := Latest(gs[i].records);
      var k :| 0 <= k < |gs[i].records| && gs[i].records[k] == latest;
    }
  }

  /** `rate_players`: exactly one profile per distinct player id, each rating
      that player's own records, sorted by rating with the best first; equally
      rated players keep the order of their groups, that is of the first
      appearance of their ids. */
  function RatePlayers(records: seq<PlayerSeasonStats>, w: Weights): (r: seq<PlayerProfile>)
    ensures SortedDesc(r, RatingRank)
    ensures DistinctKeys(r, ProfileId)
    ensures Keys(r, ProfileId) == Keys(records, RecordId)
    ensures |r| == |Keys(records, RecordId)|
    ensures forall i :: 0 <= i < |r| ==> |RecordsOf(records, r[i].playerId)| > 0
    ensures forall i :: 0 <= i < |r| ==> r[i] == RateSeasons(RecordsOf(records, r[i].playerId), w)
    ensures forall k :: Filter(r, KeyIs(RatingRank, k)) == Filter(ProfilesOf(GroupByPlayer(records), w), KeyIs(RatingRank, k))
  {
    var gs := GroupByPlayer(records);
    GroupsNonEmpty(records);
    var profiles := ProfilesOf(gs, w);
    ProfileIdsMatchGroups(gs, w);
    var r := SortDesc(profiles, RatingRank);
    ProfileKeys(gs, profiles, r);
    SortedProfilesRateOwnRecords(records, gs, profiles, r, w);
    r
  }

  lemma SortedProfilesRateOwnRecords(records: seq<PlayerSeasonStats>, gs: seq<Group>,
                                     profiles: seq<PlayerProfile>, r: seq<PlayerProfile>, w: Weights)
    requires forall i :: 0 <= i < |gs| ==> |gs[i].records| > 0
    requires forall i :: 0 <= i < |gs| ==> gs[i].records == RecordsOf(records, gs[i].playerId)
    requires profiles == ProfilesOf(gs, w)
    requires forall i :: 0 <= i < |gs| ==> profiles[i].playerId == gs[i].playerId
    requires multiset(r) == multiset(profiles)
    ensures forall i :: 0 <= i < |r| ==> |RecordsOf(records, r[i].playerId)| > 0
    ensures forall i :: 0 <= i < |r| ==> r[i] == RateSeasons(RecordsOf(records, r[i].playerId), w)
  {
    forall i | 0 <= i < |r|
      ensures |RecordsOf(records, r[i].playerId)| > 0
      ensures r[i] == RateSeasons(RecordsOf(records, r[i].playerId), w)
    {
      assert r[i] in multiset(profiles);
      var j :| 0 <= j < |profiles| && profiles[j] == r[i];
      assert gs[j].records == RecordsOf(records, gs[j].playerId);
    }
  }

  lemma ProfileKeys(gs: seq<Group>, profiles: seq<PlayerProfile>, r: seq<PlayerProfile>)
    requires DistinctKeys(gs, GroupId)
    requires |profiles| == |gs| && forall i :: 0 <= i < |gs| ==> profiles[i].playerId == gs[i].playerId
    requires multiset(r) == multiset(profiles)
    ensures DistinctKeys(r, ProfileId) && Keys(r, ProfileId) == Keys(gs, GroupId)
    ensures |r| == |Keys(gs, GroupId)|
  {
    KeysPointwise(profiles, ProfileId, gs, GroupId);
    DistinctKeysCard(profiles, ProfileId);
    PermutationKeys(profiles, r, ProfileId);
    DistinctKeysCard(r, ProfileId);
    assert |r| == |multiset(r)| == |profiles|;
  }

  datatype RateError = NoRecords

  /** `rate_player`: an error on no records, otherwise the top-rated profile;
      among equally rated players, the one whose group comes first (the
      group of the id that appears first in the records). */
  function RatePlayer(records: seq<PlayerSeasonStats>, w: Weights): (r: Result<PlayerProfile, RateError>)
    ensures r.Err? <==> |records| == 0
    ensures r.Ok? ==> r.value in RatePlayers(records, w)
    ensures r.Ok? ==> forall p :: p in RatePlayers(records, w) ==> p.rating <= r.value.rating
    ensures r.Ok? ==> EarliestTop(GroupByPlayer(records), w, r.value)
  {
    if |records| == 0 then Err(NoRecords)
    else
      var all := RatePlayers(records, w);
      assert RecordId(records[0]) in Keys(records, RecordId);
      assert |all| > 0;
      TopOfSortedIsMax(all);
      FirstTopGroup(records, w);
      Ok(all[0])
  }

  /** `p` is the profile of some group, and every earlier group rates strictly lower. */
  predicate EarliestTop(gs: seq<Group>, w: Weights, p: PlayerProfile) {
    exists j :: 0 <= j < |gs| && |gs[j].records| > 0 && p == RateSeasons(gs[j].records, w) &&
      forall i :: 0 <= i < j ==> |gs[i].records| > 0 && RateSeasons(gs[i].records, w).rating < p.rating
  }

  /** The stable sort puts first the earliest group among the top rated. */
  lemma FirstTopGroup(records: seq<PlayerSeasonStats>, w: Weights)
    requires |RatePlayers(records, w)| > 0
    ensures EarliestTop(GroupByPlayer(records), w, RatePlayers(records, w)[0])
  {
    var gs := GroupByPlayer(records);
    GroupsNonEmpty(records);
    var profiles := ProfilesOf(gs, w);
    assert RatePlayers(records, w) == SortDesc(profiles, RatingRank);
    SortDescHead(profiles, RatingRank);
    var j :| 0 <= j < |profiles| && SortDesc(profiles, RatingRank)[0] == profiles[j] &&
             forall i :: 0 <= i < j ==> !RankGe(RatingRank(profiles[i]), RatingRank(profiles[j]));
    EarliestTopOfProfiles(gs, w, profiles, j);
  }

  lemma EarliestTopOfProfiles(gs: seq<Group>, w: Weights, profiles: seq<PlayerProfile>, j: int)
    requires forall i :: 0 <= i < |gs| ==> |gs[i].records| > 0
    requires profiles == ProfilesOf(gs, w) && 0 <= j < |profiles|
    requires forall i :: 0 <= i < j ==> !RankGe(RatingRank(profiles[i]), RatingRank(profiles[j]))
    ensures EarliestTop(gs, w, profiles[j])
  {
    forall i | 0 <= i < j
      ensures RateSeasons(gs[i].records, w).rating < profiles[j].rating
    {
      assert !RankGe(RatingRank(profiles[i]), RatingRank(profiles[j]));
    }
  }

  lemma TopOfSortedIsMax(s: seq<PlayerProfile>)
    requires |s| > 0 && SortedDesc(s, RatingRank)
    ensures forall p :: p in s ==> p.rating <= s[0].rating
  {
    forall p | p in s
      ensures p.rating <= s[0].rating
    {
      var k :| 0 <= k < |s| && s[k] == p;
      if k > 0 {
        assert RankGe(RatingRank(s[0]), RatingRank(s[k]));
      }
    }
  }
}

=== FILE: recompute.dfy ===
/** Derived state of a match, rebuilt from its delivery logs alone: innings
    totals and status, match status, and per-player batting and bowling rows
    from one left-to-right pass over every delivery of the match. */
module Recompute {
  import opened Common
  import opened Events

  // ---------------------------------------------------------------------------
  // Innings totals and status
  // ---------------------------------------------------------------------------

  /** `SUM(runs_off_bat + extras)` over a log. */
  function RunsTotal(events: seq<BallEvent>): int {
    if |events| == 0 then 0
    else RunsTotal(events[..|events| - 1]) + events[|events| - 1].runsOffBat + events[|events| - 1].extras
  }

  /** The number of legal deliveries in a log. */
  function LegalCount(events: seq<BallEvent>): (r: nat)
    ensures r <= |events|
  {
    if |events| == 0 then 0
    else LegalCount(events[..|events| - 1]) + (if events[|events| - 1].legal then 1 else 0)
  }

  /** The number of wicket deliveries in a log. */
  function WicketCount(events: seq<BallEvent>): (r: nat)
    ensures r <= |events|
  {
    if |events| == 0 then 0
    else WicketCount(events[..|events| - 1]) + (if events[|events| - 1].isWicket then 1 else 0)
  }

  /** An innings is over once ten wickets have fallen or the overs are used up. */
  function InningsStatusOf(wickets: int, legalBalls: int, totalOvers: int): (r: InningsStatus)
    ensures r == InningsStatus.Completed <==> wickets >= 10 || legalBalls >= totalOvers * 6
  {
    if wickets >= 10 || legalBalls >= totalOvers * 6 then InningsStatus.Completed else InProgress
  }

  /** The innings with its totals and status recomputed from its log. */
  function Refresh(inn: Innings, totalOvers: int): (r: Innings)
    ensures r.id == inn.id && r.inningsNo == inn.inningsNo && r.events == inn.events
    ensures r.battingTeam == inn.battingTeam && r.bowlingTeam == inn.bowlingTeam
    ensures r.status == InningsStatus.Completed <==> r.wickets >= 10 || r.legalBalls >= totalOvers * 6
  {
    var w := WicketCount(inn.events);
    var lb := LegalCount(inn.events);
    inn.(totalRuns := RunsTotal(inn.events), wickets := w, legalBalls := lb,
         status := InningsStatusOf(w, lb, totalOvers))
  }

  /** Stored totals agree with the log. */
  predicate Settled(inn: Innings, totalOvers: int) {
    inn == Refresh(inn, totalOvers)
  }

  lemma RefreshSettles(inn: Innings, totalOvers: int)
    ensures Settled(Refresh(inn, totalOvers), totalOvers)
  {
  }

  /** Appending one delivery moves each total by that delivery's own share. */
  lemma TotalsAppend(events: seq<BallEvent>, e: BallEvent)
    ensures RunsTotal(events + [e]) == RunsTotal(events) + e.runsOffBat + e.extras
    ensures LegalCount(events + [e]) == LegalCount(events) + (if e.legal then 1 else 0)
    ensures WicketCount(events + [e]) == WicketCount(events) + (if e.isWicket then 1 else 0)
  {
    assert (events + [e])[..|events|] == events;
  }

  // ---------------------------------------------------------------------------
  // Match status
  // ---------------------------------------------------------------------------

  function CompletedCount(inns: seq<Innings>): (r: nat)
    ensures r <= |inns|
  {
    if |inns| == 0 then 0
    else CompletedCount(inns[..|inns| - 1]) + (if inns[|inns| - 1].status == InningsStatus.Completed then 1 else 0)
  }

  function EventCount(inns: seq<Innings>): (r: nat)
    ensures r == 0 <==> forall i :: 0 <= i < |inns| ==> |inns[i].events| == 0
  {
    if |inns| == 0 then 0
    else
      var p := inns[..|inns| - 1];
      assert forall i :: 0 <= i < |p| ==> p[i] == inns[i];
      EventCount(p) + |inns[|inns| - 1].events|
  }

  /** Completed once two or more innings exist and two or more are complete;
      otherwise live when any delivery exists; otherwise scheduled. */
  function MatchStatusOf(inns: seq<Innings>): (r: MatchStatus)
    ensures r == MatchStatus.Completed <==> |inns| >= 2 && CompletedCount(inns) >= 2
    ensures r == Live <==>
      (!(|inns| >= 2 && CompletedCount(inns) >= 2) && exists i :: 0 <= i < |inns| && |inns[i].events| > 0)
    ensures r == Scheduled <==>
      (CompletedCount(inns) < 2 && forall i :: 0 <= i < |inns| ==> |inns[i].events| == 0)
  {
    if |inns| >= 2 && CompletedCount(inns) >= 2 then MatchStatus.Completed
    else if EventCount(inns) > 0 then Live
    else Scheduled
  }

  // ---------------------------------------------------------------------------
  // The delivery stream of a match
  // ---------------------------------------------------------------------------

  /** One delivery together with the innings it belongs to and that innings' teams. */
  datatype Entry = Entry(inningsId: int, battingTeam: int, bowlingTeam: int, event: BallEvent)

  function Entries(inn: Innings): (r: seq<Entry>)
    ensures |r| == |inn.events|
    ensures forall i :: 0 <= i < |r| ==>
      r[i] == Entry(inn.id, inn.battingTeam, inn.bowlingTeam, inn.events[i])
  {
    seq(|inn.events|, i requires 0 <= i < |inn.events| =>
      Entry(inn.id, inn.battingTeam, inn.bowlingTeam, inn.events[i]))
  }

  /** Every delivery of the match, innings by innings, each log in order. */
  function Stream(inns: seq<Innings>): seq<Entry> {
    if |inns| == 0 then [] else Stream(inns[..|inns| - 1]) + Entries(inns[|inns| - 1])
  }

  /** The stream depends only on ids, teams and logs. */
  predicate SameLogs(a: seq<Innings>, b: seq<Innings>) {
    |a| == |b| &&
    forall i :: 0 <= i < |a| ==>
      a[i].id == b[i].id && a[i].battingTeam == b[i].battingTeam &&
      a[i].bowlingTeam == b[i].bowlingTeam && a[i].events == b[i].events
  }

  lemma {:induction false} StreamSameLogs(a: seq<Innings>, b: seq<Innings>)
    requires SameLogs(a, b)
    ensures Stream(a) == Stream(b)
    decreases |a|
  {
    if |a| > 0 {
      var n := |a| - 1;
      assert SameLogs(a[..n], b[..n]);
      StreamSameLogs(a[..n], b[..n]);
      assert Entries(a[n]) == Entries(b[n]);
    }
  }

  // ---------------------------------------------------------------------------
  // The per-player pass
  // ---------------------------------------------------------------------------

  /** A batter's running figures; `innings` lists each innings id once, in
      order of first appearance. */
  datatype BatAcc = BatAcc(team: int, innings: seq<int>, runs: int, ballsFaced: int,
                           fours: int, sixes: int, dismissals: int)

  datatype BowlAcc = BowlAcc(team: int, innings: seq<int>, ballsBowled: int, runsConceded: int,
                             wickets: int, wides: int, noBalls: int)

  /** The pass's state: figures per player id and bat runs per (player, innings). */
  datatype Tally = Tally(bat: map<int, BatAcc>, bowl: map<int, BowlAcc>, runsByInnings: map<(int, int), int>)

  function AddOnce(s: seq<int>, x: int): (r: seq<int>)
    ensures x in r && forall y :: y in s ==> y in r
    ensures forall y :: y in r ==> y == x || y in s
  {
    if x in s then s else s + [x]
  }

  /** The batter's figures, created with the given team on first sight. */
  function EnsureBatter(bat: map<int, BatAcc>, p: int, team: int): (r: map<int, BatAcc>)
    ensures p in r && forall q :: q in bat ==> q in r && r[q] == bat[q]
    ensures forall q :: q in r ==> q == p || q in bat
  {
    if p in bat then bat else bat[p := BatAcc(team, [], 0, 0, 0, 0, 0)]
  }

  function EnsureBowler(bowl: map<int, BowlAcc>, p: int, team: int): (r: map<int, BowlAcc>)
    ensures p in r && forall q :: q in bowl ==> q in r && r[q] == bowl[q]
    ensures forall q :: q in r ==> q == p || q in bowl
  {
    if p in bowl then bowl else bowl[p := BowlAcc(team, [], 0, 0, 0, 0, 0)]
  }

  function Get(m: map<(int, int), int>, k: (int, int)): int {
    if k in m then m[k] else 0
  }

  function Ones(b: bool): int {
    if b then 1 else 0
  }

  /** Runs charged to the bowler: bat runs plus extras, except byes and leg byes. */
  function Conceded(e: BallEvent): int {
    e.runsOffBat + (if e.extraType == Bye || e.extraType == LegBye then 0 else e.extras)
  }

  /** A wicket goes to the bowler unless the dismissal was a run out. */
  predicate Credited(e: BallEvent) {
    e.isWicket && NormalizeDismissalType(e.dismissalType) != Some("run_out")
  }

  /** The striker's figures: the innings joined, the bat runs, the legal
      ball and any boundary added. */
  function StrikerStep(bat: map<int, BatAcc>, x: Entry): (r: map<int, BatAcc>)
    ensures forall q :: q in r <==> q in bat || q == x.event.striker
    ensures forall q :: q in bat && q != x.event.striker ==> r[q] == bat[q]
  {
    var e := x.event;
    var b := EnsureBatter(bat, e.striker, x.battingTeam);
    var s := b[e.striker];
    b[e.striker := s.(innings := AddOnce(s.innings, x.inningsId),
                      runs := s.runs + e.runsOffBat,
                      ballsFaced := s.ballsFaced + Ones(e.legal),
                      fours := s.fours + Ones(e.runsOffBat == 4),
                      sixes := s.sixes + Ones(e.runsOffBat == 6))]
  }

  /** Player `p` takes part in the innings: the innings joined and, when
      `out` is set, one dismissal added. */
  function JoinStep(bat: map<int, BatAcc>, p: int, x: Entry, out: bool): (r: map<int, BatAcc>)
    ensures forall q :: q in r <==> q in bat || q == p
    ensures forall q :: q in bat && q != p ==> r[q] == bat[q]
  {
    var b := EnsureBatter(bat, p, x.battingTeam);
    var a := b[p];
    b[p := a.(innings := AddOnce(a.innings, x.inningsId), dismissals := a.dismissals + Ones(out))]
  }

  /** The batting side of one delivery: striker, then non-striker, then the
      dismissed player if any. */
  function BatStep(bat: map<int, BatAcc>, x: Entry): (r: map<int, BatAcc>)
    ensures x.event.striker in r && x.event.nonStriker in r
    ensures forall q :: q in bat ==> q in r
    ensures forall q :: q in r ==> q in bat || q == x.event.striker || q == x.event.nonStriker ||
                                   Some(q) == x.event.dismissedPlayer
    ensures forall q :: q in bat && q != x.event.striker && q != x.event.nonStriker &&
                          Some(q) != x.event.dismissedPlayer ==>
                          r[q] == bat[q]
  {
    var b := JoinStep(StrikerStep(bat, x), x.event.nonStriker, x, false);
    match x.event.dismissedPlayer
    case None => b
    case Some(out) => JoinStep(b, out, x, true)
  }

  /** The bowling side of one delivery: the legal ball, the charged runs,
      the credited wicket and the wide or no-ball extras go to the bowler. */
  function BowlStep(bowl: map<int, BowlAcc>, x: Entry): (r: map<int, BowlAcc>)
    ensures x.event.bowler in r
    ensures forall q :: q in r <==> q in bowl || q == x.event.bowler
    ensures forall q :: q in bowl && q != x.event.bowler ==> r[q] == bowl[q]
  {
    var e := x.event;
    var b := EnsureBowler(bowl, e.bowler, x.bowlingTeam);
    b[e.bowler := Bowl(b[e.bowler], x)]
  }

  /** One delivery added to a bowler's figures. */
  function Bowl(w: BowlAcc, x: Entry): BowlAcc {
    var e := x.event;
    w.(innings := AddOnce(w.innings, x.inningsId),
       ballsBowled := w.ballsBowled + Ones(e.legal),
       runsConceded := w.runsConceded + Conceded(e),
       wickets := w.wickets + Ones(Credited(e)),
       wides := w.wides + (if e.extraType == Wide then e.extras else 0),
       noBalls := w.noBalls + (if e.extraType == NoBall then e.extras else 0))
  }

  function Step(t: Tally, x: Entry): Tally {
    var k := (x.event.striker, x.inningsId);
    Tally(BatStep(t.bat, x), BowlStep(t.bowl, x),
          t.runsByInnings[k := Get(t.runsByInnings, k) + x.event.runsOffBat])
  }

  /** The pass over a stream, one entry at a time from the front. */
  function Pass(s: seq<Entry>): Tally {
    if |s| == 0 then Tally(map[], map[], map[])
    else Step(Pass(s[..|s| - 1]), s[|s| - 1])
  }

  // ---------------------------------------------------------------------------
  // Rows
  // ---------------------------------------------------------------------------

  /** The best single-innings bat total of player `p` over the listed innings, at least 0. */
  function Highest(p: int, ids: seq<int>, rbi: map<(int, int), int>): (r: int)
    ensures r >= 0
    ensures forall i :: 0 <= i < |ids| ==> Get(rbi, (p, ids[i])) <= r
    ensures r == 0 || exists i :: 0 <= i < |ids| && r == Get(rbi, (p, ids[i]))
  {
    if |ids| == 0 then 0
    else
      var prev := Highest(p, ids[..|ids| - 1], rbi);
      Max(prev, Get(rbi, (p, ids[|ids| - 1])))
  }

  function BattingRowOf(p: int, a: BatAcc, rbi: map<(int, int), int>): BattingRow {
    var inningsCount := |a.innings|;
    BattingRow(
      a.team, inningsCount, a.runs, a.ballsFaced, a.fours, a.sixes, a.dismissals,
      Max(inningsCount - a.dismissals, 0),
      Highest(p, a.innings, rbi),
      if a.ballsFaced > 0 then a.runs as real * 100.0 / a.ballsFaced as real else 0.0,
      if a.dismissals > 0 then a.runs as real / a.dismissals as real else a.runs as real)
  }

  function BowlingRowOf(a: BowlAcc): BowlingRow {
    var balls := a.ballsBowled as real;
    BowlingRow(
      a.team, |a.innings|, a.ballsBowled, a.runsConceded, a.wickets, a.wides, a.noBalls,
      balls / 6.0,
      if a.ballsBowled > 0 then a.runsConceded as real / (balls / 6.0) else 0.0,
      if a.wickets > 0 then balls / a.wickets as real else 0.0,
      if a.wickets > 0 then a.runsConceded as real / a.wickets as real else 0.0)
  }

  function BattingRows(t: Tally): map<int, BattingRow> {
    map p | p in t.bat :: BattingRowOf(p, t.bat[p], t.runsByInnings)
  }

  function BowlingRows(t: Tally): map<int, BowlingRow> {
    map p | p in t.bowl :: BowlingRowOf(t.bowl[p])
  }

  // ---------------------------------------------------------------------------
  // The whole recomputation
  // ---------------------------------------------------------------------------

  function RefreshAll(inns: seq<Innings>, totalOvers: int): (r: seq<Innings>)
    ensures |r| == |inns| && forall i :: 0 <= i < |inns| ==> r[i] == Refresh(inns[i], totalOvers)
  {
    seq(|inns|, i requires 0 <= i < |inns| => Refresh(inns[i], totalOvers))
  }

  /** `_recompute_match_state` followed by `_recompute_match_player_stats`. */
  function RecomputeMatch(m: Match): (r: Match)
    ensures r.id == m.id && r.totalOvers == m.totalOvers && r.squads == m.squads
    ensures SameLogs(r.innings, m.innings)
    ensures forall i :: 0 <= i < |r.innings| ==>
      r.innings[i].inningsNo == m.innings[i].inningsNo && Settled(r.innings[i], m.totalOvers)
    ensures r.status == MatchStatusOf(r.innings)
    ensures r.batting == BattingRows(Pass(Stream(m.innings)))
    ensures r.bowling == BowlingRows(Pass(Stream(m.innings)))
  {
    var inns := RefreshAll(m.innings, m.totalOvers);
    StreamSameLogs(inns, m.innings);
    var t := Pass(Stream(inns));
    m.(innings := inns, status := MatchStatusOf(inns), batting := BattingRows(t), bowling := BowlingRows(t))
  }

  /** Two matches that agree on everything but derived state recompute alike. */
  lemma RecomputeSameLogs(a: Match, b: Match)
    requires a.id == b.id && a.totalOvers == b.totalOvers && a.squads == b.squads
    requires SameLogs(a.innings, b.innings)
    requires forall i :: 0 <= i < |a.innings| ==> a.innings[i].inningsNo == b.innings[i].inningsNo
    ensures RecomputeMatch(a) == RecomputeMatch(b)
  {
    var ra := RefreshAll(a.innings, a.totalOvers);
    var rb := RefreshAll(b.innings, b.totalOvers);
    forall i | 0 <= i < |ra|
      ensures ra[i] == rb[i]
    {
      assert a.innings[i].events == b.innings[i].events;
      assert a.innings[i] == b.innings[i].(totalRuns := a.innings[i].totalRuns, wickets := a.innings[i].wickets,
        legalBalls := a.innings[i].legalBalls, status := a.innings[i].status);
    }
    assert ra == rb;
  }

  /** Recomputing is idempotent: its result is already settled. */
  lemma RecomputeIdempotent(m: Match)
    ensures RecomputeMatch(RecomputeMatch(m)) == RecomputeMatch(m)
  {
    var r := RecomputeMatch(m);
    RecomputeSameLogs(r, m);
    var rr := RecomputeMatch(r);
    assert rr.innings == r.innings by {
      forall i | 0 <= i < |r.innings|
        ensures rr.innings[i] == r.innings[i]
      {
      }
    }
  }
}

=== FILE: selector.dfy ===
/** Team selection: fill each role's quota from the players of that role in
    the order given, record shortages, back-fill up to the team size with
    players not yet chosen, and rank the team by rating. */
module Selector {
  import opened Common
  import opened Models
  import opened Rating

  /** The team structure, a role name to head-count dictionary, as its
      (key, count) pairs; a dictionary never repeats a key. */
  type Structure = seq<(string, int)>

  function StructureKey(e: (string, int)): string {
    e.0
  }

  /** `needed.get(key, 0)`. */
  function Lookup(st: Structure, key: string): (r: int)
    ensures key !in Keys(st, StructureKey) ==> r == 0
    ensures key in Keys(st, StructureKey) ==> (key, r) in st
  {
    if |st| == 0 then 0
    else if st[0].0 == key then st[0].1
    else
      KeysCons(st[0], st[1..], StructureKey);
      assert st == [st[0]] + st[1..];
      Lookup(st[1..], key)
  }

  /** `sum(team_structure.values())`. */
  function Total(st: Structure): int {
    if |st| == 0 then 0 else st[0].1 + Total(st[1..])
  }

  function RoleIs(role: Role): PlayerProfile -> bool {
    (p: PlayerProfile) => p.role == role
  }

  function IdNotIn(ids: set<string>): PlayerProfile -> bool {
    (p: PlayerProfile) => p.playerId !in ids
  }

  /** The players taken for one role: none when the quota is not positive,
      otherwise the first players of that role, up to the quota. */
  function RolePick(players: seq<PlayerProfile>, st: Structure, role: Role): (r: seq<PlayerProfile>)
    ensures |r| == Max(0, Min(Need(st, role), Have(players, role)))
    ensures forall i :: 0 <= i < |r| ==> r[i].role == role
    ensures exists m :: 0 <= m <= |players| && r == Filter(players[..m], RoleIs(role))
  {
    TakeFilterIsPrefixFilter(players, RoleIs(role), Need(st, role));
    if Need(st, role) <= 0 then
      assert Filter(players[..0], RoleIs(role)) == [];
      []
    else Take(Filter(players, RoleIs(role)), Need(st, role))
  }

  /** The role quotas filled in the fixed order batter, bowler, allrounder. */
  function ByRole(players: seq<PlayerProfile>, st: Structure): (r: seq<PlayerProfile>)
    ensures forall i :: 0 <= i < |r| ==> r[i] in players
    ensures |r| == Max(0, Min(Need(st, Batter), Have(players, Batter)))
                 + Max(0, Min(Need(st, Bowler), Have(players, Bowler)))
                 + Max(0, Min(Need(st, Allrounder), Have(players, Allrounder)))
  {
    FilterMembers(players, RoleIs(Batter));
    FilterMembers(players, RoleIs(Bowler));
    FilterMembers(players, RoleIs(Allrounder));
    RolePick(players, st, Batter) + RolePick(players, st, Bowler) + RolePick(players, st, Allrounder)
  }

  /** The players added after the role quotas: those whose id was not picked,
      in input order, up to the team size. */
  function Backfill(players: seq<PlayerProfile>, picked: seq<PlayerProfile>, target: int): (r: seq<PlayerProfile>)
    ensures forall i :: 0 <= i < |r| ==> r[i] in players && r[i].playerId !in Keys(picked, ProfileId)
    ensures |picked| >= target ==> r == []
    ensures |r| == Max(0, Min(target - |picked|, |Filter(players, IdNotIn(Keys(picked, ProfileId)))|))
    ensures exists m :: 0 <= m <= |players| && r == Filter(players[..m], IdNotIn(Keys(picked, ProfileId)))
  {
    FilterMembers(players, IdNotIn(Keys(picked, ProfileId)));
    TakeFilterIsPrefixFilter(players, IdNotIn(Keys(picked, ProfileId)), target - |picked|);
    if |picked| < target then Take(Filter(players, IdNotIn(Keys(picked, ProfileId))), target - |picked|)
    else []
  }

  /** The quota a role asks for. */
  function Need(st: Structure, role: Role): int {
    Lookup(st, RoleName(role))
  }

  /** How many players of a role there are to choose from. */
  function Have(players: seq<PlayerProfile>, role: Role): nat {
    |Filter(players, RoleIs(role))|
  }

  function ShortOf(players: seq<PlayerProfile>, st: Structure, role: Role): map<string, int> {
    if Need(st, role) > 0 && Have(players, role) < Need(st, role)
    then map[RoleName(role) := Need(st, role) - Have(players, role)]
    else map[]
  }

  /** A role is short exactly when its quota is positive and exceeds the
      number of players of that role; the shortage is the difference. */
  function Shortages(players: seq<PlayerProfile>, st: Structure): (r: map<string, int>)
    ensures forall role: Role ::
      RoleName(role) in r <==> Need(st, role) > 0 && Have(players, role) < Need(st, role)
    ensures forall role: Role :: RoleName(role) in r ==>
      r[RoleName(role)] == Need(st, role) - Have(players, role) && r[RoleName(role)] > 0
    ensures forall k :: k in r ==> k in {"batter", "bowler", "allrounder"}
  {
    var r := ShortOf(players, st, Batter) + ShortOf(players, st, Bowler) + ShortOf(players, st, Allrounder);
    forall role: Role
      ensures RoleName(role) in r <==> Need(st, role) > 0 && Have(players, role) < Need(st, role)
      ensures RoleName(role) in r ==> r[RoleName(role)] == Need(st, role) - Have(players, role)
    {
      ShortagesAt(players, st, role);
    }
    r
  }

  lemma ShortagesAt(players: seq<PlayerProfile>, st: Structure, role: Role)
    ensures var r := ShortOf(players, st, Batter) + ShortOf(players, st, Bowler) + ShortOf(players, st, Allrounder);
      && (RoleName(role) in r <==> Need(st, role) > 0 && Have(players, role) < Need(st, role))
      && (RoleName(role) in r ==> r[RoleName(role)] == Need(st, role) - Have(players, role))
  {
    RoleNameInjective(role, Batter);
    RoleNameInjective(role, Bowler);
    RoleNameInjective(role, Allrounder);
  }

  datatype Selection = Selection(team: seq<PlayerProfile>, shortages: map<string, int>)

  /** `select_team`: the chosen players ranked by rating, best first, and the
      per-role shortages. */
  function SelectTeam(players: seq<PlayerProfile>, st: Structure): (r: Selection)
    ensures SortedDesc(r.team, RatingRank)
    ensures multiset(r.team) == multiset(ByRole(players, st) + Backfill(players, ByRole(players, st), Total(st)))
    ensures forall i :: 0 <= i < |r.team| ==> r.team[i] in players
    ensures var all := ByRole(players, st) + Backfill(players, ByRole(players, st), Total(st));
      forall k :: Filter(r.team, KeyIs(RatingRank, k)) == Filter(all, KeyIs(RatingRank, k))
    ensures r.shortages == Shortages(players, st)
  {
    var picked := ByRole(players, st);
    var all := picked + Backfill(players, picked, Total(st));
    var team := SortDesc(all, RatingRank);
    forall i | 0 <= i < |team|
      ensures team[i] in players
    {
      assert team[i] in multiset(all);
    }
    Selection(team, Shortages(players, st))
  }

  // ---------------------------------------------------------------------------
  // Properties of the selection
  // ---------------------------------------------------------------------------

  lemma TakeKeys<T, K>(s: seq<T>, n: int, key: T -> K)
    ensures Keys(Take(s, n), key) <= Keys(s, key)
    ensures DistinctKeys(s, key) ==> DistinctKeys(Take(s, n), key)
  {
    var t := Take(s, n);
    forall k | k in Keys(t, key)
      ensures k in Keys(s, key)
    {
      var i :| 0 <= i < |t| && key(t[i]) == k;
      assert t[i] == s[i];
    }
  }

  lemma RolePickKeys(players: seq<PlayerProfile>, st: Structure, role: Role)
    ensures Keys(RolePick(players, st, role), ProfileId) <= Keys(players, ProfileId)
    ensures DistinctKeys(players, ProfileId) ==> DistinctKeys(RolePick(players, st, role), ProfileId)
    ensures forall i :: 0 <= i < |RolePick(players, st, role)| ==>
      RolePick(players, st, role)[i] in players && RolePick(players, st, role)[i].role == role
  {
    var f := Filter(players, RoleIs(role));
    FilterKeys(players, RoleIs(role), ProfileId);
    FilterMembers(players, RoleIs(role));
    TakeKeys(f, Need(st, role), ProfileId);
  }

  /** Picks for two different roles never share a player id. */
  lemma RolePicksDisjoint(players: seq<PlayerProfile>, st: Structure, a: Role, b: Role)
    requires DistinctKeys(players, ProfileId) && a != b
    ensures Keys(RolePick(players, st, a), ProfileId) !! Keys(RolePick(players, st, b), ProfileId)
  {
    var pa := RolePick(players, st, a);
    var pb := RolePick(players, st, b);
    RolePickKeys(players, st, a);
    RolePickKeys(players, st, b);
    forall k | k in Keys(pa, ProfileId)
      ensures k !in Keys(pb, ProfileId)
    {
      var i :| 0 <= i < |pa| && ProfileId(pa[i]) == k;
      forall j | 0 <= j < |pb|
        ensures ProfileId(pb[j]) != k
      {
        SameKeySameElement(players, ProfileId, pa[i], pb[j]);
      }
    }
  }

  lemma ByRoleKeys(players: seq<PlayerProfile>, st: Structure)
    requires DistinctKeys(players, ProfileId)
    ensures DistinctKeys(ByRole(players, st), ProfileId)
    ensures Keys(ByRole(players, st), ProfileId) <= Keys(players, ProfileId)
  {
    var b := RolePick(players, st, Batter);
    var w := RolePick(players, st, Bowler);
    var a := RolePick(players, st, Allrounder);
    RolePickKeys(players, st, Batter);
    RolePickKeys(players, st, Bowler);
    RolePickKeys(players, st, Allrounder);
    RolePicksDisjoint(players, st, Batter, Bowler);
    RolePicksDisjoint(players, st, Batter, Allrounder);
    RolePicksDisjoint(players, st, Bowler, Allrounder);
    DistinctAppend(b, w, ProfileId);
    DistinctAppend(b + w, a, ProfileId);
  }

  lemma BackfillKeys(players: seq<PlayerProfile>, picked: seq<PlayerProfile>, target: int)
    ensures Keys(Backfill(players, picked, target), ProfileId) !! Keys(picked, ProfileId)
    ensures Keys(Backfill(players, picked, target), ProfileId) <= Keys(players, ProfileId)
    ensures DistinctKeys(players, ProfileId) ==> DistinctKeys(Backfill(players, picked, target), ProfileId)
  {
    var f := Filter(players, IdNotIn(Keys(picked, ProfileId)));
    FilterKeys(players, IdNotIn(Keys(picked, ProfileId)), ProfileId);
    TakeKeys(f, target - |picked|, ProfileId);
    var r := Backfill(players, picked, target);
    forall k | k in Keys(r, ProfileId)
      ensures k !in Keys(picked, ProfileId)
    {
      var i :| 0 <= i < |r| && ProfileId(r[i]) == k;
    }
  }

  /** With distinct player ids in the input, the team never holds a player twice. */
  lemma SelectTeamDistinct(players: seq<PlayerProfile>, st: Structure)
    requires DistinctKeys(players, ProfileId)
    ensures DistinctKeys(SelectTeam(players, st).team, ProfileId)
  {
    var picked := ByRole(players, st);
    var extra := Backfill(players, picked, Total(st));
    ByRoleKeys(players, st);
    BackfillKeys(players, picked, Total(st));
    DistinctAppend(picked, extra, ProfileId);
    PermutationKeys(picked + extra, SelectTeam(players, st).team, ProfileId);
  }

  /** In a dictionary with non-negative counts, the three role quotas together
      never exceed the team size. */
  lemma {:induction false} QuotasWithinTotal(st: Structure, a: string, b: string, c: string)
    requires DistinctKeys(st, StructureKey)
    requires forall i :: 0 <= i < |st| ==> st[i].1 >= 0
    requires a != b && a != c && b != c
    ensures Lookup(st, a) >= 0 && Lookup(st, b) >= 0 && Lookup(st, c) >= 0
    ensures Lookup(st, a) + Lookup(st, b) + Lookup(st, c) <= Total(st)
  {
    if |st| > 0 {
      var rest := st[1..];
      assert st == [st[0]] + rest;
      KeysCons(st[0], rest, StructureKey);
      assert st[0].0 !in Keys(rest, StructureKey) by {
        forall j | 0 <= j < |rest|
          ensures StructureKey(rest[j]) != st[0].0
        {
          assert rest[j] == st[j + 1];
        }
      }
      QuotasWithinTotal(rest, a, b, c);
    }
  }

  lemma ByRoleSize(players: seq<PlayerProfile>, st: Structure)
    requires DistinctKeys(st, StructureKey)
    requires forall i :: 0 <= i < |st| ==> st[i].1 >= 0
    ensures |ByRole(players, st)| <= Total(st)
  {
    RoleNameInjective(Batter, Bowler);
    RoleNameInjective(Batter, Allrounder);
    RoleNameInjective(Bowler, Allrounder);
    QuotasWithinTotal(st, RoleName(Batter), RoleName(Bowler), RoleName(Allrounder));
  }

  /** With distinct player ids and a dictionary of non-negative counts, the
      team has as many players as the structure asks for, or every player
      when there are fewer. */
  lemma SelectTeamSize(players: seq<PlayerProfile>, st: Structure)
    requires DistinctKeys(players, ProfileId)
    requires DistinctKeys(st, StructureKey)
    requires forall i :: 0 <= i < |st| ==> st[i].1 >= 0
    ensures |SelectTeam(players, st).team| == Min(Total(st), |players|)
  {
    var picked := ByRole(players, st);
    var ids := Keys(picked, ProfileId);
    ByRoleKeys(players, st);
    ByRoleSize(players, st);
    DistinctKeysCard(picked, ProfileId);
    DistinctKeysCard(players, ProfileId);
    FilterOutKeys(players, IdNotIn(ids), ProfileId, ids);
  }

  /** Every player picked for a role's quota is on the team. */
  lemma SelectTeamKeepsRolePicks(players: seq<PlayerProfile>, st: Structure, role: Role)
    ensures forall x :: x in RolePick(players, st, role) ==> x in SelectTeam(players, st).team
  {
    var picked := ByRole(players, st);
    var all := picked + Backfill(players, picked, Total(st));
    var team := SelectTeam(players, st).team;
    forall x | x in RolePick(players, st, role)
      ensures x in team
    {
      assert x in picked;
      assert x in all;
      assert x in multiset(team);
    }
  }

  /** A role reported short had every one of its players put on the team. */
  lemma ShortRoleUsesEveryone(players: seq<PlayerProfile>, st: Structure, role: Role)
    requires RoleName(role) in SelectTeam(players, st).shortages
    ensures forall x :: x in players && x.role == role ==> x in SelectTeam(players, st).team
  {
    var f := Filter(players, RoleIs(role));
    FilterMembers(players, RoleIs(role));
    assert RolePick(players, st, role) == f;
    SelectTeamKeepsRolePicks(players, st, role);
  }
}

=== FILE: stats.dfy ===
/** What the per-player pass computes, stated without the pass: each figure
    of a bowling or batting row equals a direct count or sum over the
    deliveries of the match, and a batter's best innings never exceeds the
    batter's total. */
module PlayerStats {
  import opened Common
  import opened Events
  import opened Recompute

  // ---------------------------------------------------------------------------
  // Direct counts over a delivery stream
  // ---------------------------------------------------------------------------

  function Last(s: seq<Entry>): BallEvent
    requires |s| > 0
  {
    s[|s| - 1].event
  }

  function Init(s: seq<Entry>): seq<Entry>
    requires |s| > 0
  {
    s[..|s| - 1]
  }

  /** Legal deliveries bowled by `p`. */
  function BallsBowledBy(s: seq<Entry>, p: int): nat {
    if |s| == 0 then 0
    else BallsBowledBy(Init(s), p) + (if Last(s).bowler == p && Last(s).legal then 1 else 0)
  }

  /** Runs charged to `p` as bowler. */
  function ConcededBy(s: seq<Entry>, p: int): int {
    if |s| == 0 then 0
    else ConcededBy(Init(s), p) + (if Last(s).bowler == p then Conceded(Last(s)) else 0)
  }

  /** Wickets credited to `p` as bowler. */
  function CreditedBy(s: seq<Entry>, p: int): nat {
    if |s| == 0 then 0
    else CreditedBy(Init(s), p) + (if Last(s).bowler == p && Credited(Last(s)) then 1 else 0)
  }

  /** Extras of type `x` in deliveries bowled by `p`. */
  function ExtrasBy(s: seq<Entry>, p: int, x: ExtraType): int {
    if |s| == 0 then 0
    else ExtrasBy(Init(s), p, x) + (if Last(s).bowler == p && Last(s).extraType == x then Last(s).extras else 0)
  }

  /** Bat runs scored by `p` as striker. */
  function RunsBy(s: seq<Entry>, p: int): int {
    if |s| == 0 then 0
    else RunsBy(Init(s), p) + (if Last(s).striker == p then Last(s).runsOffBat else 0)
  }

  /** Legal deliveries faced by `p`. */
  function BallsFacedBy(s: seq<Entry>, p: int): nat {
    if |s| == 0 then 0
    else BallsFacedBy(Init(s), p) + (if Last(s).striker == p && Last(s).legal then 1 else 0)
  }

  /** Deliveries recording `p` as the dismissed player. */
  function DismissalsOf(s: seq<Entry>, p: int): nat {
    if |s| == 0 then 0
    else DismissalsOf(Init(s), p) + (if Last(s).dismissedPlayer == Some(p) then 1 else 0)
  }

  predicate Bowled(s: seq<Entry>, p: int) {
    exists i :: 0 <= i < |s| && s[i].event.bowler == p
  }

  /** Took part as striker, non-striker or dismissed player. */
  predicate Batted(s: seq<Entry>, p: int) {
    exists i :: 0 <= i < |s| && (s[i].event.striker == p || s[i].event.nonStriker == p ||
                                  s[i].event.dismissedPlayer == Some(p))
  }

  /** Someone bowled in a stream exactly when they bowled before its last
      delivery or bowled that delivery. */
  lemma BowledInit(s: seq<Entry>, p: int)
    requires |s| > 0
    ensures Bowled(s, p) <==> Bowled(Init(s), p) || Last(s).bowler == p
  {
    var q := Init(s);
    assert forall i :: 0 <= i < |q| ==> q[i] == s[i];
    if Bowled(s, p) && Last(s).bowler != p {
      var i :| 0 <= i < |s| && s[i].event.bowler == p;
      assert i < |q|;
    }
  }

  /** Likewise for taking part as a batter. */
  lemma BattedInit(s: seq<Entry>, p: int)
    requires |s| > 0
    ensures Batted(s, p) <==> Batted(Init(s), p) || Last(s).striker == p || Last(s).nonStriker == p ||
                              Last(s).dismissedPlayer == Some(p)
  {
    var q := Init(s);
    assert forall i :: 0 <= i < |q| ==> q[i] == s[i];
    if Batted(s, p) && !(Last(s).striker == p || Last(s).nonStriker == p || Last(s).dismissedPlayer == Some(p)) {
      var i :| 0 <= i < |s| && (s[i].event.striker == p || s[i].event.nonStriker == p ||
                                s[i].event.dismissedPlayer == Some(p));
      assert i < |q|;
    }
  }

  // ---------------------------------------------------------------------------
  // The bowling side of the pass
  // ---------------------------------------------------------------------------

  /** The bowling half of the pass on its own. */
  function BowlPass(s: seq<Entry>): map<int, BowlAcc> {
    if |s| == 0 then map[] else BowlStep(BowlPass(Init(s)), s[|s| - 1])
  }

  lemma {:induction false} BowlPassIsPass(s: seq<Entry>)
    ensures Pass(s).bowl == BowlPass(s)
  {
    if |s| > 0 {
      BowlPassIsPass(Init(s));
    }
  }

  /** A bowler has figures exactly when they bowled a delivery, and those
      figures are the direct counts: legal balls, runs charged (byes and leg
      byes excluded), wickets other than run outs, wides and no-balls. */
  lemma PassBowling(s: seq<Entry>, p: int)
    ensures p in Pass(s).bowl <==> Bowled(s, p)
    ensures FiguresIn(Pass(s).bowl, p) ==
      (BallsBowledBy(s, p), ConcededBy(s, p), CreditedBy(s, p), ExtrasBy(s, p, Wide), ExtrasBy(s, p, NoBall))
  {
    BowlPassIsPass(s);
    BowlPassFigures(s, p);
  }

  lemma {:induction false} BowlPassFigures(s: seq<Entry>, p: int)
    ensures p in BowlPass(s) <==> Bowled(s, p)
    ensures FiguresIn(BowlPass(s), p) ==
      (BallsBowledBy(s, p), ConcededBy(s, p), CreditedBy(s, p), ExtrasBy(s, p, Wide), ExtrasBy(s, p, NoBall))
  {
    if |s| > 0 {
      var x := s[|s| - 1];
      BowlPassFigures(Init(s), p);
      BowledInit(s, p);
      BowlStepFigures(BowlPass(Init(s)), x, p);
      var f := FiguresIn(BowlPass(s), p);
      assert f.0 == BallsBowledBy(s, p);
      assert f.1 == ConcededBy(s, p);
      assert f.2 == CreditedBy(s, p);
      assert f.3 == ExtrasBy(s, p, Wide);
      assert f.4 == ExtrasBy(s, p, NoBall);
    }
  }

  /** A bowler's figures as one tuple: balls, runs conceded, wickets,
      wides, no-balls. */
  function Figures(w: BowlAcc): (int, int, int, int, int) {
    (w.ballsBowled, w.runsConceded, w.wickets, w.wides, w.noBalls)
  }

  /** The figures of a player in the tally, zero for a player without a row. */
  function FiguresIn(bowl: map<int, BowlAcc>, p: int): (int, int, int, int, int) {
    if p in bowl then Figures(bowl[p]) else (0, 0, 0, 0, 0)
  }

  /** What one delivery adds to its bowler's figures. */
  function Add(f: (int, int, int, int, int), e: BallEvent): (int, int, int, int, int) {
    (f.0 + Ones(e.legal), f.1 + Conceded(e), f.2 + Ones(Credited(e)),
     f.3 + (if e.extraType == Wide then e.extras else 0),
     f.4 + (if e.extraType == NoBall then e.extras else 0))
  }

  lemma BowlAdds(w: BowlAcc, x: Entry)
    ensures Figures(Bowl(w, x)) == Add(Figures(w), x.event)
  {
  }

  /** One delivery changes the figures of its bowler only, by its legal ball,
      its charged runs, its credited wicket and its wide or no-ball extras. */
  lemma BowlStepFigures(bowl: map<int, BowlAcc>, x: Entry, p: int)
    ensures var r := BowlStep(bowl, x);
      && (p in r <==> p in bowl || p == x.event.bowler)
      && FiguresIn(r, p) == if p != x.event.bowler then FiguresIn(bowl, p) else Add(FiguresIn(bowl, p), x.event)
  {
    var b := EnsureBowler(bowl, x.event.bowler, x.bowlingTeam);
    assert FiguresIn(b, p) == FiguresIn(bowl, p);
    if p == x.event.bowler {
      assert BowlStep(bowl, x)[p] == Bowl(b[p], x);
      BowlAdds(b[p], x);
    }
  }

  // ---------------------------------------------------------------------------
  // The batting side of the pass
  // ---------------------------------------------------------------------------

  function RunsIn(bat: map<int, BatAcc>, p: int): int {
    if p in bat then bat[p].runs else 0
  }

  function FacedIn(bat: map<int, BatAcc>, p: int): int {
    if p in bat then bat[p].ballsFaced else 0
  }

  function DismissalsIn(bat: map<int, BatAcc>, p: int): int {
    if p in bat then bat[p].dismissals else 0
  }

  /** One delivery adds its bat runs and legal ball to the striker only, and
      one dismissal to the dismissed player only. */
  lemma BatStepFigures(bat: map<int, BatAcc>, x: Entry, p: int)
    ensures var r := BatStep(bat, x);
      && (p in r <==> p in bat || p == x.event.striker || p == x.event.nonStriker ||
                      x.event.dismissedPlayer == Some(p))
      && RunsIn(r, p) == RunsIn(bat, p) + (if p == x.event.striker then x.event.runsOffBat else 0)
      && FacedIn(r, p) == FacedIn(bat, p) + (if p == x.event.striker && x.event.legal then 1 else 0)
      && DismissalsIn(r, p) == DismissalsIn(bat, p) + (if x.event.dismissedPlayer == Some(p) then 1 else 0)
  {
    var b := StrikerStep(bat, x);
    StrikerFigures(bat, x, p);
    JoinFigures(b, x.event.nonStriker, x, false, p);
    match x.event.dismissedPlayer
    case None =>
    case Some(out) =>
      JoinFigures(JoinStep(b, x.event.nonStriker, x, false), out, x, true, p);
  }

  lemma StrikerFigures(bat: map<int, BatAcc>, x: Entry, p: int)
    ensures var r := StrikerStep(bat, x);
      && RunsIn(r, p) == RunsIn(bat, p) + (if p == x.event.striker then x.event.runsOffBat else 0)
      && FacedIn(r, p) == FacedIn(bat, p) + (if p == x.event.striker && x.event.legal then 1 else 0)
      && DismissalsIn(r, p) == DismissalsIn(bat, p)
  {
    EnsureBatterFigures(bat, x.event.striker, x.battingTeam, p);
  }

  lemma JoinFigures(bat: map<int, BatAcc>, q: int, x: Entry, out: bool, p: int)
    ensures var r := JoinStep(bat, q, x, out);
      && RunsIn(r, p) == RunsIn(bat, p) && FacedIn(r, p) == FacedIn(bat, p)
      && DismissalsIn(r, p) == DismissalsIn(bat, p) + (if p == q && out then 1 else 0)
  {
    EnsureBatterFigures(bat, q, x.battingTeam, p);
  }

  /** Creating a missing batter entry starts it at zero, so no figure moves. */
  lemma EnsureBatterFigures(bat: map<int, BatAcc>, q: int, team: int, p: int)
    ensures var r := EnsureBatter(bat, q, team);
      RunsIn(r, p) == RunsIn(bat, p) && FacedIn(r, p) == FacedIn(bat, p) &&
      DismissalsIn(r, p) == DismissalsIn(bat, p)
  {
  }

  /** The batting half of the pass on its own. */
  function BatPass(s: seq<Entry>): map<int, BatAcc> {
    if |s| == 0 then map[] else BatStep(BatPass(Init(s)), s[|s| - 1])
  }

  lemma {:induction false} BatPassIsPass(s: seq<Entry>)
    ensures Pass(s).bat == BatPass(s)
  {
    if |s| > 0 {
      BatPassIsPass(Init(s));
    }
  }

  /** A batter has figures exactly when they were striker, non-striker or
      dismissed on some delivery; runs, balls faced and dismissals are the
      direct counts. */
  lemma PassBatting(s: seq<Entry>, p: int)
    ensures p in Pass(s).bat <==> Batted(s, p)
    ensures RunsIn(Pass(s).bat, p) == RunsBy(s, p)
    ensures FacedIn(Pass(s).bat, p) == BallsFacedBy(s, p)
    ensures DismissalsIn(Pass(s).bat, p) == DismissalsOf(s, p)
  {
    BatPassIsPass(s);
    BatPassFigures(s, p);
  }

  lemma {:induction false} BatPassFigures(s: seq<Entry>, p: int)
    ensures p in BatPass(s) <==> Batted(s, p)
    ensures RunsIn(BatPass(s), p) == RunsBy(s, p)
    ensures FacedIn(BatPass(s), p) == BallsFacedBy(s, p)
    ensures DismissalsIn(BatPass(s), p) == DismissalsOf(s, p)
  {
    BatPassMembers(s, p);
    BatPassRuns(s, p);
    BatPassFaced(s, p);
    BatPassDismissals(s, p);
  }

  lemma {:induction false} BatPassMembers(s: seq<Entry>, p: int)
    ensures p in BatPass(s) <==> Batted(s, p)
  {
    if |s| > 0 {
      BatPassMembers(Init(s), p);
      BattedInit(s, p);
      BatStepFigures(BatPass(Init(s)), s[|s| - 1], p);
    }
  }

  lemma {:induction false} BatPassRuns(s: seq<Entry>, p: int)
    ensures RunsIn(BatPass(s), p) == RunsBy(s, p)
  {
    if |s| > 0 {
      BatPassRuns(Init(s), p);
      BatStepFigures(BatPass(Init(s)), s[|s| - 1], p);
    }
  }

  lemma {:induction false} BatPassFaced(s: seq<Entry>, p: int)
    ensures FacedIn(BatPass(s), p) == BallsFacedBy(s, p)
  {
    if |s| > 0 {
      BatPassFaced(Init(s), p);
      BatStepFigures(BatPass(Init(s)), s[|s| - 1], p);
    }
  }

  lemma {:induction false} BatPassDismissals(s: seq<Entry>, p: int)
    ensures DismissalsIn(BatPass(s), p) == DismissalsOf(s, p)
  {
    if |s| > 0 {
      BatPassDismissals(Init(s), p);
      BatStepFigures(BatPass(Init(s)), s[|s| - 1], p);
    }
  }

  // ---------------------------------------------------------------------------
  // Best innings never exceeds the total
  // ---------------------------------------------------------------------------

  predicate NonNegativeRuns(s: seq<Entry>) {
    forall i :: 0 <= i < |s| ==> s[i].event.runsOffBat >= 0
  }

  /** Every per-innings bat total belongs to a known batter, is not negative
      and is at most that batter's overall total. */
  predicate Bounded(t: Tally) {
    && (forall p :: p in t.bat ==> t.bat[p].runs >= 0)
    && (forall k :: k in t.runsByInnings ==>
          k.0 in t.bat && 0 <= t.runsByInnings[k] <= t.bat[k.0].runs)
  }

  lemma BatStepRunsOnlyGrow(bat: map<int, BatAcc>, x: Entry)
    requires x.event.runsOffBat >= 0
    ensures forall q :: q in bat ==> q in BatStep(bat, x) && BatStep(bat, x)[q].runs >= bat[q].runs
    ensures forall q :: q in BatStep(bat, x) && q !in bat ==> BatStep(bat, x)[q].runs >= 0
    ensures BatStep(bat, x)[x.event.striker].runs == RunsIn(bat, x.event.striker) + x.event.runsOffBat
  {
    forall q | q in BatStep(bat, x)
      ensures q in bat ==> BatStep(bat, x)[q].runs >= bat[q].runs
      ensures q !in bat ==> BatStep(bat, x)[q].runs >= 0
    {
      BatStepFigures(bat, x, q);
    }
    BatStepFigures(bat, x, x.event.striker);
  }

  lemma {:induction false} PassBounded(s: seq<Entry>)
    requires NonNegativeRuns(s)
    ensures Bounded(Pass(s))
  {
    if |s| > 0 {
      var q := Init(s);
      var x := s[|s| - 1];
      assert NonNegativeRuns(q) by {
        forall i | 0 <= i < |q|
          ensures q[i].event.runsOffBat >= 0
        {
          assert q[i] == s[i];
        }
      }
      PassBounded(q);
      StepBounded(Pass(q), x);
    }
  }

  lemma StepBounded(t: Tally, x: Entry)
    requires Bounded(t) && x.event.runsOffBat >= 0
    ensures Bounded(Step(t, x))
  {
    BatStepRunsOnlyGrow(t.bat, x);
    var k0 := (x.event.striker, x.inningsId);
    var t' := Step(t, x);
    forall k | k in t'.runsByInnings
      ensures k.0 in t'.bat && 0 <= t'.runsByInnings[k] <= t'.bat[k.0].runs
    {
      if k == k0 {
        if k in t.runsByInnings {
          assert t.runsByInnings[k] <= RunsIn(t.bat, x.event.striker);
        }
      } else {
        assert t'.runsByInnings[k] == t.runsByInnings[k];
      }
    }
    forall p | p in t'.bat
      ensures t'.bat[p].runs >= 0
    {
    }
  }

  /** A batting row's highest score is between 0 and the batter's runs. */
  lemma HighestWithinRuns(s: seq<Entry>, p: int)
    requires NonNegativeRuns(s)
    requires p in Pass(s).bat
    ensures 0 <= BattingRows(Pass(s))[p].highestScore <= BattingRows(Pass(s))[p].runs
    ensures BattingRows(Pass(s))[p].runs == RunsBy(s, p)
  {
    var t := Pass(s);
    PassBounded(s);
    PassBatting(s, p);
    var h := Highest(p, t.bat[p].innings, t.runsByInnings);
    if h != 0 {
      var i :| 0 <= i < |t.bat[p].innings| && h == Get(t.runsByInnings, (p, t.bat[p].innings[i]));
    }
  }

  // ---------------------------------------------------------------------------
  // Best innings against the log
  // ---------------------------------------------------------------------------

  /** Bat runs scored by `p` as striker in innings `i`. */
  function RunsInInnings(s: seq<Entry>, p: int, i: int): int {
    if |s| == 0 then 0
    else RunsInInnings(Init(s), p, i) +
         (if Last(s).striker == p && s[|s| - 1].inningsId == i then Last(s).runsOffBat else 0)
  }

  /** Took part in innings `i` as striker, non-striker or dismissed player. */
  predicate BattedIn(s: seq<Entry>, p: int, i: int) {
    exists k :: 0 <= k < |s| && s[k].inningsId == i &&
                (s[k].event.striker == p || s[k].event.nonStriker == p ||
                 s[k].event.dismissedPlayer == Some(p))
  }

  /** One delivery involves `p` as a batter. */
  predicate Involved(x: Entry, p: int) {
    x.event.striker == p || x.event.nonStriker == p || x.event.dismissedPlayer == Some(p)
  }

  lemma BattedInInit(s: seq<Entry>, p: int, i: int)
    requires |s| > 0
    ensures BattedIn(s, p, i) <==> BattedIn(Init(s), p, i) ||
                                   (s[|s| - 1].inningsId == i && Involved(s[|s| - 1], p))
  {
    var q := Init(s);
    assert forall k :: 0 <= k < |q| ==> q[k] == s[k];
    if BattedIn(s, p, i) && !(s[|s| - 1].inningsId == i && Involved(s[|s| - 1], p)) {
      var k :| 0 <= k < |s| && s[k].inningsId == i &&
               (s[k].event.striker == p || s[k].event.nonStriker == p ||
                s[k].event.dismissedPlayer == Some(p));
      assert k < |q|;
    }
  }

  /** The pass's bat total per (player, innings) is the direct sum. */
  lemma {:induction false} PassRunsByInnings(s: seq<Entry>, p: int, i: int)
    ensures Get(Pass(s).runsByInnings, (p, i)) == RunsInInnings(s, p, i)
  {
    if |s| > 0 {
      PassRunsByInnings(Init(s), p, i);
      StepRuns(Pass(Init(s)), s[|s| - 1], (p, i));
    }
  }

  /** One delivery adds its bat runs to the striker's total for its innings only. */
  lemma StepRuns(t: Tally, x: Entry, k: (int, int))
    ensures Get(Step(t, x).runsByInnings, k) ==
            Get(t.runsByInnings, k) + (if k == (x.event.striker, x.inningsId) then x.event.runsOffBat else 0)
  {
  }

  /** The innings a batter's figures list, none for an unknown batter. */
  function InningsIn(bat: map<int, BatAcc>, p: int): seq<int> {
    if p in bat then bat[p].innings else []
  }

  lemma EnsureBatterInnings(bat: map<int, BatAcc>, q: int, team: int, p: int, i: int)
    ensures i in InningsIn(EnsureBatter(bat, q, team), p) <==> i in InningsIn(bat, p)
  {
  }

  lemma StrikerInnings(bat: map<int, BatAcc>, x: Entry, p: int, i: int)
    ensures i in InningsIn(StrikerStep(bat, x), p) <==>
            i in InningsIn(bat, p) || (p == x.event.striker && i == x.inningsId)
  {
    EnsureBatterInnings(bat, x.event.striker, x.battingTeam, p, i);
  }

  lemma JoinInnings(bat: map<int, BatAcc>, q: int, x: Entry, out: bool, p: int, i: int)
    ensures i in InningsIn(JoinStep(bat, q, x, out), p) <==>
            i in InningsIn(bat, p) || (p == q && i == x.inningsId)
  {
    EnsureBatterInnings(bat, q, x.battingTeam, p, i);
  }

  /** One delivery adds its innings to the innings of each batter it involves,
      and to no one else's. */
  lemma BatStepInnings(bat: map<int, BatAcc>, x: Entry, p: int, i: int)
    ensures i in InningsIn(BatStep(bat, x), p) <==>
            i in InningsIn(bat, p) || (i == x.inningsId && Involved(x, p))
  {
    var b := StrikerStep(bat, x);
    StrikerInnings(bat, x, p, i);
    JoinInnings(b, x.event.nonStriker, x, false, p, i);
    match x.event.dismissedPlayer
    case None =>
    case Some(out) =>
      JoinInnings(JoinStep(b, x.event.nonStriker, x, false), out, x, true, p, i);
  }

  /** A batter's figures list exactly the innings the batter took part in. */
  lemma {:induction false} BatPassInnings(s: seq<Entry>, p: int, i: int)
    ensures i in InningsIn(BatPass(s), p) <==> BattedIn(s, p, i)
  {
    if |s| > 0 {
      BatPassInnings(Init(s), p, i);
      BattedInInit(s, p, i);
      BatStepInnings(BatPass(Init(s)), s[|s| - 1], p, i);
    }
  }

  /** A batting row's highest score is the largest bat total the batter made
      in any innings they took part in, or 0 when every such total is below 1. */
  lemma HighestOfLog(s: seq<Entry>, p: int)
    requires p in Pass(s).bat
    ensures var h := BattingRows(Pass(s))[p].highestScore;
      && h >= 0
      && (forall i :: BattedIn(s, p, i) ==> RunsInInnings(s, p, i) <= h)
      && (h == 0 || exists i :: BattedIn(s, p, i) && h == RunsInInnings(s, p, i))
  {
    var t := Pass(s);
    BatPassIsPass(s);
    var ids := t.bat[p].innings;
    var h := Highest(p, ids, t.runsByInnings);
    assert BattingRows(t)[p].highestScore == h;
    forall i | BattedIn(s, p, i)
      ensures RunsInInnings(s, p, i) <= h
    {
      BatPassInnings(s, p, i);
      var k :| 0 <= k < |ids| && ids[k] == i;
      PassRunsByInnings(s, p, i);
    }
    if h != 0 {
      var k :| 0 <= k < |ids| && h == Get(t.runsByInnings, (p, ids[k]));
      BatPassInnings(s, p, ids[k]);
      PassRunsByInnings(s, p, ids[k]);
    }
  }

  // ---------------------------------------------------------------------------
  // Stored rows against the log
  // ---------------------------------------------------------------------------

  lemma Ratio(x: real, y: real)
    requires y != 0.0
    ensures (x / y) * y == x
  {
  }

  /** Overs are balls over six; economy, strike rate and average are the
      ratios they are named for, and zero when their divisor is. */
  predicate BowlingRatios(row: BowlingRow) {
    && row.overs * 6.0 == row.ballsBowled as real
    && (row.ballsBowled > 0 ==> row.economy * row.overs == row.runsConceded as real)
    && (row.ballsBowled <= 0 ==> row.economy == 0.0)
    && (row.wickets > 0 ==> row.strikeRate * row.wickets as real == row.ballsBowled as real &&
                            row.average * row.wickets as real == row.runsConceded as real)
    && (row.wickets <= 0 ==> row.strikeRate == 0.0 && row.average == 0.0)
  }

  /** The strike rate is runs per hundred balls (zero before a ball is faced);
      the average is runs per dismissal, or the runs themselves when never
      out; not-outs are never negative and, when positive, make up the
      innings together with the dismissals. */
  predicate BattingRatios(row: BattingRow) {
    && (row.ballsFaced > 0 ==> row.strikeRate * row.ballsFaced as real == row.runs as real * 100.0)
    && (row.ballsFaced <= 0 ==> row.strikeRate == 0.0)
    && (row.dismissals > 0 ==> row.average * row.dismissals as real == row.runs as real)
    && (row.dismissals <= 0 ==> row.average == row.runs as real)
    && row.notOuts >= 0
    && (row.notOuts > 0 ==> row.notOuts + row.dismissals == row.innings)
    && (row.notOuts == 0 ==> row.innings <= row.dismissals)
  }

  /** A bowling row copies its figures and derives its ratios from them. */
  lemma BowlingRowRatios(a: BowlAcc)
    ensures var row := BowlingRowOf(a);
      && row.ballsBowled == a.ballsBowled && row.runsConceded == a.runsConceded && row.wickets == a.wickets
      && BowlingRatios(row)
  {
    var balls := a.ballsBowled as real;
    Ratio(balls, 6.0);
    if a.ballsBowled > 0 {
      Ratio(a.runsConceded as real, balls / 6.0);
    }
    if a.wickets > 0 {
      Ratio(balls, a.wickets as real);
      Ratio(a.runsConceded as real, a.wickets as real);
    }
  }

  /** A batting row copies its figures and derives its ratios from them. */
  lemma BattingRowRatios(p: int, a: BatAcc, rbi: map<(int, int), int>)
    ensures var row := BattingRowOf(p, a, rbi);
      && row.runs == a.runs && row.ballsFaced == a.ballsFaced && row.dismissals == a.dismissals
      && row.innings == |a.innings|
      && BattingRatios(row)
  {
    if a.ballsFaced > 0 {
      Ratio(a.runs as real * 100.0, a.ballsFaced as real);
    }
    if a.dismissals > 0 {
      Ratio(a.runs as real, a.dismissals as real);
    }
  }

  /** A bowler's stored row, read against the deliveries: balls, runs and
      wickets are the direct counts, and the ratios follow from them. */
  lemma BowlingRowFromLog(s: seq<Entry>, p: int)
    requires Bowled(s, p)
    ensures p in BowlingRows(Pass(s))
    ensures var row := BowlingRows(Pass(s))[p];
      && row.ballsBowled == BallsBowledBy(s, p) && row.runsConceded == ConcededBy(s, p)
      && row.wickets == CreditedBy(s, p)
      && BowlingRatios(row)
  {
    PassBowling(s, p);
    var t := Pass(s);
    assert BowlingRows(t)[p] == BowlingRowOf(t.bowl[p]);
    BowlingRowRatios(t.bowl[p]);
  }

  /** A batter's stored row, read against the deliveries: runs, balls faced
      and dismissals are the direct counts, the ratios follow from them, and
      the highest score is the best innings total. */
  lemma BattingRowFromLog(s: seq<Entry>, p: int)
    requires Batted(s, p)
    ensures p in BattingRows(Pass(s))
    ensures var row := BattingRows(Pass(s))[p];
      && row.runs == RunsBy(s, p) && row.ballsFaced == BallsFacedBy(s, p)
      && row.dismissals == DismissalsOf(s, p)
      && BattingRatios(row)
      && row.highestScore >= 0
      && (forall i :: BattedIn(s, p, i) ==> RunsInInnings(s, p, i) <= row.highestScore)
      && (row.highestScore == 0 || exists i :: BattedIn(s, p, i) && row.highestScore == RunsInInnings(s, p, i))
  {
    PassBatting(s, p);
    HighestOfLog(s, p);
    var t := Pass(s);
    assert BattingRows(t)[p] == BattingRowOf(p, t.bat[p], t.runsByInnings);
    BattingRowRatios(p, t.bat[p], t.runsByInnings);
  }
}

=== FILE: text.dfy ===
/** The string handling the program relies on: Python's `str.strip()` with
    its Unicode whitespace set, `str.lower()` on ASCII letters, and decimal
    rendering of integers. */
module Text {

  /** The characters Python's `str.isspace()` accepts: tab through carriage
      return, the four information separators U+001C..U+001F, space, next line,
      no-break space, and the Unicode space and line/paragraph separators. */
  predicate IsSpace(c: char) {
    ('\t' <= c <= '\r') || ('\U{1c}' <= c <= ' ') || c == '\U{85}' || c == '\U{a0}' ||
    c == '\U{1680}' || ('\U{2000}' <= c <= '\U{200a}') || c == '\U{2028}' || c == '\U{2029}' ||
    c == '\U{202f}' || c == '\U{205f}' || c == '\U{3000}'
  }

  predicate IsBlank(s: string) {
    forall i :: 0 <= i < |s| ==> IsSpace(s[i])
  }

  /** Drops leading whitespace; the result is the longest suffix not starting with it. */
  function TrimLeft(s: string): (r: string)
    ensures |r| <= |s| && r == s[|s| - |r|..]
    ensures forall i :: 0 <= i < |s| - |r| ==> IsSpace(s[i])
    ensures |r| > 0 ==> !IsSpace(r[0])
  {
    if |s| > 0 && IsSpace(s[0]) then TrimLeft(s[1..]) else s
  }

  /** Drops trailing whitespace; the result is the longest prefix not ending with it. */
  function TrimRight(s: string): (r: string)
    ensures |r| <= |s| && r == s[..|r|]
    ensures forall i :: |r| <= i < |s| ==> IsSpace(s[i])
    ensures |r| > 0 ==> !IsSpace(r[|r| - 1])
  {
    if |s| > 0 && IsSpace(s[|s| - 1]) then TrimRight(s[..|s| - 1]) else s
  }

  /** Python's `s.strip()` with no argument. */
  function Strip(s: string): (r: string)
    ensures |r| > 0 ==> !IsSpace(r[0]) && !IsSpace(r[|r| - 1])
  {
    TrimRight(TrimLeft(s))
  }

  /** `s.strip() == ""` holds exactly for the all-whitespace strings. */
  lemma StripEmptyIffBlank(s: string)
    ensures Strip(s) == "" <==> IsBlank(s)
  {
    var l := TrimLeft(s);
    if Strip(s) == "" {
      assert |l| == 0;
    }
  }

  lemma TrimLeftNoop(s: string)
    requires |s| > 0 ==> !IsSpace(s[0])
    ensures TrimLeft(s) == s
  {
  }

  lemma TrimRightNoop(s: string)
    requires |s| > 0 ==> !IsSpace(s[|s| - 1])
    ensures TrimRight(s) == s
  {
  }

  /** A word of lower-case letters and underscores is its own stripped,
      lower-cased form. */
  lemma PlainWordNormal(s: string)
    requires forall i :: 0 <= i < |s| ==> 'a' <= s[i] <= 'z' || s[i] == '_'
    ensures Strip(s) == s && Lower(s) == s
  {
    TrimLeftNoop(s);
    TrimRightNoop(s);
  }

  /** Stripping twice is stripping once. */
  lemma StripIdempotent(s: string)
    ensures Strip(Strip(s)) == Strip(s)
  {
    var r := Strip(s);
    TrimLeftNoop(r);
    TrimRightNoop(r);
  }

  function LowerChar(c: char): char {
    if 'A' <= c <= 'Z' then (c as int + 32) as char else c
  }

  /** Python's `s.lower()` for ASCII letters. */
  function Lower(s: string): (r: string)
    ensures |r| == |s|
    ensures forall i :: 0 <= i < |s| ==> r[i] == LowerChar(s[i])
  {
    seq(|s|, i requires 0 <= i < |s| => LowerChar(s[i]))
  }

  lemma LowerIdempotent(s: string)
    ensures Lower(Lower(s)) == Lower(s)
  {
  }

  /** Lower-casing neither creates nor removes whitespace at the ends, so
      `strip().lower()` applied twice is applied once. */
  lemma StripLowerIdempotent(s: string)
    ensures Lower(Strip(Lower(Strip(s)))) == Lower(Strip(s))
  {
    var u := Strip(s);
    var t := Lower(u);
    if |u| > 0 {
      LowerCharSpace(u[0]);
      LowerCharSpace(u[|u| - 1]);
    }
    TrimLeftNoop(t);
    TrimRightNoop(t);
    LowerIdempotent(u);
  }

  lemma LowerCharSpace(c: char)
    ensures IsSpace(LowerChar(c)) <==> IsSpace(c)
  {
  }

  // ---------------------------------------------------------------------------
  // Decimal rendering, as an f-string renders an `int`
  // ---------------------------------------------------------------------------

  predicate IsDigit(c: char) {
    '0' <= c <= '9'
  }

  function DigitChar(d: nat): (c: char)
    requires d < 10
    ensures IsDigit(c)
  {
    ('0' as int + d) as char
  }

  function DigitValue(c: char): (d: nat)
    requires IsDigit(c)
    ensures d < 10
  {
    c as int - '0' as int
  }

  predicate AllDigits(s: string) {
    forall i :: 0 <= i < |s| ==> IsDigit(s[i])
  }

  function NatToString(n: nat): (r: string)
    ensures |r| >= 1 && AllDigits(r)
  {
    if n < 10 then [DigitChar(n)] else NatToString(n / 10) + [DigitChar(n % 10)]
  }

  function ParseNat(s: string): nat
    requires AllDigits(s)
  {
    if |s| == 0 then 0 else ParseNat(s[..|s| - 1]) * 10 + DigitValue(s[|s| - 1])
  }

  /** Decimal rendering of a natural number reads back as that number. */
  lemma {:induction false} ParseNatToString(n: nat)
    ensures ParseNat(NatToString(n)) == n
  {
    if n >= 10 {
      var s := NatToString(n);
      assert s[..|s| - 1] == NatToString(n / 10);
      ParseNatToString(n / 10);
    }
  }

  /** Python's `str(i)` for an integer: a minus sign, then the digits. */
  function IntToString(i: int): (r: string)
    ensures |r| >= 1
    ensures i < 0 <==> r[0] == '-'
    ensures i >= 0 ==> AllDigits(r)
  {
    if i < 0 then "-" + NatToString(-i) else NatToString(i)
  }

  predicate IsIntString(s: string) {
    if |s| > 0 && s[0] == '-' then |s| > 1 && AllDigits(s[1..]) else |s| > 0 && AllDigits(s)
  }

  function ParseInt(s: string): int
    requires IsIntString(s)
  {
    if s[0] == '-' then -(ParseNat(s[1..]) as int) else ParseNat(s)
  }

  /** Rendering an integer and reading it back gives the integer. */
  lemma IntToStringRoundTrip(i: int)
    ensures IsIntString(IntToString(i))
    ensures ParseInt(IntToString(i)) == i
  {
    if i < 0 {
      assert IntToString(i)[1..] == NatToString(-i);
      ParseNatToString(-i);
    } else {
      ParseNatToString(i);
    }
  }
}
